=== FILE: README.md ===
# Placement portal: social graph, engagement and notifications in Dafny

This project models the request-handling core of a Django placement portal. Students
publish projects. Other users follow students, like and view projects, and send hire
requests. Recruiters, once an administrator approves them, browse public work, save
profiles and start hiring processes.

The database is an abstract `Store` (`models.dfy`):
- the tables with ordered primary keys are sequences in key order: students, projects, follow edges, hiring processes and notifications;
- `ProjectView` and `ProjectLike` rows are sets of (project, user) facts, because their `unique_together` constraint makes them sets;
- accounts and recruiter profiles are maps keyed by user id;
- a single `nextId` counter stands for the auto-increment keys and for `created_at` order.

Every view function is a pure transition `(store, actor, arguments) -> (store', reply)`.
Its contract says which reply comes back in which situation and exactly what changes in
the store. `Valid(st)` gathers what the database guarantees: the uniqueness
constraints, and keys increasing in creation order. It is used only as a hypothesis of
the lemmas that show each transition preserves it.

Around the state machine sit small pure functions:
- the recruiter approval rules of the admin;
- login dispatch and the sign-up validation chain;
- the admin profile filters;
- comma tag splitting, deduplication and sorting;
- the suspicious-content scan command;
- the `split` template filter;
- the browser's relative-time formatting, unread badge and unseen-id insertion, cookie lookup and hire-form guard.

Library calls the code relies on are parameters of the model:
- `json.loads`/`json.dumps` are a `Codec`, and `RoundTrips(codec)` says the decoder reads back what the encoder writes;
- `datetime.strptime`, `date.today()` and `EmailValidator` are a `SignUpEnv`;
- `authenticate` is its result, an optional user id;
- the `icontains` case folding is a `fold` function;
- `decodeURIComponent` is a `decode` function that may fail.

The modules are:
- `common`, `strings`, `sorting`: options, counting, filtering, splitting and joining, trimming, ASCII lower-casing, ordered insertion;
- `json`, `models`: the codec and the store;
- `social`: the follow request, accept/reject and toggle paths, and the profile page;
- `engagement`: likes, views, the own-projects page and editing;
- `feed`: the notifications page, the unread poll, hire notifications and the unread count;
- `recruiting`: the recruiter views;
- `accounts`: sign-up and login;
- `admin`: admin rules, the profile filters and the public directory;
- `scan`, `filters`, `client`: the management command, the template filter and the two scripts.

## Model

| member | source | states |
|---|---|---|
| Models.Accept | accounts/models.py:118-120 | accepting sets the status to accepted and keeps the edge's id, follower and followed profile |
| Models.Reject | accounts/models.py:122-124 | rejecting sets the status to rejected and keeps every other field |
| Models.LastDecisionWins | accounts/models.py:118-124 | accept and reject are idempotent, and a later decision overrides an earlier one |
| Models.IncrementProfileViews | accounts/models.py:55-57 | the profile view counter rises by exactly one and no other field changes |
| Models.IncrementHiringProcess | accounts/models.py:37-39 | the hiring counter rises by exactly one and no other field changes |
| Models.ViewCount | accounts/models.py:75-76 | the view count is the number of distinct users with a view row for the project |
| Models.LikeCount | accounts/models.py:78-79 | the like count is the number of distinct users with a like row for the project |
| Models.IsLikedBy | accounts/models.py:81-82 | a project is liked by a user exactly when a like row for that pair exists |
| Models.RowsForCard | accounts/models.py:84-98 | with one row per (project, user) pair, the rows of a project are as many as its users |
| Models.UniqueEdgesAppend | accounts/models.py:112-113 | adding an edge for a pair with no edge keeps follow edges unique per (follower, following) |
| Models.UniqueEdgesRemove | accounts/models.py:112-113 | deleting an edge keeps follow edges unique |
| Social.RequestFollow | accounts/views.py:55-101 | a non-POST (refused by `@require_POST`), an unknown profile, one's own profile, or an existing edge (whose status is returned) change nothing; otherwise exactly one pending edge and one follow notification to the target, with no project, hiring record or payload, are added, and nothing else changes |
| Social.RequestFollowTwice | accounts/views.py:68-86 | a second request after a successful one reports "already pending" and changes nothing |
| Social.RequestFollowExistingIsStable | accounts/views.py:68-79 | a request against an existing edge is a no-op that repeats the same answer |
| Social.RequestFollowKeepsValid | accounts/views.py:82-94 | a follow request preserves edge uniqueness and key order |
| Social.HandleFollowRequest | accounts/views.py:103-153 | a non-POST (refused by `@require_POST`), an unknown request, a caller who does not own the followed profile, or any action other than accept/reject leave the store unchanged; accept sets accepted and emits one follow_accepted notification, with no project, hiring record or payload, to the follower's profile (a follower without a profile gets the status change and a server error); reject sets rejected and emits nothing; the status is not checked first; the count returned is the number of accepted edges to the target |
| Social.DecisionMovesFollowerCount | accounts/views.py:118-146 | accepting a non-accepted edge raises the follower count by one, rejecting an accepted edge lowers it by one, and a decision that repeats the current status leaves it unchanged |
| Social.HandleFollowRequestKeepsValid | accounts/views.py:118-137 | deciding a follow request preserves edge uniqueness and key order |
| Social.ToggleFollow | accounts/notification_views.py:24-57 | a non-POST, an unknown profile or one's own profile change nothing; an existing edge in any status is deleted and nothing is emitted; otherwise one pending edge and one follow notification (no project, hiring record or payload) are added; `following` is true exactly when no edge existed |
| Social.ToggleOffLeavesNoEdge | accounts/notification_views.py:41-44 | after a toggle that unfollows, no edge remains for the pair |
| Social.ToggleFollowTwiceFromNone | accounts/notification_views.py:35-52 | two toggles from no edge leave no edge and the follow table as before, while the notification count grows by exactly one |
| Social.ToggleFollowTwiceResetsStatus | accounts/notification_views.py:35-52 | two toggles from an existing (even accepted) edge leave a pending edge and one more notification |
| Social.ToggleFollowKeepsValid | accounts/notification_views.py:35-52 | toggling a follow preserves edge uniqueness and key order |
| Social.StudentProfileView | accounts/views.py:21-53 | the follow status is absent on one's own profile or with no edge and is otherwise the edge's status; follower and following counts count accepted edges only; pending requests are listed only to the owner; the projects, private ones included, are exactly the profile's and are listed newest first |
| Engagement.ToggleProjectLike | accounts/student_views.py:93-115 | an existing like is removed (liked = false), otherwise one is added (liked = true); nothing but the like set changes, so no notification is emitted; the count returned is the number of likes afterwards |
| Engagement.ToggleLikeMovesCount | accounts/student_views.py:103-113 | a like raises the count by one and an unlike lowers it by one |
| Engagement.ToggleLikeTwice | accounts/student_views.py:97-113 | toggling a like twice restores the store and reports the original state and count |
| Engagement.RecordProjectView | accounts/student_views.py:165-218 | a non-POST, a missing id or an id naming no project change nothing and report "not found" or "invalid"; a non-integer id, or a project whose owner cannot be read, gives the generic error exactly then; otherwise the view is counted: a superuser or the owner adds no view row, anyone else adds the (project, user) row if absent, and the current view count is returned |
| Engagement.RecordViewIdempotent | accounts/student_views.py:188-189 | recording the same view twice changes the store at most once |
| Engagement.RecordViewRaisesCountByAtMostOne | accounts/student_views.py:189-199 | one recorded view raises the view count by at most one |
| Engagement.ViewProject | accounts/student_views.py:156-162 | the page fails, changing nothing, exactly when the project, its owner or the (logged-in) user is missing; otherwise it shows the project and counts the view under the same owner/superuser exclusion |
| Engagement.ViewPathsAgree | accounts/student_views.py:160-161 | the page view and the AJAX view endpoint leave the same view rows |
| Engagement.StudentProjects | accounts/student_views.py:24-36 | the own-projects page lists exactly the requester's projects, newest first |
| Engagement.RecordViewIdsAlwaysEmpty | accounts/student_views.py:26-32 | the list of projects to record views for is always empty |
| Engagement.OwnProjectsTargetNothing | accounts/student_views.py:29-32 | no project owned by the requester is ever a view target |
| Engagement.Merge | accounts/student_views.py:52-59 | each field takes the posted value when present and keeps the old one when absent; allow_downloads is true exactly when the posted value is "on" |
| Engagement.EditProject | accounts/student_views.py:46-83 | without a profile the view fails; "not found" comes exactly when the requester owns no project with that id; otherwise a GET returns that project unchanged and a POST replaces that one row by its merge with the posted fields, touching nothing else |
| Engagement.EditProjectIdempotent | accounts/student_views.py:50-66 | posting the same edit twice gives the same store as posting it once |
| Feed.DisplayData | accounts/notification_views.py:79-93 | a non-empty payload that parses to a JSON object with job_title is shown as the "Job Title" text (with the "Message" line when message is present), and only such a payload changes; missing, empty or unparseable payloads are left as they are |
| Feed.HirePayloadDisplay | accounts/notification_views.py:79-88 | a payload encoded from a job title and message is displayed as "Job Title: X" followed by "\nMessage: Y" |
| Feed.MarkRead | accounts/notification_views.py:96 | the bulk update marks every notification of the recipient read and leaves the others untouched |
| Feed.Notifications | accounts/notification_views.py:59-113 | without a profile nothing changes; otherwise all of the recipient's notifications become read, no other notification or table changes, and the page lists the recipient's notifications with their display text |
| Feed.FeedIsNewestFirst | accounts/notification_views.py:73-75 | the feed lists notifications newest first |
| Feed.FeedLeavesNothingUnread | accounts/notification_views.py:95-96 | after the feed page the recipient has no unread notification, and opening it again changes nothing |
| Feed.NoUnreadAfterMark | accounts/notification_views.py:96 | marking a recipient's notifications read leaves them none unread |
| Feed.PollData | accounts/notification_views.py:144-148 | non-empty data is included parsed when it decodes and as raw text otherwise |
| Feed.Describe | accounts/notification_views.py:128-148 | a poll item carries the notification's id, kind, sender and read flag; its project as (id, title) and its hiring record as (id, job title, message) exactly when the reference resolves; and its payload parsed when it parses, raw otherwise |
| Feed.NotificationsUnreadJson | accounts/notification_views.py:116-155 | the unread count counts every unread notification of the recipient, uncapped; the items are the first min(10, count) unread ones newest first, each described in full (project, hiring record and payload included); no flag is modified |
| Feed.PollIsNewestFirst | accounts/notification_views.py:127 | the poll items are ordered newest first |
| Feed.SendHireNotification | accounts/notification_views.py:157-178 | a non-POST, an unknown project, a project whose profile cannot be read, or one's own project create nothing, each reported exactly in its case; otherwise exactly one unread hire notification referencing the project is sent to its owner |
| Feed.HireSentReachesOwner | accounts/notification_views.py:166-178 | a sent hire request keeps the database's guarantees, raises the owner's unread count by one, and is the first item of the owner's next poll |
| Feed.UnreadCount | accounts/context_processors.py:3-13 | the badge count is 0 for anonymous visitors, superusers and users without a student profile |
| Feed.UnreadCountMatchesPoll | accounts/context_processors.py:7-10 | for other users the badge count equals the poll endpoint's unread count |
| Feed.BadgeClearedByFeed | accounts/context_processors.py:7-10 | after the feed page the badge count is 0 |
| Recruiting.RecruiterAccess | accounts/recruiter_views.py:18-23 | access is granted exactly to users with an approved recruiter profile; users without one and pending recruiters are told apart |
| Recruiting.RawTags | accounts/recruiter_views.py:227 | an empty tags string gives no tags; otherwise the comma pieces join back to the string and contain no comma |
| Recruiting.StrippedTags | accounts/recruiter_views.py:34 | one tag per comma piece, each with no surrounding whitespace |
| Recruiting.WithTags | accounts/recruiter_views.py:33-39 | every listed project is paired with its stripped tags, in listing order |
| Recruiting.AllTags | accounts/recruiter_views.py:31-42 | the offered tags are strictly ascending (so duplicate-free) and are exactly the tags of the listed projects |
| Recruiting.RecruiterStudentProjects | accounts/recruiter_views.py:14-54 | without approved access the page is refused; otherwise it lists exactly the Public projects with their stripped tags, and the sorted union of those tags |
| Recruiting.ListingIsNewestFirst | accounts/recruiter_views.py:26-28 | the listing is newest first |
| Recruiting.EmptyTagsListNothing | accounts/recruiter_views.py:34 | a project with an empty tags string is listed with no tags |
| Recruiting.ToggleSaveStudent | accounts/recruiter_views.py:96-134 | a saved student is removed (saved = false), an unsaved one added (saved = true); only that recruiter's saved set changes; the count is the set's size afterwards |
| Recruiting.ToggleSaveTwice | accounts/recruiter_views.py:115-122 | toggling a save twice restores the store |
| Recruiting.InitiateHiringProcess | accounts/recruiter_views.py:136-184 | a POST with a known student by a recruiter with both fields creates one pending hiring process, raises the recruiter's hiring count by one, and emits one unread hire notification that references the process and carries the encoded title and message; every failure changes nothing |
| Recruiting.HireRequestDisplay | accounts/recruiter_views.py:163-166 | the hire notification's payload is shown on the feed as the job title and message, and the poll includes it parsed |
| Recruiting.InitiateHiringKeepsValid | accounts/recruiter_views.py:145-167 | starting a hiring process preserves uniqueness and key order |
| Recruiting.ViewStudentProfile | accounts/recruiter_views.py:186-209 | a known student's profile views rise by one before the recruiter check, and nothing else changes; a recruiter sees the updated profile, whether the student is saved, and exactly the student's Public projects, newest first |
| Recruiting.ProfileVisitsAccumulate | accounts/recruiter_views.py:186-194 | every visit counts, refused ones included: two visits raise the counter by two, change nothing else, and keep the database's guarantees |
| Recruiting.ViewProjectDetails | accounts/recruiter_views.py:211-233 | unknown and non-Public projects record nothing; a Public project gets a (project, user) view row with no owner or superuser exclusion, even when the recruiter check then fails; the tags are the raw comma pieces |
| Recruiting.DetailsCountOwnerViews | accounts/recruiter_views.py:221-222 | the owner's visit to the details page is counted as a view, whereas the view endpoint would not count it |
| Recruiting.Skills | accounts/recruiter_views.py:348 | skills are the union of the raw, unstripped comma pieces of the given projects' tags |
| Recruiting.SavedProfiles | accounts/recruiter_views.py:333-358 | every saved student, and only those, gets a card, none twice (the source leaves the order open; the model lists the cards in key order); each card holds the student's newest Public projects, at most three, and their skills |
| Recruiting.Entry | accounts/recruiter_views.py:343-349 | a card holds min(3, n) of the student's n Public projects, newest first and newer than every Public project left out, and the union of their tags |
| Accounts.ContactShape | accounts/views.py:197 | an accepted contact has an optional "+", a non-zero digit and 7 to 14 more digits, so 8 to 16 characters and no newline |
| Accounts.TrailingNewlineAccepted | accounts/views.py:197 | the pattern as written accepts a number followed by a newline; the corrected one does not |
| Accounts.AddStudentWith | accounts/views.py:163-223 | the checks run in order (credentials, username, date, email format, contact format, email uniqueness, contact uniqueness) and the first failure is reported with nothing created; when all pass, an account is created, and then either the profile is added and the candidate count returned, or a missing profile field makes the save fail after the account exists |
| Accounts.AddStudent | accounts/views.py:197-204 | a new student's contact matches the number pattern, and its contact and email differ from every existing student's |
| Accounts.AddStudentAsWritten | accounts/views.py:197 | with the pattern as written, a new student's contact only matches that pattern |
| Accounts.AddStudentKeepsNumbersDistinct | accounts/views.py:197-204 | with the corrected pattern, no two students share a phone number |
| Accounts.DuplicateNumberAsWritten | accounts/views.py:197-222 | as written, a second student can register an existing number followed by a newline; the corrected pattern rejects it |
| Accounts.LoginView | accounts/views.py:225-252 | admin entry requires a superuser; student entry requires neither superuser nor staff; recruiter entry requires a non-superuser with an approved recruiter profile; a non-superuser on the recruiter entry gets "pending approval" exactly when their profile is pending and "invalid credentials for recruiter" exactly when they have none; every other combination gets the wrong-user-type message, and failed authentication is refused |
| Accounts.PendingRecruiterUsesStudentEntry | accounts/views.py:235-245 | a pending recruiter who is not staff enters through the student option and is told "pending approval" through the recruiter option |
| Admin.StatusChoices | accounts/admin.py:12-15 | the status choices are exactly pending and approved |
| Admin.ReadonlyFields | accounts/admin.py:17-21 | the base read-only fields always come first, and at most one field follows them: status, read-only exactly for an approved recruiter |
| Admin.HasDeletePermission | accounts/admin.py:23-26 | a recruiter record may be deleted exactly when its status is not read-only on the change form, that is, unless it is approved |
| Admin.SaveModel | accounts/admin.py:28-38 | the recruiter is saved; when status changed, the user's staff flag becomes "status is approved" and nothing else changes; otherwise accounts are untouched |
| Admin.ApprovalOpensRecruiterEntry | accounts/admin.py:29-33 | after approval the recruiter logs in as a recruiter, is refused as a student, passes the recruiter guard, sees the status read-only on the change form, and cannot be deleted |
| Admin.RevertToPendingReopensStudentEntry | accounts/admin.py:34-37 | moving back to pending clears staff, so the recruiter option reports pending approval and the student option lets the user in; the status is editable again and the record can be deleted |
| Admin.Row | accounts/admin_views.py:64-69 | a student's row counts the student's projects and sums their view counts |
| Admin.AdminProfiles | accounts/admin_views.py:28-95 | an all-digit year outside 1..9999 sends the view to its fallback, exactly then, which lists every student by name; otherwise the rows are exactly the students passing every active filter (search, valid month, all-digit year, course), ordered by name, each with its derived columns |
| Admin.OutOfRangeYearListsEveryone | accounts/admin_views.py:88-93 | an unrepresentable year lists exactly the students of the unfiltered page, in the same order |
| Admin.MalformedMonthIgnored | accounts/admin_views.py:39-44 | a month that is not all digits or not within 1..12 is ignored |
| Admin.MalformedYearIgnored | accounts/admin_views.py:47-50 | a year that is not all digits is ignored |
| Admin.SumViewsCountsRows | accounts/admin_views.py:69 | summing the view counts of distinct projects counts their view rows |
| Admin.ProjectsViewsCountsRows | accounts/admin_views.py:69 | a student's project views equal the number of view rows on the student's projects |
| Admin.PublicStudentProjects | accounts/admin_views.py:125-131 | every student appears once, ordered by name, with exactly as many of their own Public projects as they have |
| Admin.DirectoryIsNewestFirst | accounts/admin_views.py:128 | each student's public projects are listed newest first |
| Scan.FindAll | accounts/management/commands/scan_suspicious.py:25 | every recorded match is one of the patterns |
| Scan.LeftmostRecorded | accounts/management/commands/scan_suspicious.py:25 | the scan records the first alternative matching at the leftmost hit position and resumes right after that match, as `findall` does with one combined alternation |
| Scan.FindAllSound | accounts/management/commands/scan_suspicious.py:50 | every recorded match occurs in the text, case-insensitively |
| Scan.FindAllComplete | accounts/management/commands/scan_suspicious.py:50 | if any pattern occurs, something is recorded |
| Scan.FindAllNonEmptyIff | accounts/management/commands/scan_suspicious.py:50-51 | matches are found exactly when some pattern occurs |
| Scan.OverlapNotRecorded | accounts/management/commands/scan_suspicious.py:25 | a pattern overlapping an earlier match is not recorded, as with one combined regex |
| Scan.ScanText | accounts/management/commands/scan_suspicious.py:42-48 | the scanned text contains each of title, description, tags, project link and output link whole, and is empty only when all five are |
| Scan.FieldHitFlags | accounts/management/commands/scan_suspicious.py:42-51 | a pattern occurring, in any case, inside any one field gets the project reported |
| Scan.Matched | accounts/management/commands/scan_suspicious.py:52 | the recorded matches are a set of patterns, each of which occurs (in any case) in the project's text, non-empty exactly when the project is flagged |
| Scan.MatchedLeftmost | accounts/management/commands/scan_suspicious.py:50-52 | the reported matches are the leftmost match together with every match of the scan resumed after it, so no match that an earlier one does not overlap is dropped |
| Scan.Scope | accounts/management/commands/scan_suspicious.py:31-34 | limit 0 scans every project; a positive limit scans the first n by id |
| Scan.Findings | accounts/management/commands/scan_suspicious.py:39-52 | every flagged project gets its report and every finding is the report of a flagged project, one per flagged project, in the projects' key order; findings are empty exactly when nothing is flagged |
| Scan.Handle | accounts/management/commands/scan_suspicious.py:30-56 | a negative limit fails; otherwise the total is the scope size, and the findings are exactly the reports of the scope's flagged projects, in key order |
| Scan.FlaggedIff | accounts/management/commands/scan_suspicious.py:50-51 | a project is flagged exactly when some pattern occurs in its text, case-insensitively |
| Filters.SplitFilter | accounts/templatetags/custom_filters.py:5-10 | no value or an empty value gives no pieces; an empty separator fails; otherwise the pieces join back to the value, number one more than the separator occurrences, and contain no separator |
| Filters.SplitWithoutSeparator | accounts/templatetags/custom_filters.py:9 | a value without the separator splits into itself alone |
| Client.FormatTimeAgo | staticfiles/accounts/notifications_poll.js:30-39 | the age is in seconds below a minute, whole minutes below an hour, whole hours below a day, and whole days beyond; an invalid date renders as NaN days |
| Client.TimeAgoUnitBoundaries | staticfiles/accounts/notifications_poll.js:33-37 | each unit is used exactly on its interval |
| Client.UpdateBadge | staticfiles/accounts/notifications_poll.js:14-28 | without the button nothing changes; otherwise a badge exists, showing the count, exactly when the count is positive |
| Client.UpdateBadgeForgetsHistory | staticfiles/accounts/notifications_poll.js:18-27 | the badge depends only on the latest count |
| Client.PrependedMembers | staticfiles/accounts/notifications_poll.js:92-97 | the ids put on top are exactly the response's ids not seen before |
| Client.PrependedNoDuplicates | staticfiles/accounts/notifications_poll.js:92-97 | no id is put on top twice, even if the response repeats it |
| Client.PrependedNewestFirst | staticfiles/accounts/notifications_poll.js:92-96 | for a newest-first response the inserted block is newest first |
| Client.PrependUnseen | staticfiles/accounts/notifications_poll.js:92-98 | the insertion loop puts the unseen block on top of the list and remembers every response id |
| Client.Poll | staticfiles/accounts/notifications_poll.js:84-99 | a missing or unsuccessful response changes nothing; otherwise the badge follows the count and, when the list is on the page, the unseen ids are added on top |
| Client.PollKeepsListUnique | staticfiles/accounts/notifications_poll.js:82-98 | across polls the list never shows an id twice, and every listed id is remembered |
| Client.GetCookie | staticfiles/accounts/student_profile_recruiter.js:103-116 | an empty cookie string gives null; otherwise the result is the decoded rest of the first trimmed entry starting with "name=", or null when no entry matches |
| Client.SubmitHireForm | staticfiles/accounts/student_profile_recruiter.js:60-79 | the form is posted, with both fields as typed, exactly when neither the job title nor the message is empty and reading the csrftoken cookie does not throw |
| Client.ServerAcceptsEmptyHire | accounts/recruiter_views.py:145-150 | the server starts a hiring process from empty job title and message strings |
| Client.GuardedHireHasText | staticfiles/accounts/student_profile_recruiter.js:66-78 | a hiring process started from what the form posts has a non-empty job title and message |

## Left out

- The Django ORM, HTTP requests and responses, templates, messages and redirects: replies are plain datatypes, and rendered pages are reduced to the data they show.
- Authentication, `login`/`logout`, `datetime`, `EmailValidator`, `json` and `decodeURIComponent` are parameters of the operations. Their behaviour is whatever the caller supplies.
- Razorpay order creation and `complete_recruiter_registration` (accounts/recruiter_views.py:298-398): an external payment gateway and account provisioning. The pending default of a new recruiter is therefore not exercised.
- The dashboards `recruiter_home` and `browse_talent`: only their approval guard is modelled, as `Recruiting.RecruiterAccess`. Their aggregate queries are left out.
- Image and screenshot uploads, and the pages that only render (`admin_home`, `admin_projects`, `student_projects_api`, `student_project_details`, `student_project_detail`, `student_home`, `delete_project`, `remove_from_recent_uploads`). None of them is part of the state machine.
- Concurrency: requests are taken one at a time, and `get_or_create` is a single step.
- Engagement.RecordProjectView: `int()` parsing of the posted id is left to the caller, who classifies it as absent, malformed or a number; leading signs, spaces and underscores that Python accepts are not modelled.
- The changelist's `list_editable = ('status',)` (accounts/admin.py:8) edits the status without consulting `get_readonly_fields`, so an approved status can still be changed there; it reaches `save_model` the same way, which `Admin.SaveModel` models. Other fields of an approved recruiter stay editable on the change form.
- Client.SubmitHireForm: the URL encoding of the body and the server's form decoding are taken to undo each other. A missing csrftoken cookie still posts, with a `null` header the server then rejects; that CSRF rejection is not modelled.
- The routing table, the middleware, migrations, the hashing script, the admin sidebar script, and the DOM, fetch, timer and toast code of both scripts.
- Output formatting: debug prints, tracebacks and the scan command's stdout text. The scan returns its total and findings as data.
- The sender's username and `created_at` timestamps in poll items: users are ids, and time is the key order.
- Accounts.ContactMatches: `\d` is read as an ASCII digit. Python's `re` also accepts other Unicode decimal digits there.
- Admin.AdminProfiles: `isdigit` is read as ASCII digits, so a non-ASCII digit that `int` rejects (which would also reach the fallback) is not modelled. Case-insensitive containment is a `fold` parameter rather than Unicode case folding. Name order is code-point order, not the database collation.
- Scan.FindAll: `IGNORECASE` is modelled as ASCII lower-casing. Unicode case folding is not modelled.
- Recruiting.StrippedTags: states that each stripped tag has no surrounding whitespace and is no longer than its comma piece. It does not state which characters remain.
- Feed.UnreadCount: its own contract covers only the zero cases. Its value for other users is stated by `Feed.UnreadCountMatchesPoll`.
- Client.FormatTimeAgo: returns the amount and unit rather than the text (`"5m"`). A `Date` that does not parse becomes `NotANumber`, which the script renders as "NaNd" because every comparison with NaN fails. The `catch` branch cannot be reached.

## Findings

| source | as written | input that shows it | evidently intended | confidence | as-written member | corrected member |
|---|---|---|---|---|---|---|
| accounts/views.py:197 | `re.match(r"^\+?[1-9]\d{7,14}$", contact)`: `$` also matches just before a final newline, so a number followed by "\n" passes | an existing student has contact "+14155552671"; signing up with contact "+14155552671\n" passes every check, including contact uniqueness, and stores a second student with the same number | accept only a whole international number (for example `re.fullmatch`, or `\Z`), so that contact uniqueness means number uniqueness | not executed | Accounts.DuplicateNumberAsWritten | Accounts.AddStudentKeepsNumbersDistinct |

=== FILE: accounts.dfy ===
/** Student sign-up (`add_student`) and the login form's user-type dispatch
    (`login_view`). */
module Accounts {
  import opened Common
  import opened Strings
  import opened Models

  // ------------------------------------------------------------ contact numbers

  /** The whole string matches `\+?[1-9]\d{7,14}`: an optional plus, a non-zero digit,
      then seven to fourteen digits. */
  predicate NumberBody(c: string) {
    var d := Unsigned(c);
    8 <= |d| <= 15 && '1' <= d[0] <= '9' && forall k :: 0 <= k < |d| ==> IsDigit(d[k])
  }

  /** `c` without its leading plus, if it has one. */
  function Unsigned(c: string): string {
    if |c| > 0 && c[0] == '+' then c[1..] else c
  }

  /** `re.match(r"^\+?[1-9]\d{7,14}$", c)` as Python evaluates it: `$` also matches just
      before a final newline, so a number followed by "\n" is accepted. */
  predicate ContactMatchesAsWritten(c: string) {
    NumberBody(c) || (|c| > 0 && c[|c| - 1] == '\n' && NumberBody(c[..|c| - 1]))
  }

  /** The intended check: the whole contact is the number, nothing after it. */
  predicate ContactMatches(c: string) {
    NumberBody(c)
  }

  /** An accepted contact is 8 to 16 characters of digits after an optional plus. */
  lemma ContactShape(c: string)
    requires ContactMatches(c)
    ensures 8 <= |c| <= 16
    ensures forall k :: 0 <= k < |c| ==> IsDigit(c[k]) || (k == 0 && c[k] == '+')
    ensures '\n' !in c
  {
    var d := Unsigned(c);
    assert forall k :: 0 <= k < |d| ==> IsDigit(d[k]);
    if |c| > 0 && c[0] == '+' {
      forall k | 0 <= k < |c| ensures IsDigit(c[k]) || (k == 0 && c[k] == '+') {
        if k > 0 {
          assert c[k] == d[k - 1];
        }
      }
    }
  }

  /** The check as written lets a number through with a newline after it, which the
      intended check refuses. */
  lemma TrailingNewlineAccepted()
    ensures ContactMatchesAsWritten("+14155552671\n")
    ensures !ContactMatches("+14155552671\n")
  {
    var c := "+14155552671\n";
    var n := "+14155552671";
    assert c[..|c| - 1] == n;
    var d := Unsigned(n);
    assert d == "14155552671";
    assert forall k :: 0 <= k < |d| ==> IsDigit(d[k]);
    assert NumberBody(n);
    var e := Unsigned(c);
    assert e == "14155552671\n";
    assert !IsDigit(e[11]);
  }

  // ------------------------------------------------------------ add_student

  /** The POSTed fields; `None` where the field is absent. */
  datatype SignUpForm = SignUpForm(
    username: Option<string>,
    password: Option<string>,
    name: Option<string>,
    contact: Option<string>,
    email: Option<string>,
    address: Option<string>,
    joinedDate: Option<string>,
    course: Option<string>)

  /** The library services sign-up relies on: `strptime(_, '%Y-%m-%d')`, today's date
      and Django's `EmailValidator`. */
  datatype SignUpEnv = SignUpEnv(
    parseDate: string -> Option<Date>,
    today: Date,
    validEmail: string -> bool)

  datatype SignUpReply =
    | SignUpInvalidRequest
    | CredentialsRequired
    | UsernameTaken
    | InvalidDate
    | FutureDate
    | InvalidEmail
    | InvalidContact
    | EmailTaken
    | ContactTaken
    | SignUpServerError
    | SignedUp(candidates: nat)

  /** A field that is present and not empty (Python truthiness). */
  predicate Filled(o: Option<string>) {
    o.Some? && o.value != ""
  }

  /** `value or ""`. */
  function OrEmpty(o: Option<string>): string {
    if o.Some? then o.value else ""
  }

  // The seven checks, in the order they run.

  predicate CredentialsGiven(f: SignUpForm) {
    Filled(f.username) && Filled(f.password)
  }

  predicate UsernameFree(st: Store, f: SignUpForm) {
    forall u :: u in st.accounts ==> st.accounts[u].username != OrEmpty(f.username)
  }

  /** The parsed joining date, when the field parses. */
  function Joined(f: SignUpForm, env: SignUpEnv): Option<Date> {
    if f.joinedDate.None? then None else env.parseDate(f.joinedDate.value)
  }

  predicate DateGiven(f: SignUpForm, env: SignUpEnv) {
    Joined(f, env).Some?
  }

  predicate DateNotFuture(f: SignUpForm, env: SignUpEnv)
    requires DateGiven(f, env)
  {
    !DateAfter(Joined(f, env).value, env.today)
  }

  /** `EmailValidator` refuses a missing value. */
  predicate EmailValid(f: SignUpForm, env: SignUpEnv) {
    f.email.Some? && env.validEmail(f.email.value)
  }

  predicate EmailFree(st: Store, f: SignUpForm) {
    forall i :: 0 <= i < |st.students| ==> st.students[i].email != OrEmpty(f.email)
  }

  predicate ContactFree(st: Store, f: SignUpForm) {
    forall i :: 0 <= i < |st.students| ==> st.students[i].contact != OrEmpty(f.contact)
  }

  /** Every check passes, with `contactOk` as the contact format check. */
  predicate AllChecksPass(st: Store, f: SignUpForm, env: SignUpEnv, contactOk: string -> bool) {
    && CredentialsGiven(f) && UsernameFree(st, f)
    && DateGiven(f, env) && DateNotFuture(f, env)
    && EmailValid(f, env) && contactOk(OrEmpty(f.contact))
    && EmailFree(st, f) && ContactFree(st, f)
  }

  /** The profile columns that are NOT NULL: saving a profile without them raises. */
  predicate ProfileComplete(f: SignUpForm) {
    f.name.Some? && f.contact.Some? && f.address.Some? && f.course.Some?
  }

  /** `add_student` with a given contact format check. The checks run in a fixed order
      and the first failing one answers; any failure creates nothing. When all pass,
      the account is created, and then the profile, whose save raises when a NOT NULL
      column is missing, leaving the account behind. */
  function AddStudentWith(
    st: Store, f: SignUpForm, env: SignUpEnv, contactOk: string -> bool, isPost: bool)
    : (res: (Store, SignUpReply))
    ensures res.1 == SignUpInvalidRequest <==> !isPost
    ensures res.1 == CredentialsRequired <==> isPost && !CredentialsGiven(f)
    ensures res.1 == UsernameTaken ==> CredentialsGiven(f) && !UsernameFree(st, f)
    ensures res.1 == InvalidDate ==>
      CredentialsGiven(f) && UsernameFree(st, f) && !DateGiven(f, env)
    ensures res.1 == FutureDate ==>
      CredentialsGiven(f) && UsernameFree(st, f) && DateGiven(f, env) && !DateNotFuture(f, env)
    ensures res.1 == InvalidEmail ==>
      CredentialsGiven(f) && UsernameFree(st, f) && DateGiven(f, env) && DateNotFuture(f, env)
      && !EmailValid(f, env)
    ensures res.1 == InvalidContact ==>
      CredentialsGiven(f) && UsernameFree(st, f) && DateGiven(f, env) && DateNotFuture(f, env)
      && EmailValid(f, env) && !contactOk(OrEmpty(f.contact))
    ensures res.1 == EmailTaken ==>
      CredentialsGiven(f) && UsernameFree(st, f) && DateGiven(f, env) && DateNotFuture(f, env)
      && EmailValid(f, env) && contactOk(OrEmpty(f.contact)) && !EmailFree(st, f)
    ensures res.1 == ContactTaken ==>
      CredentialsGiven(f) && UsernameFree(st, f) && DateGiven(f, env) && DateNotFuture(f, env)
      && EmailValid(f, env) && contactOk(OrEmpty(f.contact)) && EmailFree(st, f)
      && !ContactFree(st, f)
    ensures res.1 == SignUpServerError || res.1.SignedUp? <==>
      isPost && AllChecksPass(st, f, env, contactOk)
    ensures res.1 == SignUpServerError <==>
      isPost && AllChecksPass(st, f, env, contactOk) && !ProfileComplete(f)
    ensures res.1 != SignUpServerError && !res.1.SignedUp? ==> res.0 == st
    ensures res.1 == SignUpServerError || res.1.SignedUp? ==>
      && f.username.Some?
      && res.0.accounts == st.accounts[st.nextId := Account(f.username.value, false, false)]
    ensures res.1 == SignUpServerError ==>
      res.0 == st.(accounts := res.0.accounts, nextId := st.nextId + 1)
    ensures res.1.SignedUp? ==>
      && res.0 == st.(accounts := res.0.accounts, students := res.0.students, nextId := st.nextId + 2)
      && |res.0.students| == |st.students| + 1
      && res.0.students[..|st.students|] == st.students
      && var s := res.0.students[|st.students|];
      && s.id == st.nextId + 1 && s.owner == st.nextId && s.profileViews == 0
      && Some(s.name) == f.name && Some(s.contact) == f.contact && Some(s.email) == f.email
      && Some(s.address) == f.address && Some(s.course) == f.course
      && Some(s.joined) == Joined(f, env)
      && res.1.candidates == |res.0.students|
  {
    if !isPost then (st, SignUpInvalidRequest)
    else if !CredentialsGiven(f) then (st, CredentialsRequired)
    else if !UsernameFree(st, f) then (st, UsernameTaken)
    else if !DateGiven(f, env) then (st, InvalidDate)
    else if !DateNotFuture(f, env) then (st, FutureDate)
    else if !EmailValid(f, env) then (st, InvalidEmail)
    else if !contactOk(OrEmpty(f.contact)) then (st, InvalidContact)
    else if !EmailFree(st, f) then (st, EmailTaken)
    else if !ContactFree(st, f) then (st, ContactTaken)
    else
      var u := st.nextId;
      var withUser := st.(accounts := st.accounts[u := Account(f.username.value, false, false)],
                          nextId := u + 1);
      if !ProfileComplete(f) then (withUser, SignUpServerError)
      else
        var s := Student(u + 1, u, f.name.value, OrEmpty(f.contact), f.email.value,
                         f.address.value, Joined(f, env).value, f.course.value, 0);
        var st' := withUser.(students := st.students + [s], nextId := u + 2);
        (st', SignedUp(|st'.students|))
  }

  /** `add_student` with the intended contact check. */
  function AddStudent(st: Store, f: SignUpForm, env: SignUpEnv, isPost: bool)
    : (res: (Store, SignUpReply))
    ensures res.1.SignedUp? ==>
      && |res.0.students| == |st.students| + 1
      && ContactMatches(res.0.students[|st.students|].contact)
      && forall i :: 0 <= i < |st.students| ==>
           st.students[i].contact != res.0.students[|st.students|].contact
           && st.students[i].email != res.0.students[|st.students|].email
  {
    AddStudentWith(st, f, env, ContactMatches, isPost)
  }

  /** `add_student` as written, with Python's reading of the `$` anchor. */
  function AddStudentAsWritten(st: Store, f: SignUpForm, env: SignUpEnv, isPost: bool)
    : (res: (Store, SignUpReply))
    ensures res.1.SignedUp? ==>
      |res.0.students| == |st.students| + 1
      && ContactMatchesAsWritten(res.0.students[|st.students|].contact)
  {
    AddStudentWith(st, f, env, ContactMatchesAsWritten, isPost)
  }

  /** No two profiles share a contact number, the newline after it ignored. */
  ghost predicate DistinctNumbers(st: Store) {
    forall i, j :: 0 <= i < j < |st.students| ==>
      Number(st.students[i].contact) != Number(st.students[j].contact)
  }

  /** The number a contact stands for: the text before a final newline, if any. */
  function Number(c: string): string {
    if |c| > 0 && c[|c| - 1] == '\n' then c[..|c| - 1] else c
  }

  /** With the intended check, sign-up never gives a number to a second profile,
      provided every stored contact is itself a well-formed number. */
  lemma AddStudentKeepsNumbersDistinct(st: Store, f: SignUpForm, env: SignUpEnv)
    requires DistinctNumbers(st)
    requires forall i :: 0 <= i < |st.students| ==> ContactMatches(st.students[i].contact)
    ensures var st' := AddStudent(st, f, env, true).0;
      DistinctNumbers(st')
      && forall i :: 0 <= i < |st'.students| ==> ContactMatches(st'.students[i].contact)
  {
    var (st', r) := AddStudent(st, f, env, true);
    if r.SignedUp? {
      var c := st'.students[|st.students|].contact;
      ContactShape(c);
      assert Number(c) == c;
      forall i | 0 <= i < |st.students|
        ensures Number(st.students[i].contact) != Number(c)
      {
        ContactShape(st.students[i].contact);
      }
    }
  }

  /** With the check as written, the same number is registered twice: a second
      sign-up whose contact is an existing number plus a newline succeeds. */
  lemma DuplicateNumberAsWritten()
    ensures var env := SignUpEnv((d: string) => Some(Date(2024, 1, 15)), Date(2025, 6, 1), (e: string) => true);
      var st := Store(map[0 := Account("asha", false, false)], map[],
        [Student(1, 0, "Asha", "+14155552671", "asha@example.com", "Pune", Date(2024, 1, 15), "BCA", 0)],
        [], {}, {}, [], [], [], 2);
      var f := SignUpForm(Some("ravi"), Some("pw"), Some("Ravi"), Some("+14155552671\n"),
        Some("ravi@example.com"), Some("Pune"), Some("2024-01-15"), Some("BCA"));
      && AddStudentAsWritten(st, f, env, true).1 == SignedUp(2)
      && Number(AddStudentAsWritten(st, f, env, true).0.students[0].contact)
         == Number(AddStudentAsWritten(st, f, env, true).0.students[1].contact)
      && AddStudent(st, f, env, true).1 == InvalidContact
  {
    TrailingNewlineAccepted();
    var c := "+14155552671\n";
    assert c[..|c| - 1] == "+14155552671";
  }

  // ------------------------------------------------------------ login_view

  datatype LoginOutcome =
    | LoginForm
    | AdminHome
    | StudentHome
    | RecruiterHome
    | PendingApprovalMessage
    | NotARecruiter
    | WrongUserType
    | BadCredentials

  /** `login_view`: `authenticated` is the account `authenticate` returned for the
      submitted email and password, if any. Administrators log in only as admin;
      staff accounts cannot use the student entry; the recruiter entry needs an
      approved recruiter profile. */
  function LoginView(st: Store, isPost: bool, userType: Option<string>, authenticated: Option<UserId>)
    : (o: LoginOutcome)
    requires authenticated.Some? ==> authenticated.value in st.accounts
    ensures !isPost ==> o == LoginForm
    ensures isPost && authenticated.None? ==> o == BadCredentials
    ensures o == AdminHome <==>
      isPost && authenticated.Some? && userType == Some("admin")
      && st.accounts[authenticated.value].isSuperuser
    ensures o == StudentHome <==>
      isPost && authenticated.Some? && userType == Some("student")
      && !st.accounts[authenticated.value].isSuperuser && !st.accounts[authenticated.value].isStaff
    ensures o == RecruiterHome <==>
      isPost && authenticated.Some? && userType == Some("recruiter")
      && !st.accounts[authenticated.value].isSuperuser
      && authenticated.value in st.recruiters
      && st.recruiters[authenticated.value].status == RecruiterApproved
    ensures o == PendingApprovalMessage <==>
      isPost && authenticated.Some? && userType == Some("recruiter")
      && !st.accounts[authenticated.value].isSuperuser
      && authenticated.value in st.recruiters
      && st.recruiters[authenticated.value].status.RecruiterPending?
    ensures o == NotARecruiter <==>
      isPost && authenticated.Some? && userType == Some("recruiter")
      && !st.accounts[authenticated.value].isSuperuser
      && authenticated.value !in st.recruiters
    ensures o == WrongUserType <==>
      isPost && authenticated.Some?
      && !(userType == Some("admin") && st.accounts[authenticated.value].isSuperuser)
      && !(userType == Some("student") && !st.accounts[authenticated.value].isSuperuser
           && !st.accounts[authenticated.value].isStaff)
      && !(userType == Some("recruiter") && !st.accounts[authenticated.value].isSuperuser)
  {
    if !isPost then LoginForm
    else match authenticated
      case None => BadCredentials
      case Some(u) =>
        var a := st.accounts[u];
        if userType == Some("admin") && a.isSuperuser then AdminHome
        else if userType == Some("student") && !a.isSuperuser && !a.isStaff then StudentHome
        else if userType == Some("recruiter") && !a.isSuperuser then
          if u !in st.recruiters then NotARecruiter
          else if st.recruiters[u].status == RecruiterApproved then RecruiterHome
          else PendingApprovalMessage
        else WrongUserType
  }

  /** A recruiter still pending approval (not yet staff) gets in through the student
      entry, though not through the recruiter one. */
  lemma PendingRecruiterUsesStudentEntry(st: Store, u: UserId)
    requires u in st.accounts && u in st.recruiters
    requires st.recruiters[u].status == RecruiterPending
    requires !st.accounts[u].isSuperuser && !st.accounts[u].isStaff
    ensures LoginView(st, true, Some("student"), Some(u)) == StudentHome
    ensures LoginView(st, true, Some("recruiter"), Some(u)) == PendingApprovalMessage
  {
  }
}

=== FILE: admin.dfy ===
/** The administrator's side: the recruiter approval rules of the admin site, the
    filtered student list, and the public student directory. */
module Admin {
  import opened Common
  import opened Strings
  import opened Sorting
  import opened Models
  import Accounts
  import Recruiting

  // ------------------------------------------------------------ RecruiterProfileAdmin

  /** The column value of a recruiter status. */
  function StatusValue(s: RecruiterStatus): string {
    match s
    case RecruiterPending => "pending"
    case RecruiterApproved => "approved"
  }

  /** The status choices the admin form offers: pending and approved, nothing else. */
  function StatusChoices(): (r: seq<(string, string)>)
    ensures forall s: RecruiterStatus :: exists k :: 0 <= k < |r| && r[k].0 == StatusValue(s)
    ensures forall k :: 0 <= k < |r| ==> exists s: RecruiterStatus :: r[k].0 == StatusValue(s)
  {
    var r := [("pending", "Pending"), ("approved", "Approved")];
    assert r[0].0 == StatusValue(RecruiterPending);
    assert r[1].0 == StatusValue(RecruiterApproved);
    r
  }

  /** The fields the admin never lets anyone edit. */
  const BaseReadonly: seq<string> := ["payment_id", "payment_status", "payment_amount", "created_at"]

  /** `get_readonly_fields`: the payment fields and creation time always; the status
      too once the recruiter is approved. `obj` is `None` on the add form. */
  function ReadonlyFields(obj: Option<Recruiter>): (r: seq<string>)
    ensures |r| >= |BaseReadonly| && r[..|BaseReadonly|] == BaseReadonly
    ensures |r| <= |BaseReadonly| + 1
    ensures "status" in r <==> obj.Some? && obj.value.status == RecruiterApproved
  {
    if obj.Some? && obj.value.status == RecruiterApproved then BaseReadonly + ["status"]
    else BaseReadonly
  }

  /** `has_delete_permission`: an approved recruiter cannot be deleted, so a record
      can be deleted exactly when its status is editable on the change form. */
  function HasDeletePermission(obj: Option<Recruiter>): (b: bool)
    ensures b <==> "status" !in ReadonlyFields(obj)
  {
    !(obj.Some? && obj.value.status == RecruiterApproved)
  }

  /** `save_model`: store the edited profile; when the status was among the changed
      fields, the owner's staff flag follows it, set exactly when approved. */
  function SaveModel(st: Store, u: UserId, rec: Recruiter, statusChanged: bool): (st': Store)
    requires u in st.accounts
    ensures st'.recruiters == st.recruiters[u := rec]
    ensures statusChanged ==>
      && u in st'.accounts
      && st'.accounts[u].isStaff == (rec.status == RecruiterApproved)
      && st'.accounts[u].(isStaff := st.accounts[u].isStaff) == st.accounts[u]
      && st'.accounts.Keys == st.accounts.Keys
      && (forall v :: v in st.accounts && v != u ==> st'.accounts[v] == st.accounts[v])
    ensures !statusChanged ==> st'.accounts == st.accounts
    ensures st' == st.(accounts := st'.accounts, recruiters := st'.recruiters)
  {
    var accounts :=
      if statusChanged
      then st.accounts[u := st.accounts[u].(isStaff := rec.status == RecruiterApproved)]
      else st.accounts;
    st.(accounts := accounts, recruiters := st.recruiters[u := rec])
  }

  /** Approving a recruiter opens the recruiter entry and the recruiter pages, closes
      the student entry, makes the status read-only on the change form, and refuses
      deletion. */
  lemma ApprovalOpensRecruiterEntry(st: Store, u: UserId, rec: Recruiter)
    requires u in st.accounts && !st.accounts[u].isSuperuser
    requires rec.status == RecruiterApproved
    ensures var st' := SaveModel(st, u, rec, true);
      && Accounts.LoginView(st', true, Some("recruiter"), Some(u)) == Accounts.RecruiterHome
      && Accounts.LoginView(st', true, Some("student"), Some(u)) == Accounts.WrongUserType
      && Recruiting.RecruiterAccess(st', u) == Recruiting.Granted
      && "status" in ReadonlyFields(Some(rec))
      && !HasDeletePermission(Some(rec))
  {
  }

  /** Moving a recruiter back to pending closes the recruiter entry and, since the
      staff flag is cleared, reopens the student one; the status is editable again and
      the record can be deleted. */
  lemma RevertToPendingReopensStudentEntry(st: Store, u: UserId, rec: Recruiter)
    requires u in st.accounts && !st.accounts[u].isSuperuser
    requires rec.status == RecruiterPending
    ensures var st' := SaveModel(st, u, rec, true);
      && Accounts.LoginView(st', true, Some("recruiter"), Some(u)) == Accounts.PendingApprovalMessage
      && Accounts.LoginView(st', true, Some("student"), Some(u)) == Accounts.StudentHome
      && Recruiting.RecruiterAccess(st', u) == Recruiting.PendingApproval
      && "status" !in ReadonlyFields(Some(rec))
      && HasDeletePermission(Some(rec))
  {
  }

  // ------------------------------------------------------------ admin_profiles

  /** The query string; a missing parameter is the empty string. */
  datatype ProfileQuery = ProfileQuery(search: string, month: string, year: string, course: string)

  /** `icontains` with the database's case folding `fold`. */
  predicate IContains(fold: string -> string, s: string, pat: string) {
    Contains(fold(s), fold(pat))
  }

  /** The month filter applies when the stripped month is all digits within 1..12. */
  predicate MonthApplies(q: ProfileQuery) {
    IsDigits(Strip(q.month)) && 1 <= DigitsValue(Strip(q.month)) <= 12
  }

  predicate YearApplies(q: ProfileQuery) {
    IsDigits(Strip(q.year))
  }

  /** The range of years `datetime.date` can represent. */
  const MinYear := 1
  const MaxYear := 9999

  /** The year filter applies, but to a year outside `MinYear..MaxYear`: building the
      lookup's date bounds raises once the list is evaluated, inside the `try`. */
  predicate YearRaises(q: ProfileQuery) {
    YearApplies(q) && !(MinYear <= DigitsValue(Strip(q.year)) <= MaxYear)
  }

  /** A profile passes every filter that applies; a filter whose parameter is blank
      or malformed does not apply. */
  predicate Selected(fold: string -> string, q: ProfileQuery, s: Student) {
    && (Strip(q.search) != "" ==> IContains(fold, s.name, Strip(q.search)))
    && (MonthApplies(q) ==> s.joined.month == DigitsValue(Strip(q.month)))
    && (YearApplies(q) ==> s.joined.year == DigitsValue(Strip(q.year)))
    && (Strip(q.course) != "" ==> IContains(fold, s.course, Strip(q.course)))
  }

  function SelectedBy(fold: string -> string, q: ProfileQuery): Student -> bool {
    (s: Student) => Selected(fold, q, s)
  }

  function StudentName(s: Student): string {
    s.name
  }

  /** The projects of profile `sid`. */
  function ProjectsOf(sid: RowId): Project -> bool {
    (p: Project) => p.student == sid
  }

  /** The sum of the view counts of the given projects. */
  function SumViews(st: Store, ps: seq<Project>): nat {
    if |ps| == 0 then 0 else SumViews(st, ps[..|ps| - 1]) + ViewCount(st, ps[|ps| - 1].id)
  }

  datatype ProfileRow = ProfileRow(student: Student, projectsCount: nat, projectsViews: nat)

  datatype ProfilesPage =
    | Profiles(rows: seq<ProfileRow>)
    /** The `except` branch: every profile by name, without the derived columns, and an
        error message. */
    | FilterFailed(students: seq<Student>)

  /** The derived columns of one listed profile. */
  function Row(st: Store, s: Student): (r: ProfileRow)
    ensures r.student == s
    ensures r.projectsCount == CountIf(st.projects, ProjectsOf(s.id))
    ensures r.projectsViews == SumViews(st, Filter(st.projects, ProjectsOf(s.id)))
  {
    var mine := Filter(st.projects, ProjectsOf(s.id));
    ProfileRow(s, |mine|, SumViews(st, mine))
  }

  /** `admin_profiles`: the profiles passing every applicable filter, ordered by name,
      each with its project count and total project views; an unrepresentable year
      sends the view to its fallback, which lists every profile by name. */
  function AdminProfiles(st: Store, fold: string -> string, q: ProfileQuery): (page: ProfilesPage)
    ensures page.FilterFailed? <==> YearRaises(q)
    ensures page.FilterFailed? ==>
      SortedBy(page.students, StudentName) && multiset(page.students) == multiset(st.students)
    ensures page.Profiles? ==>
      && SortedBy(Map(page.rows, RowStudent), StudentName)
      && multiset(Map(page.rows, RowStudent)) == multiset(Filter(st.students, SelectedBy(fold, q)))
      && forall k :: 0 <= k < |page.rows| ==> page.rows[k] == Row(st, page.rows[k].student)
  {
    if YearRaises(q) then FilterFailed(SortBy(st.students, StudentName))
    else Profiles(RowsOf(st, SortBy(Filter(st.students, SelectedBy(fold, q)), StudentName)))
  }

  /** The query with every parameter missing. */
  const NoQuery := ProfileQuery("", "", "", "")

  /** An unrepresentable year does not select nobody: the page lists exactly the
      profiles of the unfiltered page, in the same order. */
  lemma OutOfRangeYearListsEveryone(st: Store, fold: string -> string, q: ProfileQuery)
    requires YearRaises(q)
    ensures AdminProfiles(st, fold, NoQuery).Profiles?
    ensures AdminProfiles(st, fold, q).students == Map(AdminProfiles(st, fold, NoQuery).rows, RowStudent)
  {
    assert Strip("") == "";
    assert !YearRaises(NoQuery);
    FilterAll(st.students, SelectedBy(fold, NoQuery));
  }

  /** One row per given profile, in the given order. */
  function RowsOf(st: Store, picked: seq<Student>): (rows: seq<ProfileRow>)
    ensures Map(rows, RowStudent) == picked
    ensures forall k :: 0 <= k < |rows| ==> rows[k] == Row(st, rows[k].student)
  {
    var rows := seq(|picked|, k requires 0 <= k < |picked| => Row(st, picked[k]));
    assert Map(rows, RowStudent) == picked;
    rows
  }

  function RowStudent(r: ProfileRow): Student {
    r.student
  }

  /** A month that is not all digits, or not within 1..12, filters nothing: the list is
      the one obtained with no month at all. */
  lemma MalformedMonthIgnored(st: Store, fold: string -> string, q: ProfileQuery)
    requires !MonthApplies(q)
    ensures AdminProfiles(st, fold, q) == AdminProfiles(st, fold, q.(month := ""))
  {
    assert Strip("") == "";
    assert !MonthApplies(q.(month := ""));
    FilterAgrees(st.students, SelectedBy(fold, q), SelectedBy(fold, q.(month := "")));
  }

  /** A year that is not all digits filters nothing. */
  lemma MalformedYearIgnored(st: Store, fold: string -> string, q: ProfileQuery)
    requires !YearApplies(q)
    ensures AdminProfiles(st, fold, q) == AdminProfiles(st, fold, q.(year := ""))
  {
    assert Strip("") == "";
    assert !YearApplies(q.(year := ""));
    FilterAgrees(st.students, SelectedBy(fold, q), SelectedBy(fold, q.(year := "")));
  }

  /** The view rows of the given projects. */
  function ViewRowsOf(views: set<Fact>, ps: seq<Project>): set<Fact> {
    set f | f in views && exists j :: 0 <= j < |ps| && ps[j].id == f.project
  }

  /** Projects with pairwise distinct primary keys. */
  ghost predicate DistinctIds(ps: seq<Project>) {
    forall i, j :: 0 <= i < j < |ps| ==> ps[i].id != ps[j].id
  }

  /** Summing per-project view counts counts every view row of those projects once. */
  lemma {:induction false} SumViewsCountsRows(st: Store, ps: seq<Project>)
    requires DistinctIds(ps)
    ensures SumViews(st, ps) == |ViewRowsOf(st.views, ps)|
  {
    if |ps| > 0 {
      var init := ps[..|ps| - 1];
      var last := ps[|ps| - 1];
      assert DistinctIds(init);
      SumViewsCountsRows(st, init);
      RowsForCard(st.views, last.id);
      ViewRowsSplit(st.views, ps);
      assert SumViews(st, ps) == SumViews(st, init) + |RowsFor(st.views, last.id)|;
    }
  }

  /** The view rows of a list of projects with distinct keys are those of all but the
      last project, plus, disjointly, those of the last. */
  lemma ViewRowsSplit(views: set<Fact>, ps: seq<Project>)
    requires |ps| > 0 && DistinctIds(ps)
    ensures var init := ps[..|ps| - 1];
      var last := ps[|ps| - 1];
      && ViewRowsOf(views, ps) == ViewRowsOf(views, init) + RowsFor(views, last.id)
      && ViewRowsOf(views, init) !! RowsFor(views, last.id)
  {
    var init := ps[..|ps| - 1];
    var last := ps[|ps| - 1];
    forall f | f in ViewRowsOf(views, ps)
      ensures f in ViewRowsOf(views, init) + RowsFor(views, last.id)
    {
      var j :| 0 <= j < |ps| && ps[j].id == f.project;
      if j < |ps| - 1 {
        assert init[j] == ps[j];
      }
    }
    forall f | f in ViewRowsOf(views, init)
      ensures f in ViewRowsOf(views, ps) && f !in RowsFor(views, last.id)
    {
      var j :| 0 <= j < |init| && init[j].id == f.project;
      assert ps[j] == init[j];
    }
  }

  /** The view rows of profile `sid`'s projects. */
  function StudentViewRows(st: Store, sid: RowId): set<Fact> {
    set f | f in st.views && exists j :: 0 <= j < |st.projects| && st.projects[j].id == f.project
                                         && st.projects[j].student == sid
  }

  /** `projects_views` is the number of view rows over all of the student's projects. */
  lemma ProjectsViewsCountsRows(st: Store, s: Student)
    requires Valid(st)
    ensures Row(st, s).projectsViews == |StudentViewRows(st, s.id)|
  {
    var mine := Filter(st.projects, ProjectsOf(s.id));
    assert DistinctIds(mine) by {
      FilterKeepsOrder(st.projects, ProjectsOf(s.id));
    }
    SumViewsCountsRows(st, mine);
    var lhs := ViewRowsOf(st.views, mine);
    var rhs := StudentViewRows(st, s.id);
    assert lhs == rhs by {
      forall f | f in lhs ensures f in rhs {
        var j :| 0 <= j < |mine| && mine[j].id == f.project;
        assert mine[j] in st.projects;
        var i :| 0 <= i < |st.projects| && st.projects[i] == mine[j];
      }
      forall f | f in rhs ensures f in lhs {
        var i :| 0 <= i < |st.projects| && st.projects[i].id == f.project && st.projects[i].student == s.id;
        assert st.projects[i] in mine;
        var j :| 0 <= j < |mine| && mine[j] == st.projects[i];
      }
    }
  }

  /** Filtering a keyed table keeps keys strictly increasing, hence distinct. */
  lemma FilterKeepsOrder(ps: seq<Project>, p: Project -> bool)
    requires IncreasingBy(ps, ProjectKey)
    ensures DistinctIds(Filter(ps, p))
    ensures IncreasingBy(Filter(ps, p), ProjectKey)
  {
    FilterIncreasing(ps, p, ProjectKey);
  }

  // ------------------------------------------------------------ public_student_projects

  datatype DirectoryEntry = DirectoryEntry(student: Student, publicProjects: seq<Project>)

  /** `public_student_projects`: every profile ordered by name, each with its Public
      projects newest first. */
  function PublicStudentProjects(st: Store): (r: seq<DirectoryEntry>)
    ensures |r| == |st.students|
    ensures SortedBy(Map(r, EntryStudent), StudentName)
    ensures multiset(Map(r, EntryStudent)) == multiset(st.students)
    ensures forall k :: 0 <= k < |r| ==>
      && |r[k].publicProjects| == CountIf(st.projects, Recruiting.PublicOf(r[k].student.id))
      && forall j :: 0 <= j < |r[k].publicProjects| ==>
           r[k].publicProjects[j] in st.projects && IsPublic(r[k].publicProjects[j])
           && r[k].publicProjects[j].student == r[k].student.id
  {
    var ss := SortBy(st.students, StudentName);
    assert |ss| == |st.students| by {
      assert |multiset(ss)| == |multiset(st.students)|;
    }
    var r := seq(|ss|, k requires 0 <= k < |ss| =>
      DirectoryEntry(ss[k], NewestFirst(st.projects, Recruiting.PublicOf(ss[k].id))));
    assert Map(r, EntryStudent) == ss;
    r
  }

  function EntryStudent(e: DirectoryEntry): Student {
    e.student
  }

  /** The public directory lists each profile's projects newest first. */
  lemma DirectoryIsNewestFirst(st: Store, k: nat)
    requires Valid(st) && k < |PublicStudentProjects(st)|
    ensures var ps := PublicStudentProjects(st)[k].publicProjects;
      forall i, j :: 0 <= i < j < |ps| ==> ps[i].id > ps[j].id
  {
    var e := PublicStudentProjects(st)[k];
    NewestFirstDecreasing(st.projects, Recruiting.PublicOf(e.student.id), ProjectKey);
  }
}

=== FILE: client.dfy ===
/** The two browser scripts: the notification poller (relative times, the unread
    badge, and prepending unseen notifications) and the recruiter profile page's
    cookie lookup and hire-form guard. */
module Client {
  import opened Common
  import opened Strings
  import opened Json
  import Models
  import Recruiting

  // ------------------------------------------------------------ formatTimeAgo

  datatype TimeUnit = Seconds | Minutes | Hours | Days

  /** A rendered age: `<amount><unit>`, or "NaNd" when the timestamp does not parse. */
  datatype Age = Ago(amount: int, unit: TimeUnit) | NotANumber

  /** `formatTimeAgo`: `thenMs` is the parsed timestamp in milliseconds, `None` when
      `new Date(iso)` is invalid (every comparison with NaN then fails, so the last
      branch renders "NaNd"). Divisions floor, as `Math.floor` does. */
  function FormatTimeAgo(nowMs: int, thenMs: Option<int>): (a: Age)
    ensures thenMs.None? <==> a == NotANumber
    ensures a.Ago? ==>
      var d := (nowMs - thenMs.value) / 1000;
      && (a.unit == Seconds <==> d < 60)
      && (a.unit == Seconds ==> a.amount == d)
      && (a.unit == Minutes ==> a.amount * 60 <= d < a.amount * 60 + 60 && 1 <= a.amount < 60)
      && (a.unit == Hours ==> a.amount * 3600 <= d < a.amount * 3600 + 3600 && 1 <= a.amount < 24)
      && (a.unit == Days ==> a.amount * 86400 <= d < a.amount * 86400 + 86400 && 1 <= a.amount)
  {
    match thenMs
    case None => NotANumber
    case Some(t) =>
      var d := (nowMs - t) / 1000;
      if d < 60 then Ago(d, Seconds)
      else if d < 3600 then Ago(d / 60, Minutes)
      else if d < 86400 then Ago(d / 3600, Hours)
      else Ago(d / 86400, Days)
  }

  /** The unit is the largest one that fits: minutes from one minute, hours from one
      hour, days from one day. */
  lemma TimeAgoUnitBoundaries(nowMs: int, t: int)
    ensures var d := (nowMs - t) / 1000;
      var a := FormatTimeAgo(nowMs, Some(t));
      && (60 <= d < 3600 <==> a.unit == Minutes)
      && (3600 <= d < 86400 <==> a.unit == Hours)
      && (86400 <= d <==> a.unit == Days)
  {
  }

  // ------------------------------------------------------------ updateBadge

  /** `updateBadge`: the badge, if shown, carries its number. Without the button
      nothing changes; otherwise a badge exists exactly when the count is positive. */
  function UpdateBadge(hasButton: bool, badge: Option<int>, count: int): (b: Option<int>)
    ensures !hasButton ==> b == badge
    ensures hasButton ==> (b.Some? <==> count > 0)
    ensures hasButton && b.Some? ==> b.value == count
  {
    if !hasButton then badge
    else if count > 0 then Some(count)
    else None
  }

  /** The badge depends only on the latest count. */
  lemma UpdateBadgeForgetsHistory(badge: Option<int>, c1: int, c2: int)
    ensures UpdateBadge(true, UpdateBadge(true, badge, c1), c2) == UpdateBadge(true, None, c2)
  {
  }

  // ------------------------------------------------------------ poll

  /** The ids `poll` puts on top of the list for one response, top first: walking the
      newest-first response from its end, each id not yet seen is inserted at the top
      and marked seen. */
  function Prepended(ids: seq<int>, seen: set<int>): seq<int>
  {
    if |ids| == 0 then []
    else
      var x := ids[|ids| - 1];
      if x in seen then Prepended(ids[..|ids| - 1], seen)
      else Prepended(ids[..|ids| - 1], seen + {x}) + [x]
  }

  /** The prepended ids are exactly the response's ids not seen before. */
  lemma {:induction false} PrependedMembers(ids: seq<int>, seen: set<int>)
    ensures forall y :: y in Prepended(ids, seen) <==> y in ids && y !in seen
  {
    if |ids| > 0 {
      var x := ids[|ids| - 1];
      var init := ids[..|ids| - 1];
      assert ids == init + [x];
      if x in seen {
        PrependedMembers(init, seen);
      } else {
        PrependedMembers(init, seen + {x});
      }
    }
  }

  ghost predicate NoDuplicates(s: seq<int>) {
    forall i, j :: 0 <= i < j < |s| ==> s[i] != s[j]
  }

  /** No id is prepended twice, even when the response repeats it. */
  lemma {:induction false} PrependedNoDuplicates(ids: seq<int>, seen: set<int>)
    ensures NoDuplicates(Prepended(ids, seen))
  {
    if |ids| > 0 {
      var x := ids[|ids| - 1];
      var init := ids[..|ids| - 1];
      if x in seen {
        PrependedNoDuplicates(init, seen);
      } else {
        PrependedNoDuplicates(init, seen + {x});
        PrependedMembers(init, seen + {x});
      }
    }
  }

  /** One step of the walk: the last id of a prefix is handled first. */
  lemma PrependedStep(ids: seq<int>, i: nat, seen: set<int>)
    requires 0 < i <= |ids|
    ensures ids[i - 1] in seen ==> Prepended(ids[..i], seen) == Prepended(ids[..i - 1], seen)
    ensures ids[i - 1] !in seen ==>
      Prepended(ids[..i], seen) == Prepended(ids[..i - 1], seen + {ids[i - 1]}) + [ids[i - 1]]
  {
    assert ids[..i][..i - 1] == ids[..i - 1];
  }

  /** Given a newest-first response (ids strictly decreasing), the inserted block is
      newest first too. */
  lemma {:induction false} PrependedNewestFirst(ids: seq<int>, seen: set<int>)
    requires Decreasing(ids)
    ensures Decreasing(Prepended(ids, seen))
  {
    if |ids| > 0 {
      var x := ids[|ids| - 1];
      var init := ids[..|ids| - 1];
      assert Decreasing(init);
      if x in seen {
        PrependedNewestFirst(init, seen);
        assert Prepended(ids, seen) == Prepended(init, seen);
      } else {
        PrependedNewestFirst(init, seen + {x});
        PrependedMembers(init, seen + {x});
        var p := Prepended(init, seen + {x});
        forall i | 0 <= i < |p| ensures p[i] > x {
          assert p[i] in Prepended(init, seen + {x});
          var k :| 0 <= k < |init| && init[k] == p[i];
          assert ids[k] > ids[|ids| - 1];
        }
        assert Prepended(ids, seen) == p + [x];
      }
    }
  }

  /** Strictly decreasing ids: newest first. */
  ghost predicate Decreasing(s: seq<int>) {
    forall i, j :: 0 <= i < j < |s| ==> s[i] > s[j]
  }

  datatype PollResponse = PollResponse(success: bool, unreadCount: int, ids: seq<int>)

  /** What the page holds between polls: the badge, the ids seen so far, and the ids of
      the list's items, top first. */
  datatype PollState = PollState(badge: Option<int>, seen: set<int>, list: seq<int>)

  /** The insertion loop of `poll`: walk the response from its end, putting each unseen
      id on top of the list and remembering it. */
  method PrependUnseen(ids: seq<int>, seen0: set<int>, list0: seq<int>)
    returns (seen: set<int>, list: seq<int>)
    ensures list == Prepended(ids, seen0) + list0
    ensures seen == seen0 + Elems(ids)
  {
    seen := seen0;
    list := list0;
    var i := |ids|;
    ghost var block: seq<int> := [];
    assert ids[..i] == ids;
    while i > 0
      invariant 0 <= i <= |ids|
      invariant forall y :: y in seen <==> y in seen0 || y in ids[i..]
      invariant list == block + list0
      invariant Prepended(ids, seen0) == Prepended(ids[..i], seen) + block
      decreases i
    {
      var x := ids[i - 1];
      PrependedStep(ids, i, seen);
      assert ids[i - 1..] == [x] + ids[i..];
      if x !in seen {
        list := [x] + list;
        block := [x] + block;
        seen := seen + {x};
      }
      i := i - 1;
    }
    assert ids[0..] == ids;
    assert forall y :: y in seen <==> y in seen0 || y in ids;
    assert seen == seen0 + Elems(ids);
  }

  /** One `poll` round: a missing or unsuccessful response changes nothing; otherwise
      the badge is updated and, when the list is on the page, the unseen ids are
      inserted at the top, newest first, and remembered. */
  method Poll(s: PollState, response: Option<PollResponse>, hasButton: bool, hasList: bool)
    returns (next: PollState)
    ensures response.None? || !response.value.success ==> next == s
    ensures response.Some? && response.value.success ==>
      && next.badge == UpdateBadge(hasButton, s.badge, response.value.unreadCount)
      && (hasList ==> next.list == Prepended(response.value.ids, s.seen) + s.list
                      && next.seen == s.seen + Elems(response.value.ids))
      && (!hasList ==> next.list == s.list && next.seen == s.seen)
  {
    if response.None? || !response.value.success {
      return s;
    }
    var r := response.value;
    var badge := UpdateBadge(hasButton, s.badge, r.unreadCount);
    if !hasList || |r.ids| == 0 {
      return PollState(badge, s.seen, s.list);
    }
    var seen, list := PrependUnseen(r.ids, s.seen, s.list);
    return PollState(badge, seen, list);
  }

  /** Across polls the list never shows an id twice: every listed id is remembered as
      seen, and only unseen ids are added. */
  lemma PollKeepsListUnique(s: PollState, ids: seq<int>)
    requires NoDuplicates(s.list)
    requires forall y :: y in s.list ==> y in s.seen
    ensures var l := Prepended(ids, s.seen) + s.list;
      NoDuplicates(l) && forall y :: y in l ==> y in s.seen + Elems(ids)
  {
    PrependedNoDuplicates(ids, s.seen);
    PrependedMembers(ids, s.seen);
    var p := Prepended(ids, s.seen);
    var l := p + s.list;
    forall i, j | 0 <= i < j < |l| ensures l[i] != l[j] {
      if i < |p| && j >= |p| {
        assert l[j] == s.list[j - |p|];
        assert l[i] in p;
      }
    }
  }

  // ------------------------------------------------------------ getCookie

  /** What `getCookie` returns; `Throws` where `decodeURIComponent` throws on a
      malformed escape. */
  datatype CookieResult = NoCookie | CookieValue(value: string) | Throws

  /** Entry `e` of the cookie string names cookie `name`. */
  predicate Names(e: string, name: string) {
    StartsWith(Trim(e, IsJsSpace), name + "=")
  }

  /** `getCookie(name)`: the decoded value of the first `;`-separated entry that, once
      trimmed, starts with `name=`; `NoCookie` for an empty cookie string or when no
      entry matches. `decode` is `decodeURIComponent`, `None` where it throws. */
  method GetCookie(cookie: string, name: string, decode: string -> Option<string>)
    returns (r: CookieResult)
    ensures cookie == "" ==> r == NoCookie
    ensures r.CookieValue? || r == Throws ==>
      exists i :: 0 <= i < |Split(cookie, ";")| && Names(Split(cookie, ";")[i], name)
        && (forall j :: 0 <= j < i ==> !Names(Split(cookie, ";")[j], name))
        && decode(Trim(Split(cookie, ";")[i], IsJsSpace)[|name| + 1..])
           == (if r.CookieValue? then Some(r.value) else None)
    ensures r == NoCookie && cookie != "" ==>
      forall i :: 0 <= i < |Split(cookie, ";")| ==> !Names(Split(cookie, ";")[i], name)
  {
    if cookie == "" {
      return NoCookie;
    }
    var entries := Split(cookie, ";");
    var i := 0;
    while i < |entries|
      invariant 0 <= i <= |entries|
      invariant forall j :: 0 <= j < i ==> !Names(entries[j], name)
    {
      var e := Trim(entries[i], IsJsSpace);
      if StartsWith(e, name + "=") {
        var v := decode(e[|name| + 1..]);
        return if v.Some? then CookieValue(v.value) else Throws;
      }
      i := i + 1;
    }
    return NoCookie;
  }

  // ------------------------------------------------------------ submitHireForm

  /** The two form fields `submitHireForm` posts. */
  datatype HireFormPost = HireFormPost(jobTitle: string, message: string)

  /** `submitHireForm`: with an empty job title or message only a toast is shown and
      nothing is posted. Otherwise the request headers are built with
      `getCookie('csrftoken')`, whose result is `csrf`: when that throws, the handler
      exits before `fetch` and nothing is posted; else both fields are posted as typed,
      URL-encoded, which the server's form parsing undoes. */
  function SubmitHireForm(jobTitle: string, message: string, csrf: CookieResult)
    : (post: Option<HireFormPost>)
    ensures post.Some? <==> jobTitle != "" && message != "" && csrf != Throws
    ensures post.Some? ==> post.value == HireFormPost(jobTitle, message)
  {
    if jobTitle == "" || message == "" then None
    else if csrf == Throws then None
    else Some(HireFormPost(jobTitle, message))
  }

  /** The server stores whatever strings arrive: posted empty fields start a hiring
      process with an empty job title and message. */
  lemma ServerAcceptsEmptyHire(st: Models.Store, actor: Models.UserId, student: Models.RowId, codec: Codec)
    requires Models.StudentAt(st, student).Some? && actor in st.recruiters
    ensures var (st1, r) := Recruiting.InitiateHiringProcess(st, actor, student, Some(""), Some(""), codec, true);
      && r.HiringStarted?
      && st1.hirings[|st.hirings|].jobTitle == "" && st1.hirings[|st.hirings|].message == ""
  {
  }

  /** So the page's guard is what keeps hiring records meaningful: a process started
      from what the form posts has a non-empty job title and message. */
  lemma GuardedHireHasText(
    st: Models.Store, actor: Models.UserId, student: Models.RowId, jobTitle: string, message: string,
    csrf: CookieResult, codec: Codec)
    requires SubmitHireForm(jobTitle, message, csrf).Some?
    ensures var post := SubmitHireForm(jobTitle, message, csrf).value;
      var (st1, r) := Recruiting.InitiateHiringProcess(
        st, actor, student, Some(post.jobTitle), Some(post.message), codec, true);
      r.HiringStarted? ==>
        st1.hirings[|st.hirings|].jobTitle != "" && st1.hirings[|st.hirings|].message != ""
  {
  }
}

=== FILE: common.dfy ===
/** Small shared vocabulary: an optional value and facts about sequences. */
module Common {

  /** A value that may be absent: a nullable column, a missing POST field, a lookup miss. */
  datatype Option<+T> = None | Some(value: T)

  /** The set of elements of a sequence. */
  function Elems<T(!new)>(s: seq<T>): (r: set<T>)
    ensures forall x :: x in r <==> x in s
  {
    set x | x in s
  }

  /** The elements of a sequence with a head put in front. */
  lemma ElemsCons<T(!new)>(x: T, s: seq<T>)
    ensures Elems([x] + s) == {x} + Elems(s)
  {
    assert forall y :: y in [x] + s <==> y == x || y in s;
  }

  /** `f` applied to every element of `s`, in order. */
  function Map<A, B>(s: seq<A>, f: A -> B): (r: seq<B>)
    ensures |r| == |s|
    ensures forall k :: 0 <= k < |s| ==> r[k] == f(s[k])
  {
    seq(|s|, k requires 0 <= k < |s| => f(s[k]))
  }

  /** Number of elements of `s` that satisfy `p`. */
  function CountIf<T>(s: seq<T>, p: T -> bool): (n: nat)
    ensures n <= |s|
  {
    if |s| == 0 then 0 else CountIf(s[..|s| - 1], p) + (if p(s[|s| - 1]) then 1 else 0)
  }

  /** No element qualifies, so none is counted. */
  lemma {:induction false} CountIfZero<T>(s: seq<T>, p: T -> bool)
    requires forall k :: 0 <= k < |s| ==> !p(s[k])
    ensures CountIf(s, p) == 0
  {
    if |s| > 0 {
      CountIfZero(s[..|s| - 1], p);
    }
  }

  /** The elements of `s` that satisfy `p`, in their original order. */
  function Filter<T(!new)>(s: seq<T>, p: T -> bool): (r: seq<T>)
    ensures |r| == CountIf(s, p)
    ensures forall x :: x in r <==> x in s && p(x)
  {
    if |s| == 0 then [] else Filter(s[..|s| - 1], p) + (if p(s[|s| - 1]) then [s[|s| - 1]] else [])
  }

  /** Filtering by a test every element passes keeps the whole list. */
  lemma {:induction false} FilterAll<T(!new)>(s: seq<T>, p: T -> bool)
    requires forall x :: x in s ==> p(x)
    ensures Filter(s, p) == s
  {
    if |s| > 0 {
      assert forall x :: x in s[..|s| - 1] ==> x in s;
      FilterAll(s[..|s| - 1], p);
      assert s[|s| - 1] in s;
      assert s == s[..|s| - 1] + [s[|s| - 1]];
    }
  }

  /** Filtering by two tests that agree on every element gives the same list. */
  lemma {:induction false} FilterAgrees<T(!new)>(s: seq<T>, p: T -> bool, q: T -> bool)
    requires forall x :: x in s ==> p(x) == q(x)
    ensures Filter(s, p) == Filter(s, q)
  {
    if |s| > 0 {
      assert forall x :: x in s[..|s| - 1] ==> x in s;
      FilterAgrees(s[..|s| - 1], p, q);
    }
  }

  /** Filtering a list whose keys strictly increase keeps them strictly increasing. */
  lemma {:induction false} FilterIncreasing<T(!new)>(s: seq<T>, p: T -> bool, key: T -> int)
    requires IncreasingBy(s, key)
    ensures IncreasingBy(Filter(s, p), key)
  {
    if |s| > 0 {
      var init := s[..|s| - 1];
      assert IncreasingBy(init, key);
      FilterIncreasing(init, p, key);
      var fi := Filter(init, p);
      if p(s[|s| - 1]) {
        assert Filter(s, p) == fi + [s[|s| - 1]];
        forall i | 0 <= i < |fi| ensures key(fi[i]) < key(s[|s| - 1]) {
          assert fi[i] in init;
        }
      }
    }
  }

  /** `FilterIncreasing` as an implication, for contracts that hold of any table. */
  lemma FilterIncreasingIf<T(!new)>(s: seq<T>, p: T -> bool, key: T -> int)
    ensures IncreasingBy(s, key) ==> IncreasingBy(Filter(s, p), key)
  {
    if IncreasingBy(s, key) {
      FilterIncreasing(s, p, key);
    }
  }

  /** The elements of `s` that satisfy `p`, last first: a newest-first listing of an
      append-only table. */
  function NewestFirst<T(!new)>(s: seq<T>, p: T -> bool): (r: seq<T>)
    ensures |r| == CountIf(s, p)
    ensures forall x :: x in r <==> x in s && p(x)
  {
    if |s| == 0 then []
    else (if p(s[|s| - 1]) then [s[|s| - 1]] else []) + NewestFirst(s[..|s| - 1], p)
  }

  /** `key` strictly increases along `s`: rows listed in primary-key order. */
  ghost predicate IncreasingBy<T>(s: seq<T>, key: T -> int) {
    forall i, j :: 0 <= i < j < |s| ==> key(s[i]) < key(s[j])
  }

  /** A newest-first listing of a table whose keys increase in creation order has
      strictly decreasing keys. */
  lemma {:induction false} NewestFirstDecreasing<T(!new)>(s: seq<T>, p: T -> bool, key: T -> int)
    requires IncreasingBy(s, key)
    ensures forall i, j :: 0 <= i < j < |NewestFirst(s, p)| ==>
      key(NewestFirst(s, p)[i]) > key(NewestFirst(s, p)[j])
  {
    if |s| > 0 {
      var init := s[..|s| - 1];
      assert IncreasingBy(init, key);
      NewestFirstDecreasing(init, p, key);
      var rest := NewestFirst(init, p);
      forall y | y in rest
        ensures key(y) < key(s[|s| - 1])
      {
        var k :| 0 <= k < |init| && init[k] == y;
      }
    }
  }

  /** `NewestFirstDecreasing` as an implication, for contracts that hold of any table. */
  lemma NewestFirstDecreasingIf<T(!new)>(s: seq<T>, p: T -> bool, key: T -> int)
    ensures IncreasingBy(s, key) ==> forall i, j :: 0 <= i < j < |NewestFirst(s, p)| ==>
      key(NewestFirst(s, p)[i]) > key(NewestFirst(s, p)[j])
  {
    if IncreasingBy(s, key) {
      NewestFirstDecreasing(s, p, key);
    }
  }

  /** The index of the first element of `s` that satisfies `p`, if any. */
  function FirstIndex<T>(s: seq<T>, p: T -> bool): (r: Option<nat>)
    ensures r.Some? ==> r.value < |s| && p(s[r.value])
    ensures r.Some? ==> forall j :: 0 <= j < r.value ==> !p(s[j])
    ensures r.None? ==> forall j :: 0 <= j < |s| ==> !p(s[j])
  {
    if |s| == 0 then None
    else if p(s[0]) then Some(0)
    else match FirstIndex(s[1..], p)
      case None => None
      case Some(i) => Some(i + 1)
  }

  /** Appending one element adds one to the count exactly when it qualifies. */
  lemma CountIfAppend<T>(s: seq<T>, x: T, p: T -> bool)
    ensures CountIf(s + [x], p) == CountIf(s, p) + (if p(x) then 1 else 0)
  {
    assert (s + [x])[..|s|] == s;
  }

  /** Overwriting one element changes the count by what the old and new values
      contribute. */
  lemma {:induction false} CountIfUpdate<T>(s: seq<T>, i: nat, x: T, p: T -> bool)
    requires i < |s|
    ensures CountIf(s[i := x], p) + (if p(s[i]) then 1 else 0)
         == CountIf(s, p) + (if p(x) then 1 else 0)
  {
    var last := |s| - 1;
    if i < last {
      assert s[i := x][..last] == s[..last][i := x];
      CountIfUpdate(s[..last], i, x, p);
    } else {
      assert s[i := x][..last] == s[..last];
    }
  }

  /** Deleting the element at `i` lowers the count by what it contributed. */
  lemma {:induction false} CountIfRemove<T>(s: seq<T>, i: nat, p: T -> bool)
    requires i < |s|
    ensures CountIf(s[..i] + s[i + 1..], p) + (if p(s[i]) then 1 else 0) == CountIf(s, p)
  {
    var last := |s| - 1;
    if i < last {
      var r := s[..i] + s[i + 1..];
      assert r[..|r| - 1] == s[..last][..i] + s[..last][i + 1..];
      assert r[|r| - 1] == s[last];
      CountIfRemove(s[..last], i, p);
    } else {
      assert s[..i] + s[i + 1..] == s[..last];
    }
  }

  /** Rows whose keys increase along the table and stay below `bound`, the next key to
      be handed out. */
  ghost predicate KeyedRows<T>(s: seq<T>, key: T -> int, bound: int) {
    IncreasingBy(s, key) && forall i :: 0 <= i < |s| ==> key(s[i]) < bound
  }

  /** A row created with a fresh key keeps the table keyed. */
  lemma KeyedRowsAppend<T>(s: seq<T>, x: T, key: T -> int, bound: int, bound': int)
    requires KeyedRows(s, key, bound) && bound <= key(x) < bound'
    ensures KeyedRows(s + [x], key, bound')
  {
  }

  /** Handing out more keys keeps every table keyed. */
  lemma KeyedRowsRaise<T>(s: seq<T>, key: T -> int, bound: int, bound': int)
    requires KeyedRows(s, key, bound) && bound <= bound'
    ensures KeyedRows(s, key, bound')
  {
  }

  /** Deleting a row keeps the table keyed. */
  lemma KeyedRowsRemove<T>(s: seq<T>, i: nat, key: T -> int, bound: int)
    requires KeyedRows(s, key, bound) && i < |s|
    ensures KeyedRows(s[..i] + s[i + 1..], key, bound)
  {
    var r := s[..i] + s[i + 1..];
    assert forall k :: 0 <= k < |r| ==> r[k] == (if k < i then s[k] else s[k + 1]);
  }

  /** Updating non-key columns keeps the table keyed. */
  lemma KeyedRowsSameKeys<T>(s: seq<T>, s': seq<T>, key: T -> int, bound: int)
    requires KeyedRows(s, key, bound) && |s'| == |s|
    requires forall i :: 0 <= i < |s| ==> key(s'[i]) == key(s[i])
    ensures KeyedRows(s', key, bound)
  {
  }
}

=== FILE: engagement.dfy ===
/** Project engagement: the like toggle, view recording on the three paths that record
    views, the owner's project list, and the owner's project edit. */
module Engagement {
  import opened Common
  import opened Models

  predicate IsSuperuser(st: Store, u: UserId) {
    u in st.accounts && st.accounts[u].isSuperuser
  }

  /** `users` for project `p` grow by exactly `u` when the row (p, u) is added. */
  lemma UsersForAdd(facts: set<Fact>, p: RowId, u: UserId)
    requires Fact(p, u) !in facts
    ensures UsersFor(facts + {Fact(p, u)}, p) == UsersFor(facts, p) + {u}
    ensures u !in UsersFor(facts, p)
  {
  }

  // ------------------------------------------------------------ toggle_project_like

  datatype LikeReply =
    | LikeNotPost
    | NoSuchProjectToLike
    | LikeToggled(liked: bool, likeCount: nat)

  /** `toggle_project_like`: delete the actor's like row, or create it; reply with the
      new state and the project's like count. No notification is sent either way. */
  function ToggleProjectLike(st: Store, actor: UserId, project: RowId, isPost: bool)
    : (res: (Store, LikeReply))
    ensures res.1 == LikeNotPost <==> !isPost
    ensures res.1 == NoSuchProjectToLike <==> isPost && ProjectAt(st, project).None?
    ensures !res.1.LikeToggled? ==> res.0 == st
    ensures res.1.LikeToggled? ==>
      && res.0 == st.(likes := res.0.likes)
      && (res.1.liked <==> !IsLikedBy(st, project, actor))
      && res.1.liked == IsLikedBy(res.0, project, actor)
      && (res.1.liked ==> res.0.likes == st.likes + {Fact(project, actor)})
      && (!res.1.liked ==> res.0.likes == st.likes - {Fact(project, actor)})
      && res.1.likeCount == LikeCount(res.0, project)
  {
    if !isPost then (st, LikeNotPost)
    else match ProjectAt(st, project)
      case None => (st, NoSuchProjectToLike)
      case Some(_) =>
        var row := Fact(project, actor);
        if row in st.likes then
          var st' := st.(likes := st.likes - {row});
          (st', LikeToggled(false, LikeCount(st', project)))
        else
          var st' := st.(likes := st.likes + {row});
          (st', LikeToggled(true, LikeCount(st', project)))
  }

  /** A like raises the project's like count by one and an unlike lowers it by one. */
  lemma ToggleLikeMovesCount(st: Store, actor: UserId, project: RowId)
    requires ToggleProjectLike(st, actor, project, true).1.LikeToggled?
    ensures var r := ToggleProjectLike(st, actor, project, true).1;
      if r.liked then r.likeCount == LikeCount(st, project) + 1
      else r.likeCount + 1 == LikeCount(st, project)
  {
    var row := Fact(project, actor);
    if row in st.likes {
      UsersForAdd(st.likes - {row}, project, actor);
      assert st.likes - {row} + {row} == st.likes;
    } else {
      UsersForAdd(st.likes, project, actor);
    }
  }

  /** Liking twice restores the store exactly, and the second reply reports the
      original count and state. */
  lemma ToggleLikeTwice(st: Store, actor: UserId, project: RowId)
    requires ToggleProjectLike(st, actor, project, true).1.LikeToggled?
    ensures var (st1, r1) := ToggleProjectLike(st, actor, project, true);
      var (st2, r2) := ToggleProjectLike(st1, actor, project, true);
      && st2 == st
      && r2 == LikeToggled(IsLikedBy(st, project, actor), LikeCount(st, project))
  {
    var row := Fact(project, actor);
    if row in st.likes {
      assert st.likes - {row} + {row} == st.likes;
    } else {
      assert st.likes + {row} - {row} == st.likes;
    }
  }

  // ------------------------------------------------------------ view recording

  /** A view by `u` of a project owned by `owner` is counted: not an administrator's,
      not the owner's own. */
  predicate CountsAsView(st: Store, u: UserId, owner: UserId) {
    !IsSuperuser(st, u) && u != owner
  }

  datatype ViewReply =
    | ViewBadRequest
    | ViewProjectNotFound
    | ViewError
    | ViewCounted(newCount: nat)

  /** The `project_id` form field as `Project.objects.get(id=...)` sees it: absent, not
      an integer (the lookup raises `ValueError`), or an integer. */
  datatype PostedId = Absent | Malformed | Number(n: int)

  /** Row index of the project a posted id names; an absent id matches no row (the
      lookup becomes `id IS NULL`), and neither does a negative one. */
  function PostedAt(st: Store, id: PostedId): (r: Option<nat>)
    ensures r.Some? ==> id.Number? && id.n >= 0 && r == ProjectAt(st, id.n)
    ensures id.Number? && id.n >= 0 ==> r == ProjectAt(st, id.n)
  {
    match id
    case Number(n) => if n >= 0 then ProjectAt(st, n) else None
    case _ => None
  }

  /** The owner of the project at row `i`, when its profile resolves. */
  function ProjectOwner(st: Store, i: nat): Option<UserId>
    requires i < |st.projects|
  {
    OwnerOf(st, st.projects[i].student)
  }

  /** `record_project_view`: add the (project, viewer) row if the view counts and the
      row is absent, and always reply with the project's current view count. A missing
      project is "not found"; a malformed id, or a project whose owner cannot be read,
      lands in the generic error branch. */
  function RecordProjectView(st: Store, actor: UserId, project: PostedId, isPost: bool)
    : (res: (Store, ViewReply))
    ensures res.1 == ViewBadRequest <==> !isPost
    ensures res.1 == ViewProjectNotFound <==>
      isPost && !project.Malformed? && PostedAt(st, project).None?
    ensures res.1 == ViewError <==>
      isPost && (project.Malformed?
                 || (PostedAt(st, project).Some? && ProjectOwner(st, PostedAt(st, project).value).None?))
    ensures res.1.ViewCounted? <==>
      isPost && PostedAt(st, project).Some? && ProjectOwner(st, PostedAt(st, project).value).Some?
    ensures !res.1.ViewCounted? ==> res.0 == st
    ensures res.1.ViewCounted? ==>
      var owner := ProjectOwner(st, PostedAt(st, project).value).value;
      && res.0 == st.(views := res.0.views)
      && (CountsAsView(st, actor, owner) ==> res.0.views == st.views + {Fact(project.n, actor)})
      && (!CountsAsView(st, actor, owner) ==> res.0.views == st.views)
      && res.1.newCount == ViewCount(res.0, project.n)
  {
    if !isPost then (st, ViewBadRequest)
    else if project.Malformed? then (st, ViewError)
    else match PostedAt(st, project)
      case None => (st, ViewProjectNotFound)
      case Some(i) =>
        match ProjectOwner(st, i)
        case None => (st, ViewError)
        case Some(owner) =>
          var st' :=
            if CountsAsView(st, actor, owner)
            then st.(views := st.views + {Fact(project.n, actor)})
            else st;
          (st', ViewCounted(ViewCount(st', project.n)))
  }

  /** Recording a view is idempotent: a repeat changes nothing and reports the same
      count. */
  lemma RecordViewIdempotent(st: Store, actor: UserId, project: PostedId)
    ensures var (st1, r1) := RecordProjectView(st, actor, project, true);
      RecordProjectView(st1, actor, project, true) == (st1, r1)
  {
    var (st1, r1) := RecordProjectView(st, actor, project, true);
    if r1.ViewCounted? {
      var i := PostedAt(st, project).value;
      assert PostedAt(st1, project) == Some(i);
      assert ProjectOwner(st1, i) == ProjectOwner(st, i);
    }
  }

  /** A recorded view raises the project's count by at most one. */
  lemma RecordViewRaisesCountByAtMostOne(st: Store, actor: UserId, project: PostedId)
    requires RecordProjectView(st, actor, project, true).1.ViewCounted?
    ensures var c := RecordProjectView(st, actor, project, true).1.newCount;
      ViewCount(st, project.n) <= c <= ViewCount(st, project.n) + 1
  {
    var row := Fact(project.n, actor);
    var st1 := RecordProjectView(st, actor, project, true).0;
    if row !in st.views {
      UsersForAdd(st.views, project.n, actor);
    } else {
      assert st1.views == st.views;
    }
  }

  datatype PageReply = ServerError | ProjectPage(project: Project)

  /** `view_project` (no login required): count the view like `record_project_view`
      does; a missing project, or an anonymous visitor (whose view always counts and
      whose row cannot be saved), makes the view raise. */
  function ViewProject(st: Store, actor: Option<UserId>, project: RowId): (res: (Store, PageReply))
    ensures res.1 == ServerError <==>
      ProjectAt(st, project).None? || ProjectOwner(st, ProjectAt(st, project).value).None? || actor.None?
    ensures res.1 == ServerError ==> res.0 == st
    ensures res.1.ProjectPage? ==>
      var i := ProjectAt(st, project).value;
      var owner := ProjectOwner(st, i).value;
      && res.1.project == st.projects[i]
      && res.0 == st.(views := res.0.views)
      && (CountsAsView(st, actor.value, owner) ==> res.0.views == st.views + {Fact(project, actor.value)})
      && (!CountsAsView(st, actor.value, owner) ==> res.0.views == st.views)
  {
    match ProjectAt(st, project)
    case None => (st, ServerError)
    case Some(i) =>
      match ProjectOwner(st, i)
      case None => (st, ServerError)
      case Some(owner) =>
        match actor
        case None => (st, ServerError)
        case Some(u) =>
          if CountsAsView(st, u, owner)
          then (st.(views := st.views + {Fact(project, u)}), ProjectPage(st.projects[i]))
          else (st, ProjectPage(st.projects[i]))
  }

  /** The page view and the background recorder count exactly the same views. */
  lemma ViewPathsAgree(st: Store, u: UserId, project: RowId)
    requires ViewProject(st, Some(u), project).1.ProjectPage?
    ensures RecordProjectView(st, u, Number(project), true).0 == ViewProject(st, Some(u), project).0
  {
  }

  // ------------------------------------------------------------ student_projects

  datatype OwnProjectsReply =
    | NoStudentProfile
    | OwnProjects(projects: seq<Project>, recordViewIds: seq<RowId>)

  /** The projects in `ps` whose view the actor would count. */
  function ViewTargets(st: Store, actor: UserId, ps: seq<Project>): (ids: seq<RowId>)
    ensures |ids| <= |ps|
  {
    if |ps| == 0 then []
    else
      (if !IsSuperuser(st, actor) && OwnerOf(st, ps[0].student) != Some(actor)
       then [ps[0].id] else [])
      + ViewTargets(st, actor, ps[1..])
  }

  /** `student_projects` of the student pages: the actor's own projects, newest first,
      and the ids whose views the page should record. */
  function StudentProjects(st: Store, actor: UserId): (r: OwnProjectsReply)
    ensures r == NoStudentProfile <==> ProfileOf(st, actor).None?
    ensures r.OwnProjects? ==>
      var me := st.students[ProfileOf(st, actor).value].id;
      forall p :: p in r.projects <==> p in st.projects && p.student == me
    ensures r.OwnProjects? && IncreasingBy(st.projects, ProjectKey) ==>
      forall i, j :: 0 <= i < j < |r.projects| ==> r.projects[i].id > r.projects[j].id
  {
    match ProfileOf(st, actor)
    case None => NoStudentProfile
    case Some(k) =>
      var own := (p: Project) => p.student == st.students[k].id;
      NewestFirstDecreasingIf(st.projects, own, ProjectKey);
      var ps := NewestFirst(st.projects, own);
      OwnProjects(ps, ViewTargets(st, actor, ps))
  }

  /** Under the one-to-one and key constraints, the student page never asks to record a
      view: every listed project is the requester's own. */
  lemma RecordViewIdsAlwaysEmpty(st: Store, actor: UserId)
    requires Valid(st)
    requires StudentProjects(st, actor).OwnProjects?
    ensures StudentProjects(st, actor).recordViewIds == []
  {
    var k := ProfileOf(st, actor).value;
    var me := st.students[k].id;
    assert StudentAt(st, me) == Some(k) by {
      assert forall j :: 0 <= j < k ==> StudentKey(st.students[j]) < StudentKey(st.students[k]);
    }
    var ps := StudentProjects(st, actor).projects;
    OwnProjectsTargetNothing(st, actor, me, ps);
  }

  lemma {:induction false} OwnProjectsTargetNothing(st: Store, actor: UserId, me: RowId, ps: seq<Project>)
    requires OwnerOf(st, me) == Some(actor)
    requires forall p :: p in ps ==> p.student == me
    ensures ViewTargets(st, actor, ps) == []
  {
    if |ps| > 0 {
      assert ps[0] in ps;
      OwnProjectsTargetNothing(st, actor, me, ps[1..]);
    }
  }

  // ------------------------------------------------------------ edit_project

  datatype EditReply = EditNoProfile | EditNotFound | EditSaved | EditForm(project: Project)

  /** A posted field, or the old value when the field is absent (`POST.get(k, old)`). */
  function Posted(post: map<string, string>, k: string, current: string): string {
    if k in post then post[k] else current
  }

  /** The project after an edit form is posted. */
  function Merge(p: Project, post: map<string, string>): (q: Project)
    ensures q.id == p.id && q.student == p.student
    ensures ("title" !in post ==> q.title == p.title) && ("title" in post ==> q.title == post["title"])
    ensures ("description" !in post ==> q.description == p.description)
      && ("description" in post ==> q.description == post["description"])
    ensures ("category" !in post ==> q.category == p.category)
      && ("category" in post ==> q.category == post["category"])
    ensures ("tags" !in post ==> q.tags == p.tags) && ("tags" in post ==> q.tags == post["tags"])
    ensures ("visibility" !in post ==> q.visibility == p.visibility)
      && ("visibility" in post ==> q.visibility == post["visibility"])
    ensures ("output_link" !in post ==> q.outputLink == p.outputLink)
      && ("output_link" in post ==> q.outputLink == post["output_link"])
    ensures ("project_link" !in post ==> q.projectLink == p.projectLink)
      && ("project_link" in post ==> q.projectLink == post["project_link"])
    ensures q.allowDownloads <==> "allow_downloads" in post && post["allow_downloads"] == "on"
  {
    p.(title := Posted(post, "title", p.title),
       description := Posted(post, "description", p.description),
       category := Posted(post, "category", p.category),
       tags := Posted(post, "tags", p.tags),
       visibility := Posted(post, "visibility", p.visibility),
       allowDownloads := "allow_downloads" in post && post["allow_downloads"] == "on",
       outputLink := Posted(post, "output_link", p.outputLink),
       projectLink := Posted(post, "project_link", p.projectLink))
  }

  /** Profile row `k` owns a project with primary key `project`. */
  ghost predicate OwnsProject(st: Store, k: nat, project: RowId)
    requires k < |st.students|
  {
    exists i :: 0 <= i < |st.projects| && st.projects[i].id == project
      && st.projects[i].student == st.students[k].id
  }

  /** `edit_project`: only a project of the actor's own profile can be edited; a GET
      returns its fields, a POST merges the posted fields into it and leaves every other
      row alone. */
  function EditProject(st: Store, actor: UserId, project: RowId, isPost: bool, post: map<string, string>)
    : (res: (Store, EditReply))
    ensures res.1 == EditNoProfile <==> ProfileOf(st, actor).None?
    ensures res.1 == EditNotFound <==>
      ProfileOf(st, actor).Some? && !OwnsProject(st, ProfileOf(st, actor).value, project)
    ensures res.1.EditForm? <==>
      !isPost && ProfileOf(st, actor).Some? && OwnsProject(st, ProfileOf(st, actor).value, project)
    ensures res.1.EditSaved? <==>
      isPost && ProfileOf(st, actor).Some? && OwnsProject(st, ProfileOf(st, actor).value, project)
    ensures !res.1.EditSaved? ==> res.0 == st
    ensures res.1.EditForm? ==>
      res.1.project in st.projects && res.1.project.id == project
      && res.1.project.student == st.students[ProfileOf(st, actor).value].id
    ensures res.1.EditSaved? ==>
      && res.0 == st.(projects := res.0.projects)
      && |res.0.projects| == |st.projects|
      && exists i :: 0 <= i < |st.projects|
           && st.projects[i].id == project
           && st.projects[i].student == st.students[ProfileOf(st, actor).value].id
           && res.0.projects == st.projects[i := Merge(st.projects[i], post)]
  {
    match ProfileOf(st, actor)
    case None => (st, EditNoProfile)
    case Some(k) =>
      var me := st.students[k].id;
      match FirstIndex(st.projects, (p: Project) => p.id == project && p.student == me)
      case None => (st, EditNotFound)
      case Some(i) =>
        if !isPost then (st, EditForm(st.projects[i]))
        else (st.(projects := st.projects[i := Merge(st.projects[i], post)]), EditSaved)
  }

  /** Posting the same form twice is the same as posting it once. */
  lemma EditProjectIdempotent(st: Store, actor: UserId, project: RowId, post: map<string, string>)
    requires EditProject(st, actor, project, true, post).1 == EditSaved
    ensures var st1 := EditProject(st, actor, project, true, post).0;
      EditProject(st1, actor, project, true, post) == (st1, EditSaved)
  {
    var k := ProfileOf(st, actor).value;
    var me := st.students[k].id;
    var i := FirstIndex(st.projects, (p: Project) => p.id == project && p.student == me).value;
    var st1 := EditProject(st, actor, project, true, post).0;
    assert ProfileOf(st1, actor) == Some(k);
    assert Merge(Merge(st.projects[i], post), post) == Merge(st.projects[i], post);
    assert st1.projects[i := Merge(st1.projects[i], post)] == st1.projects;
    assert FirstIndex(st1.projects, (p: Project) => p.id == project && p.student == me) == Some(i) by {
      assert forall j :: 0 <= j < |st.projects| ==>
        st1.projects[j].id == st.projects[j].id && st1.projects[j].student == st.projects[j].student;
    }
  }
}

=== FILE: feed.dfy ===
/** The notification feed: the feed page (payload formatting and the bulk mark-read),
    the unread poll endpoint, the explicit hire request, and the unread count every page
    shows. */
module Feed {
  import opened Common
  import opened Models
  import opened Json

  /** The two-line summary the feed shows for a hire payload. */
  function HireText(fields: map<string, string>): string
    requires "job_title" in fields
  {
    "Job Title: " + fields["job_title"]
    + (if "message" in fields then "\nMessage: " + fields["message"] else "")
  }

  /** How the feed page shows a stored payload: a JSON object with a `job_title` member
      becomes the hire summary; anything else, unparseable text included, is shown as
      stored. */
  function DisplayData(data: Option<string>, codec: Codec): (d: Option<string>)
    ensures d != data ==>
      && data.Some? && data.value != ""
      && codec.loads(data.value).Some?
      && codec.loads(data.value).value.JObject?
      && "job_title" in codec.loads(data.value).value.fields
      && d == Some(HireText(codec.loads(data.value).value.fields))
    ensures data.None? || data == Some("") || codec.loads(data.value).None? ==> d == data
    ensures (data.Some? && data.value != ""
             && codec.loads(data.value).Some? && codec.loads(data.value).value.JObject?
             && "job_title" in codec.loads(data.value).value.fields)
      ==> d == Some(HireText(codec.loads(data.value).value.fields))
  {
    match data
    case None => None
    case Some(text) =>
      if text == "" then data
      else match codec.loads(text)
        case Some(JObject(fields)) =>
          if "job_title" in fields then Some(HireText(fields)) else data
        case _ => data
  }

  /** A hire payload written by the standard encoder is shown as
      "Job Title: <title>\nMessage: <message>". */
  lemma HirePayloadDisplay(codec: Codec, title: string, message: string)
    requires RoundTrips(codec)
    ensures var text := codec.dumps(map["job_title" := title, "message" := message]);
      text != "" && DisplayData(Some(text), codec) == Some("Job Title: " + title + "\nMessage: " + message)
  {
    var m := map["job_title" := title, "message" := message];
    assert codec.loads(codec.dumps(m)) == Some(JObject(m));
    assert "job_title" in m && m["job_title"] == title;
    assert "message" in m && m["message"] == message;
    var text := codec.dumps(m);
    assert text != "";
    assert DisplayData(Some(text), codec) == Some(HireText(m));
    assert HireText(m) == "Job Title: " + title + ("\nMessage: " + message);
    assert ("Job Title: " + title) + ("\nMessage: " + message) == "Job Title: " + title + "\nMessage: " + message;
  }

  // ------------------------------------------------------------ notifications

  /** Every notification of profile `p` marked read; the others untouched. */
  function MarkRead(ns: seq<Notification>, p: RowId): (ms: seq<Notification>)
    ensures |ms| == |ns|
    ensures forall i :: 0 <= i < |ns| && ns[i].recipient == p ==> ms[i] == ns[i].(isRead := true)
    ensures forall i :: 0 <= i < |ns| && ns[i].recipient != p ==> ms[i] == ns[i]
  {
    seq(|ns|, i requires 0 <= i < |ns| =>
      if ns[i].recipient == p then ns[i].(isRead := true) else ns[i])
  }

  datatype FeedItem = FeedItem(note: Notification, display: Option<string>)

  datatype FeedReply = FeedNoProfile | Feed(items: seq<FeedItem>)

  predicate AddressedTo(n: Notification, p: RowId) {
    n.recipient == p
  }

  /** `notifications`: the actor's notifications newest first, each with its display
      text and its read flag as it was before the visit; then, in one update, every one
      of them is marked read. A user without a student profile gets an empty page. */
  function Notifications(st: Store, actor: UserId, codec: Codec): (res: (Store, FeedReply))
    ensures res.1 == FeedNoProfile <==> ProfileOf(st, actor).None?
    ensures res.1 == FeedNoProfile ==> res.0 == st
    ensures res.1.Feed? ==>
      var me := st.students[ProfileOf(st, actor).value].id;
      var items := res.1.items;
      && res.0 == st.(notifications := res.0.notifications)
      && |res.0.notifications| == |st.notifications|
      && (forall i :: 0 <= i < |st.notifications| ==>
            if st.notifications[i].recipient == me
            then res.0.notifications[i] == st.notifications[i].(isRead := true)
            else res.0.notifications[i] == st.notifications[i])
      && |items| == CountIf(st.notifications, (n: Notification) => AddressedTo(n, me))
      && (forall k :: 0 <= k < |items| ==>
            items[k].note in st.notifications && items[k].note.recipient == me
            && items[k].display == DisplayData(items[k].note.data, codec))
  {
    match ProfileOf(st, actor)
    case None => (st, FeedNoProfile)
    case Some(k) =>
      var me := st.students[k].id;
      var mine := NewestFirst(st.notifications, (n: Notification) => AddressedTo(n, me));
      var items := seq(|mine|, i requires 0 <= i < |mine| =>
        FeedItem(mine[i], DisplayData(mine[i].data, codec)));
      (st.(notifications := MarkRead(st.notifications, me)), Feed(items))
  }

  /** The feed lists newest first: notification keys strictly decrease down the page. */
  lemma FeedIsNewestFirst(st: Store, actor: UserId, codec: Codec)
    requires Valid(st)
    requires Notifications(st, actor, codec).1.Feed?
    ensures var items := Notifications(st, actor, codec).1.items;
      forall i, j :: 0 <= i < j < |items| ==> items[i].note.id > items[j].note.id
  {
    var me := st.students[ProfileOf(st, actor).value].id;
    NewestFirstDecreasing(st.notifications, (n: Notification) => AddressedTo(n, me), NotificationKey);
  }

  /** After a visit to the feed nothing addressed to the visitor is unread, and a
      second visit changes nothing more. */
  lemma {:induction false} FeedLeavesNothingUnread(st: Store, actor: UserId, codec: Codec)
    requires Notifications(st, actor, codec).1.Feed?
    ensures var st1 := Notifications(st, actor, codec).0;
      var me := st.students[ProfileOf(st, actor).value].id;
      && UnreadOf(st1.notifications, me) == 0
      && Notifications(st1, actor, codec).0 == st1
  {
    var me := st.students[ProfileOf(st, actor).value].id;
    var st1 := Notifications(st, actor, codec).0;
    NoUnreadAfterMark(st.notifications, me);
    assert ProfileOf(st1, actor) == ProfileOf(st, actor);
    assert MarkRead(st1.notifications, me) == st1.notifications;
  }

  lemma {:induction false} NoUnreadAfterMark(ns: seq<Notification>, p: RowId)
    ensures UnreadOf(MarkRead(ns, p), p) == 0
  {
    if |ns| > 0 {
      var ms := MarkRead(ns, p);
      assert ms[..|ms| - 1] == MarkRead(ns[..|ns| - 1], p);
      NoUnreadAfterMark(ns[..|ns| - 1], p);
    }
  }

  // ------------------------------------------------------------ notifications_unread_json

  datatype HiringSummary = HiringSummary(id: RowId, jobTitle: string, message: string)

  /** A payload as the poll endpoint returns it: parsed when it parses, raw otherwise. */
  datatype ItemData = Parsed(json: Json) | Raw(text: string)

  datatype UnreadItem = UnreadItem(
    id: RowId,
    kind: NotificationKind,
    sender: UserId,
    isRead: bool,
    project: Option<(RowId, string)>,
    hiring: Option<HiringSummary>,
    data: Option<ItemData>)

  datatype UnreadReply = UnreadNoProfile | Unread(unreadCount: nat, items: seq<UnreadItem>)

  /** How many unread items one poll returns at most. */
  const PollPageSize := 10

  /** The payload as the poll endpoint returns it. */
  function PollData(data: Option<string>, codec: Codec): (d: Option<ItemData>)
    ensures d.None? <==> data.None? || data == Some("")
    ensures d.Some? && d.value.Raw? ==> d.value.text == data.value && codec.loads(data.value).None?
    ensures d.Some? && d.value.Parsed? ==> codec.loads(data.value) == Some(d.value.json)
  {
    match data
    case None => None
    case Some(text) =>
      if text == "" then None
      else match codec.loads(text)
        case None => Some(Raw(text))
        case Some(j) => Some(Parsed(j))
  }

  /** One notification as the poll endpoint describes it: its project as (id, title)
      and its hiring record as (id, job title, message) when the reference resolves,
      and its payload parsed when it parses. */
  function Describe(st: Store, n: Notification, codec: Codec): (item: UnreadItem)
    ensures item.id == n.id && item.kind == n.kind && item.sender == n.sender
    ensures item.isRead == n.isRead
    ensures item.data == PollData(n.data, codec)
    ensures item.project.Some? <==> n.project.Some? && ProjectAt(st, n.project.value).Some?
    ensures item.project.Some? ==>
      exists i :: 0 <= i < |st.projects| && st.projects[i].id == n.project.value
        && item.project.value == (st.projects[i].id, st.projects[i].title)
    ensures item.hiring.Some? <==> n.hiring.Some? && HiringAt(st, n.hiring.value).Some?
    ensures item.hiring.Some? ==>
      exists i :: 0 <= i < |st.hirings| && st.hirings[i].id == n.hiring.value
        && item.hiring.value == HiringSummary(st.hirings[i].id, st.hirings[i].jobTitle, st.hirings[i].message)
  {
    var project :=
      match n.project
      case None => None
      case Some(pid) =>
        match ProjectAt(st, pid)
        case None => None
        case Some(i) => Some((pid, st.projects[i].title));
    var hiring :=
      match n.hiring
      case None => None
      case Some(hid) =>
        match HiringAt(st, hid)
        case None => None
        case Some(i) => Some(HiringSummary(hid, st.hirings[i].jobTitle, st.hirings[i].message));
    UnreadItem(n.id, n.kind, n.sender, n.isRead, project, hiring, PollData(n.data, codec))
  }

  /** `notifications_unread_json`: the total number of the actor's unread
      notifications, and the newest ten of them described; nothing is marked read. */
  function NotificationsUnreadJson(st: Store, actor: UserId, codec: Codec): (r: UnreadReply)
    ensures r == UnreadNoProfile <==> ProfileOf(st, actor).None?
    ensures r.Unread? ==>
      var me := st.students[ProfileOf(st, actor).value].id;
      var unread := NewestFirst(st.notifications, UnreadFor(me));
      && r.unreadCount == UnreadOf(st.notifications, me)
      && |r.items| <= PollPageSize
      && |r.items| == (if r.unreadCount < PollPageSize then r.unreadCount else PollPageSize)
      && forall k :: 0 <= k < |r.items| ==>
           && r.items[k] == Describe(st, unread[k], codec)
           && !r.items[k].isRead
  {
    match ProfileOf(st, actor)
    case None => UnreadNoProfile
    case Some(k) =>
      var me := st.students[k].id;
      var unread := NewestFirst(st.notifications, UnreadFor(me));
      var page := if |unread| <= PollPageSize then unread else unread[..PollPageSize];
      assert forall j :: 0 <= j < |page| ==> page[j] in unread;
      Unread(|unread|, seq(|page|, i requires 0 <= i < |page| => Describe(st, page[i], codec)))
  }

  /** The poll endpoint lists newest first: item keys strictly decrease. */
  lemma PollIsNewestFirst(st: Store, actor: UserId, codec: Codec)
    requires Valid(st)
    requires NotificationsUnreadJson(st, actor, codec).Unread?
    ensures var items := NotificationsUnreadJson(st, actor, codec).items;
      forall i, j :: 0 <= i < j < |items| ==> items[i].id > items[j].id
  {
    var me := st.students[ProfileOf(st, actor).value].id;
    NewestFirstDecreasing(st.notifications, UnreadFor(me), NotificationKey);
  }

  // ------------------------------------------------------------ send_hire_notification

  datatype HireReply = HireNotPost | HireProjectNotFound | HireError | CannotHireSelf | HireSent

  /** `send_hire_notification`: refuse one's own project; otherwise send the project's
      owner one `hire` notification that references the project. A project whose
      profile cannot be read makes the view raise. */
  function SendHireNotification(st: Store, actor: UserId, project: RowId, isPost: bool)
    : (res: (Store, HireReply))
    ensures res.1 == HireNotPost <==> !isPost
    ensures res.1 == HireProjectNotFound <==> isPost && ProjectAt(st, project).None?
    ensures res.1 == HireError <==>
      isPost && ProjectAt(st, project).Some?
      && OwnerOf(st, st.projects[ProjectAt(st, project).value].student).None?
    ensures res.1 == CannotHireSelf <==>
      isPost && ProjectAt(st, project).Some?
      && OwnerOf(st, st.projects[ProjectAt(st, project).value].student) == Some(actor)
    ensures res.1 != HireSent ==> res.0 == st
    ensures res.1 == HireSent ==>
      var p := st.projects[ProjectAt(st, project).value];
      && res.0 == st.(notifications := res.0.notifications, nextId := st.nextId + 1)
      && |res.0.notifications| == |st.notifications| + 1
      && res.0.notifications[..|st.notifications|] == st.notifications
      && var n := res.0.notifications[|st.notifications|];
      && n.kind == HireKind && n.recipient == p.student && n.sender == actor
      && n.project == Some(project) && n.hiring.None? && n.data.None? && !n.isRead
  {
    if !isPost then (st, HireNotPost)
    else match ProjectAt(st, project)
      case None => (st, HireProjectNotFound)
      case Some(i) =>
        var p := st.projects[i];
        match OwnerOf(st, p.student)
        case None => (st, HireError)
        case Some(owner) =>
          if owner == actor then (st, CannotHireSelf)
          else
            var note := NewNotification(st.nextId, p.student, actor, HireKind, Some(project), None, None);
            (st.(notifications := st.notifications + [note], nextId := st.nextId + 1), HireSent)
  }

  /** Under the one-to-one constraint, the profile a user owns is the one whose owner
      is that user. */
  lemma ProfileOfOwner(st: Store, sid: RowId)
    requires Valid(st) && OwnerOf(st, sid).Some?
    ensures ProfileOf(st, OwnerOf(st, sid).value) == StudentAt(st, sid)
  {
  }

  /** A sent hire request keeps the database's guarantees, raises the owner's unread
      count by one, and is the first item of the owner's next poll. */
  lemma HireSentReachesOwner(st: Store, actor: UserId, project: RowId, codec: Codec)
    requires Valid(st)
    requires SendHireNotification(st, actor, project, true).1 == HireSent
    ensures var st1 := SendHireNotification(st, actor, project, true).0;
      var sid := st.projects[ProjectAt(st, project).value].student;
      var owner := OwnerOf(st, sid).value;
      && Valid(st1)
      && UnreadOf(st1.notifications, sid) == UnreadOf(st.notifications, sid) + 1
      && var poll := NotificationsUnreadJson(st1, owner, codec);
      && poll.Unread? && |poll.items| > 0
      && poll.items[0].id == st.nextId && poll.items[0].kind == HireKind
      && poll.items[0].project.Some? && poll.items[0].project.value.0 == project
  {
    var st1 := SendHireNotification(st, actor, project, true).0;
    var i := ProjectAt(st, project).value;
    var sid := st.projects[i].student;
    var owner := OwnerOf(st, sid).value;
    var note := st1.notifications[|st.notifications|];
    assert st1.notifications == st.notifications + [note];
    KeyedRowsAppend(st.notifications, note, NotificationKey, st.nextId, st.nextId + 1);
    KeyedRowsRaise(st.follows, FollowKey, st.nextId, st.nextId + 1);
    KeyedRowsRaise(st.hirings, HiringKey, st.nextId, st.nextId + 1);
    RaiseOtherKeys(st, st1);
    CountIfAppend(st.notifications, note, UnreadFor(sid));
    ProfileOfOwner(st, sid);
    assert ProfileOf(st1, owner) == ProfileOf(st, owner);
    var k := ProfileOf(st, owner).value;
    assert st.students[k].id == sid;
    var unread := NewestFirst(st1.notifications, UnreadFor(sid));
    assert st1.notifications[..|st1.notifications| - 1] == st.notifications;
    assert unread[0] == note;
    assert ProjectAt(st1, project) == Some(i);
  }

  // ------------------------------------------------------------ context processor

  /** `notifications_processor`: the unread count shown on every page; zero for
      anonymous visitors, administrators and users without a student profile. */
  function UnreadCount(st: Store, visitor: Option<UserId>): (n: nat)
    ensures visitor.None? ==> n == 0
    ensures visitor.Some? && visitor.value in st.accounts && st.accounts[visitor.value].isSuperuser ==> n == 0
    ensures visitor.Some? && ProfileOf(st, visitor.value).None? ==> n == 0
    ensures n > 0 ==> n <= |st.notifications|
  {
    match visitor
    case None => 0
    case Some(u) =>
      if u in st.accounts && st.accounts[u].isSuperuser then 0
      else match ProfileOf(st, u)
        case None => 0
        case Some(k) => UnreadOf(st.notifications, st.students[k].id)
  }

  /** The badge a page is rendered with and the count the poll endpoint returns agree. */
  lemma UnreadCountMatchesPoll(st: Store, u: UserId, codec: Codec)
    requires !(u in st.accounts && st.accounts[u].isSuperuser)
    requires NotificationsUnreadJson(st, u, codec).Unread?
    ensures UnreadCount(st, Some(u)) == NotificationsUnreadJson(st, u, codec).unreadCount
  {
  }

  /** After the feed page, every later page shows no unread notifications. */
  lemma BadgeClearedByFeed(st: Store, u: UserId, codec: Codec)
    requires Notifications(st, u, codec).1.Feed?
    ensures UnreadCount(Notifications(st, u, codec).0, Some(u)) == 0
  {
    FeedLeavesNothingUnread(st, u, codec);
    assert ProfileOf(Notifications(st, u, codec).0, u) == ProfileOf(st, u);
  }
}

=== FILE: filters.dfy ===
/** The `split` template filter. */
module Filters {
  import opened Common
  import opened Strings

  /** What the filter yields; `EmptySeparator` where `str.split` raises for an empty
      separator. */
  datatype SplitResult = Pieces(parts: seq<string>) | EmptySeparator

  /** `split`: an empty or missing value gives no pieces; any other value is cut at
      every leftmost, non-overlapping occurrence of `arg`. */
  function SplitFilter(value: Option<string>, arg: string): (r: SplitResult)
    ensures value.None? || value == Some("") ==> r == Pieces([])
    ensures r == EmptySeparator <==> value.Some? && value.value != "" && arg == ""
    ensures r.Pieces? && r.parts != [] ==>
      && value.Some? && value.value != ""
      && Join(r.parts, arg) == value.value
      && |r.parts| == CountFrom(value.value, arg, 0) + 1
      && forall k :: 0 <= k < |r.parts| ==> !Contains(r.parts[k], arg)
    ensures r.Pieces? && value.Some? && value.value != "" ==> r.parts != []
  {
    if value.None? || value.value == "" then Pieces([])
    else if arg == "" then EmptySeparator
    else
      SplitJoinRoundTrip(value.value, arg);
      SplitLength(value.value, arg);
      SplitPiecesAvoidSeparator(value.value, arg);
      Pieces(Split(value.value, arg))
  }

  /** A value without the separator comes back whole, as the only piece. */
  lemma SplitWithoutSeparator(value: string, arg: string)
    requires value != "" && arg != "" && !Contains(value, arg)
    ensures SplitFilter(Some(value), arg) == Pieces([value])
  {
    assert forall k :: 0 <= k ==> !OccursAt(value, arg, k);
    CountFromNone(value, arg, 0);
    SplitLength(value, arg);
    SplitJoinRoundTrip(value, arg);
  }
}

=== FILE: json.dfy ===
/** The JSON text stored in a notification's `data` column. Python's `json.loads` and
    `json.dumps` are library calls; they enter the model as a pair of functions. */
module Json {
  import opened Common

  /** What `json.loads` yields, as far as the portal looks at it: an object, whose
      members are kept in their `str()` rendering, or any other JSON value. */
  datatype Json = JObject(fields: map<string, string>) | JOther

  /** `loads` answers `None` where Python raises `JSONDecodeError`. */
  datatype Codec = Codec(loads: string -> Option<Json>, dumps: map<string, string> -> string)

  /** A codec whose decoder reads back every object its encoder writes, and whose
      encoder never writes empty text (an object is at least `{}`), as the standard
      library's does. */
  ghost predicate RoundTrips(c: Codec) {
    && (forall m :: c.loads(c.dumps(m)) == Some(JObject(m)))
    && (forall m :: c.dumps(m) != "")
  }
}

=== FILE: models.dfy ===
/** The portal's relational schema as immutable values. Each table is a sequence of
    rows in primary-key order, except the two (project, user) fact tables, whose
    unique-together constraint makes them sets, and the two one-to-one profile tables
    keyed by their user. */
module Models {
  import opened Common

  type UserId = nat
  /** Primary key of a profile, project, follow edge, hiring record or notification. */
  type RowId = nat

  datatype Account = Account(username: string, isSuperuser: bool, isStaff: bool)

  /** The two approval states a recruiter profile may take. */
  datatype RecruiterStatus = RecruiterPending | RecruiterApproved

  datatype Recruiter = Recruiter(
    companyName: string,
    status: RecruiterStatus,
    saved: set<RowId>,
    hiringCount: int,
    profileViews: int)

  datatype Date = Date(year: int, month: int, day: int)

  /** Calendar order of dates. */
  predicate DateAfter(a: Date, b: Date) {
    a.year > b.year
    || (a.year == b.year && (a.month > b.month || (a.month == b.month && a.day > b.day)))
  }

  datatype Student = Student(
    id: RowId,
    owner: UserId,
    name: string,
    contact: string,
    email: string,
    address: string,
    joined: Date,
    course: string,
    profileViews: int)

  datatype Project = Project(
    id: RowId,
    student: RowId,
    title: string,
    description: string,
    category: string,
    tags: string,
    visibility: string,
    allowDownloads: bool,
    outputLink: string,
    projectLink: string)

  /** Visibility is a free string column; only the value "Public" exposes a project. */
  predicate IsPublic(p: Project) {
    p.visibility == "Public"
  }

  /** A row of the view or like table: `user` viewed (liked) `project`. */
  datatype Fact = Fact(project: RowId, user: UserId)

  datatype FollowStatus = Pending | Accepted | Rejected

  /** A follow edge from a user to a student profile. */
  datatype Follow = Follow(id: RowId, follower: UserId, following: RowId, status: FollowStatus)

  datatype HiringStatus = HiringPending | HiringAccepted | HiringRejected | HiringCompleted

  /** A hiring record; `recruiter` is the user owning the recruiter profile. */
  datatype Hiring = Hiring(
    id: RowId,
    recruiter: UserId,
    student: RowId,
    jobTitle: string,
    message: string,
    status: HiringStatus)

  datatype NotificationKind = LikeKind | FollowKind | FollowAcceptedKind | HireKind

  datatype Notification = Notification(
    id: RowId,
    recipient: RowId,
    sender: UserId,
    kind: NotificationKind,
    project: Option<RowId>,
    hiring: Option<RowId>,
    data: Option<string>,
    isRead: bool)

  /** The database. `nextId` is the next primary key handed out; since keys are handed
      out in creation order, key order is `created_at` order. */
  datatype Store = Store(
    accounts: map<UserId, Account>,
    recruiters: map<UserId, Recruiter>,
    students: seq<Student>,
    projects: seq<Project>,
    views: set<Fact>,
    likes: set<Fact>,
    follows: seq<Follow>,
    hirings: seq<Hiring>,
    notifications: seq<Notification>,
    nextId: nat)

  /** A freshly created notification: unread, as the column default says. */
  function NewNotification(
    id: RowId, recipient: RowId, sender: UserId, kind: NotificationKind,
    project: Option<RowId>, hiring: Option<RowId>, data: Option<string>): Notification
  {
    Notification(id, recipient, sender, kind, project, hiring, data, false)
  }

  // ---------------------------------------------------------------- invariants

  /** The unique-together constraint on (follower, following). */
  ghost predicate UniqueEdges(fs: seq<Follow>) {
    forall i, j :: 0 <= i < j < |fs| ==>
      fs[i].follower != fs[j].follower || fs[i].following != fs[j].following
  }

  /** The one-to-one constraint between users and student profiles. */
  ghost predicate UniqueOwners(ss: seq<Student>) {
    forall i, j :: 0 <= i < j < |ss| ==> ss[i].owner != ss[j].owner
  }

  function StudentKey(s: Student): int { s.id }
  function ProjectKey(p: Project): int { p.id }
  function FollowKey(f: Follow): int { f.id }
  function HiringKey(h: Hiring): int { h.id }
  function NotificationKey(n: Notification): int { n.id }

  /** What the database guarantees of every reachable state: the uniqueness
      constraints, and primary keys increasing in creation order below `nextId`. */
  ghost predicate Valid(st: Store) {
    && UniqueEdges(st.follows)
    && UniqueOwners(st.students)
    && KeyedRows(st.students, StudentKey, st.nextId)
    && KeyedRows(st.projects, ProjectKey, st.nextId)
    && KeyedRows(st.follows, FollowKey, st.nextId)
    && KeyedRows(st.hirings, HiringKey, st.nextId)
    && KeyedRows(st.notifications, NotificationKey, st.nextId)
  }

  /** Handing out `k` more keys, with the profile and project tables untouched, keeps
      those tables keyed. */
  lemma RaiseOtherKeys(st: Store, st': Store)
    requires Valid(st) && st.nextId <= st'.nextId
    requires st'.students == st.students && st'.projects == st.projects
    ensures KeyedRows(st'.students, StudentKey, st'.nextId)
    ensures KeyedRows(st'.projects, ProjectKey, st'.nextId)
  {
    KeyedRowsRaise(st.students, StudentKey, st.nextId, st'.nextId);
    KeyedRowsRaise(st.projects, ProjectKey, st.nextId, st'.nextId);
  }

  /** A new edge for a pair that has none keeps the unique-together constraint. */
  lemma UniqueEdgesAppend(fs: seq<Follow>, f: Follow)
    requires UniqueEdges(fs) && !HasEdge(fs, f.follower, f.following)
    ensures UniqueEdges(fs + [f])
  {
    var r := fs + [f];
    forall i, j | 0 <= i < j < |r|
      ensures r[i].follower != r[j].follower || r[i].following != r[j].following
    {
      if j == |fs| {
        assert r[i] == fs[i];
      }
    }
  }

  /** Deleting an edge keeps the unique-together constraint. */
  lemma UniqueEdgesRemove(fs: seq<Follow>, i: nat)
    requires UniqueEdges(fs) && i < |fs|
    ensures UniqueEdges(fs[..i] + fs[i + 1..])
  {
    var r := fs[..i] + fs[i + 1..];
    assert forall k :: 0 <= k < |r| ==> r[k] == (if k < i then fs[k] else fs[k + 1]);
  }

  // ---------------------------------------------------------------- lookups

  /** Row index of the student profile with primary key `id`. */
  function StudentAt(st: Store, id: RowId): Option<nat> {
    FirstIndex(st.students, (s: Student) => s.id == id)
  }

  /** Row index of `user.student_profile`, the profile `u` owns. */
  function ProfileOf(st: Store, u: UserId): Option<nat> {
    FirstIndex(st.students, (s: Student) => s.owner == u)
  }

  /** `student.user` for the profile with key `id`. */
  function OwnerOf(st: Store, id: RowId): Option<UserId> {
    match StudentAt(st, id)
    case None => None
    case Some(k) => Some(st.students[k].owner)
  }

  function ProjectAt(st: Store, id: RowId): Option<nat> {
    FirstIndex(st.projects, (p: Project) => p.id == id)
  }

  function FollowAt(st: Store, id: RowId): Option<nat> {
    FirstIndex(st.follows, (f: Follow) => f.id == id)
  }

  function HiringAt(st: Store, id: RowId): Option<nat> {
    FirstIndex(st.hirings, (h: Hiring) => h.id == id)
  }

  /** Row index of the edge from `u` to profile `p`, if there is one. */
  function EdgeAt(fs: seq<Follow>, u: UserId, p: RowId): Option<nat> {
    FirstIndex(fs, (f: Follow) => f.follower == u && f.following == p)
  }

  predicate HasEdge(fs: seq<Follow>, u: UserId, p: RowId) {
    exists i :: 0 <= i < |fs| && fs[i].follower == u && fs[i].following == p
  }

  /** Number of accepted edges pointing at profile `p`. */
  function AcceptedFollowers(fs: seq<Follow>, p: RowId): nat {
    CountIf(fs, (f: Follow) => f.following == p && f.status == Accepted)
  }

  /** Number of accepted edges leaving user `u`. */
  function AcceptedFollowing(fs: seq<Follow>, u: UserId): nat {
    CountIf(fs, (f: Follow) => f.follower == u && f.status == Accepted)
  }

  /** Whether a notification is unread and addressed to profile `p`. */
  function UnreadFor(p: RowId): Notification -> bool {
    (n: Notification) => n.recipient == p && !n.isRead
  }

  /** Number of unread notifications addressed to profile `p`. */
  function UnreadOf(ns: seq<Notification>, p: RowId): nat {
    CountIf(ns, UnreadFor(p))
  }

  // ---------------------------------------------------------------- model methods

  /** `StudentFollow.accept`: the edge becomes accepted; nothing else about it changes. */
  function Accept(f: Follow): (g: Follow)
    ensures g.status == Accepted
    ensures g.id == f.id && g.follower == f.follower && g.following == f.following
  {
    f.(status := Accepted)
  }

  /** `StudentFollow.reject`: the edge becomes rejected; nothing else about it changes. */
  function Reject(f: Follow): (g: Follow)
    ensures g.status == Rejected
    ensures g.id == f.id && g.follower == f.follower && g.following == f.following
  {
    f.(status := Rejected)
  }

  /** Accepting and rejecting only overwrite the status, so the last call wins. */
  lemma LastDecisionWins(f: Follow)
    ensures Accept(Reject(f)) == Accept(f) && Reject(Accept(f)) == Reject(f)
    ensures Accept(Accept(f)) == Accept(f) && Reject(Reject(f)) == Reject(f)
  {
  }

  /** `StudentProfile.increment_profile_views`. */
  function IncrementProfileViews(s: Student): (t: Student)
    ensures t.profileViews == s.profileViews + 1
    ensures t.(profileViews := s.profileViews) == s
  {
    s.(profileViews := s.profileViews + 1)
  }

  /** `RecruiterProfile.increment_hiring_process`. */
  function IncrementHiringProcess(r: Recruiter): (t: Recruiter)
    ensures t.hiringCount == r.hiringCount + 1
    ensures t.(hiringCount := r.hiringCount) == r
  {
    r.(hiringCount := r.hiringCount + 1)
  }

  /** The users with a row for project `p` in a fact table. */
  function UsersFor(facts: set<Fact>, p: RowId): set<UserId> {
    set f | f in facts && f.project == p :: f.user
  }

  /** The rows for project `p` in a fact table. */
  function RowsFor(facts: set<Fact>, p: RowId): set<Fact> {
    set f | f in facts && f.project == p
  }

  /** Each user contributes at most one row per project, so the rows of a project are
      as many as the distinct users behind them. */
  lemma {:induction false} RowsForCard(facts: set<Fact>, p: RowId)
    ensures |RowsFor(facts, p)| == |UsersFor(facts, p)|
    decreases |facts|
  {
    if facts != {} {
      var x :| x in facts;
      var rest := facts - {x};
      RowsForCard(rest, p);
      if x.project == p {
        assert RowsFor(facts, p) == RowsFor(rest, p) + {x};
        assert UsersFor(facts, p) == UsersFor(rest, p) + {x.user};
        assert x !in RowsFor(rest, p);
        assert x.user !in UsersFor(rest, p);
      } else {
        assert RowsFor(facts, p) == RowsFor(rest, p);
        assert UsersFor(facts, p) == UsersFor(rest, p);
      }
    }
  }

  /** `Project.view_count`: the number of view rows of the project, which is the number
      of distinct users who viewed it. */
  function ViewCount(st: Store, p: RowId): (n: nat)
    ensures n == |UsersFor(st.views, p)|
  {
    RowsForCard(st.views, p);
    |RowsFor(st.views, p)|
  }

  /** `Project.like_count`: the number of like rows of the project, which is the number
      of distinct users who liked it. */
  function LikeCount(st: Store, p: RowId): (n: nat)
    ensures n == |UsersFor(st.likes, p)|
  {
    RowsForCard(st.likes, p);
    |RowsFor(st.likes, p)|
  }

  /** `Project.is_liked_by`: some like row pairs the project with the user. */
  function IsLikedBy(st: Store, p: RowId, u: UserId): (b: bool)
    ensures b <==> u in UsersFor(st.likes, p)
  {
    Fact(p, u) in st.likes
  }
}

=== FILE: recruiting.dfy ===
/** The recruiter side: the approval guard, saving students, starting a hiring process,
    the recruiter's views of profiles and projects, and the tag lists those pages show. */
module Recruiting {
  import opened Common
  import opened Strings
  import opened Sorting
  import opened Models
  import opened Json
  import Feed
  import Engagement

  // ------------------------------------------------------------ approval guard

  datatype Access = NoRecruiterProfile | PendingApproval | Granted

  /** The guard in front of the recruiter dashboard pages: a recruiter profile is
      required, and it must be approved. */
  function RecruiterAccess(st: Store, u: UserId): (a: Access)
    ensures a == Granted <==> u in st.recruiters && st.recruiters[u].status == RecruiterApproved
    ensures a == NoRecruiterProfile <==> u !in st.recruiters
  {
    if u !in st.recruiters then NoRecruiterProfile
    else if st.recruiters[u].status != RecruiterApproved then PendingApproval
    else Granted
  }

  // ------------------------------------------------------------ tags

  /** `tags.split(',') if tags else []`: the raw pieces, spaces kept. */
  function RawTags(tags: string): (r: seq<string>)
    ensures r == [] <==> tags == ""
    ensures tags != "" ==> Join(r, ",") == tags
    ensures forall k :: 0 <= k < |r| ==> !Contains(r[k], ",")
  {
    if tags == "" then []
    else
      SplitJoinRoundTrip(tags, ",");
      SplitPiecesAvoidSeparator(tags, ",");
      Split(tags, ",")
  }

  /** `[tag.strip() for tag in tags.split(',')] if tags else []`. */
  function StrippedTags(tags: string): (r: seq<string>)
    ensures |r| == |RawTags(tags)|
    ensures forall k :: 0 <= k < |r| ==> |r[k]| <= |RawTags(tags)[k]|
    ensures forall k :: 0 <= k < |r| ==>
      |r[k]| == 0 || (!IsPySpace(r[k][0]) && !IsPySpace(r[k][|r[k]| - 1]))
  {
    var raw := RawTags(tags);
    seq(|raw|, k requires 0 <= k < |raw| => Strip(raw[k]))
  }

  /** All the strings of all the lists, in order. */
  function Flatten(xss: seq<seq<string>>): (r: seq<string>)
    ensures forall t :: t in r <==> exists k :: 0 <= k < |xss| && t in xss[k]
  {
    if |xss| == 0 then []
    else
      var r := Flatten(xss[..|xss| - 1]) + xss[|xss| - 1];
      assert forall k :: 0 <= k < |xss| - 1 ==> xss[..|xss| - 1][k] == xss[k];
      r
  }

  // ------------------------------------------------------------ student_projects

  datatype ListedProject = ListedProject(project: Project, tags: seq<string>)

  datatype ListingReply =
    | ListingDenied(why: Access)
    | Listing(projects: seq<ListedProject>, allTags: seq<string>)

  /** Each project paired with its stripped tags, in the same order. */
  function WithTags(ps: seq<Project>): (r: seq<ListedProject>)
    ensures |r| == |ps|
    ensures forall k :: 0 <= k < |r| ==> r[k].project == ps[k] && r[k].tags == StrippedTags(ps[k].tags)
    ensures forall p :: p in ps <==> exists k :: 0 <= k < |r| && r[k].project == p
  {
    var r := seq(|ps|, k requires 0 <= k < |ps| => ListedProject(ps[k], StrippedTags(ps[k].tags)));
    assert forall p :: p in ps ==> exists k :: 0 <= k < |r| && r[k].project == p by {
      forall p | p in ps ensures exists k :: 0 <= k < |r| && r[k].project == p {
        var k :| 0 <= k < |ps| && ps[k] == p;
        assert r[k].project == p;
      }
    }
    r
  }

  /** `sorted(set(...))` of every tag of every listed project. */
  function AllTags(listed: seq<ListedProject>): (r: seq<string>)
    ensures StrictlySorted(r)
    ensures forall t :: t in r <==> exists k :: 0 <= k < |listed| && t in listed[k].tags
  {
    var tagLists := seq(|listed|, k requires 0 <= k < |listed| => listed[k].tags);
    assert forall k :: 0 <= k < |listed| ==> tagLists[k] == listed[k].tags;
    SortedUnique(Flatten(tagLists))
  }

  /** The recruiter's project browser: every Public project newest first with its
      stripped tags, and the ascending, duplicate-free list of all those tags. */
  function RecruiterStudentProjects(st: Store, actor: UserId): (r: ListingReply)
    ensures r.ListingDenied? <==> RecruiterAccess(st, actor) != Granted
    ensures r.Listing? ==>
      && |r.projects| == CountIf(st.projects, IsPublic)
      && (forall p :: p in st.projects && IsPublic(p) <==>
            exists k :: 0 <= k < |r.projects| && r.projects[k].project == p)
      && (forall k :: 0 <= k < |r.projects| ==>
            r.projects[k].tags == StrippedTags(r.projects[k].project.tags))
      && StrictlySorted(r.allTags)
      && (forall t :: t in r.allTags <==>
            exists k :: 0 <= k < |r.projects| && t in r.projects[k].tags)
  {
    var access := RecruiterAccess(st, actor);
    if access != Granted then ListingDenied(access)
    else
      var listed := WithTags(NewestFirst(st.projects, IsPublic));
      Listing(listed, AllTags(listed))
  }

  /** The project browser lists newest first. */
  lemma ListingIsNewestFirst(st: Store, actor: UserId)
    requires Valid(st)
    requires RecruiterAccess(st, actor) == Granted
    ensures var r := RecruiterStudentProjects(st, actor);
      r.Listing? && forall i, j :: 0 <= i < j < |r.projects| ==> r.projects[i].project.id > r.projects[j].project.id
  {
    NewestFirstDecreasing(st.projects, IsPublic, ProjectKey);
  }

  /** A project whose tags column is empty contributes no tag at all, not an empty one. */
  lemma EmptyTagsListNothing(st: Store, actor: UserId)
    requires RecruiterAccess(st, actor) == Granted
    ensures var r := RecruiterStudentProjects(st, actor);
      r.Listing? && forall k :: 0 <= k < |r.projects| && r.projects[k].project.tags == "" ==> r.projects[k].tags == []
  {
  }

  // ------------------------------------------------------------ toggle_save_student

  datatype SaveReply = SaveNotPost | SaveFailed | Saved(saved: bool, savedCount: nat)

  /** `toggle_save_student`: unsave a saved student or save an unsaved one, and report
      the size of the saved set. The approval status is not checked. */
  function ToggleSaveStudent(st: Store, actor: UserId, student: RowId, isPost: bool)
    : (res: (Store, SaveReply))
    ensures res.1 == SaveNotPost <==> !isPost
    ensures res.1 == SaveFailed <==>
      isPost && (StudentAt(st, student).None? || actor !in st.recruiters)
    ensures !res.1.Saved? ==> res.0 == st
    ensures res.1.Saved? ==>
      && actor in st.recruiters && actor in res.0.recruiters
      && var before := st.recruiters[actor].saved;
      && var after := res.0.recruiters[actor].saved;
      && res.0 == st.(recruiters := st.recruiters[actor := st.recruiters[actor].(saved := after)])
      && (res.1.saved <==> student !in before)
      && (res.1.saved ==> after == before + {student})
      && (!res.1.saved ==> after == before - {student})
      && res.1.savedCount == |after|
  {
    if !isPost then (st, SaveNotPost)
    else if StudentAt(st, student).None? || actor !in st.recruiters then (st, SaveFailed)
    else
      var r := st.recruiters[actor];
      var saved := student !in r.saved;
      var after := if saved then r.saved + {student} else r.saved - {student};
      (st.(recruiters := st.recruiters[actor := r.(saved := after)]), Saved(saved, |after|))
  }

  /** Saving and unsaving undo each other: two toggles restore the store. */
  lemma ToggleSaveTwice(st: Store, actor: UserId, student: RowId)
    requires ToggleSaveStudent(st, actor, student, true).1.Saved?
    ensures var st1 := ToggleSaveStudent(st, actor, student, true).0;
      ToggleSaveStudent(st1, actor, student, true).0 == st
  {
    var st1 := ToggleSaveStudent(st, actor, student, true).0;
    var r := st.recruiters[actor];
    assert StudentAt(st1, student) == StudentAt(st, student);
    if student in r.saved {
      assert r.saved - {student} + {student} == r.saved;
    } else {
      assert r.saved + {student} - {student} == r.saved;
    }
    assert st.recruiters[actor := r] == st.recruiters;
  }

  // ------------------------------------------------------------ initiate_hiring_process

  datatype HiringReply = HiringBadMethod | HiringFailed | HiringStarted(hiringCount: int)

  /** The JSON object a hire notification carries. */
  function HirePayload(jobTitle: string, message: string): map<string, string> {
    map["job_title" := jobTitle, "message" := message]
  }

  /** `initiate_hiring_process`: a pending hiring record, the recruiter's counter raised
      by one, and one `hire` notification to the student pointing at the record and
      carrying the job title and message. A missing student or recruiter profile, or a
      missing form field (the columns are NOT NULL), creates nothing. */
  function InitiateHiringProcess(
    st: Store, actor: UserId, student: RowId,
    jobTitle: Option<string>, message: Option<string>, codec: Codec, isPost: bool)
    : (res: (Store, HiringReply))
    ensures res.1 == HiringBadMethod <==> !isPost
    ensures res.1 == HiringFailed <==>
      isPost && (StudentAt(st, student).None? || actor !in st.recruiters
                 || jobTitle.None? || message.None?)
    ensures !res.1.HiringStarted? ==> res.0 == st
    ensures res.1.HiringStarted? ==>
      && actor in st.recruiters && jobTitle.Some? && message.Some?
      && var h := Hiring(st.nextId, actor, student, jobTitle.value, message.value, HiringPending);
      && var rec := st.recruiters[actor];
      && res.0 == st.(hirings := st.hirings + [h],
                      recruiters := st.recruiters[actor := rec.(hiringCount := rec.hiringCount + 1)],
                      notifications := res.0.notifications,
                      nextId := st.nextId + 2)
      && res.1.hiringCount == rec.hiringCount + 1
      && |res.0.notifications| == |st.notifications| + 1
      && res.0.notifications[..|st.notifications|] == st.notifications
      && var n := res.0.notifications[|st.notifications|];
      && n.kind == HireKind && n.recipient == student && n.sender == actor && !n.isRead
      && n.hiring == Some(h.id) && n.project.None?
      && n.data == Some(codec.dumps(HirePayload(jobTitle.value, message.value)))
  {
    if !isPost then (st, HiringBadMethod)
    else if StudentAt(st, student).None? || actor !in st.recruiters
         || jobTitle.None? || message.None? then (st, HiringFailed)
    else
      var hid := st.nextId;
      var h := Hiring(hid, actor, student, jobTitle.value, message.value, HiringPending);
      var rec := IncrementHiringProcess(st.recruiters[actor]);
      var note := NewNotification(hid + 1, student, actor, HireKind, None, Some(hid),
        Some(codec.dumps(HirePayload(jobTitle.value, message.value))));
      (st.(hirings := st.hirings + [h],
           recruiters := st.recruiters[actor := rec],
           notifications := st.notifications + [note],
           nextId := st.nextId + 2),
       HiringStarted(rec.hiringCount))
  }

  /** A hire request reaches the student's feed as "Job Title: ...\nMessage: ...", and
      the poll endpoint hands back the object that was sent. */
  lemma HireRequestDisplay(
    st: Store, actor: UserId, student: RowId, jobTitle: string, message: string, codec: Codec)
    requires RoundTrips(codec)
    requires InitiateHiringProcess(st, actor, student, Some(jobTitle), Some(message), codec, true).1.HiringStarted?
    ensures var st1 := InitiateHiringProcess(st, actor, student, Some(jobTitle), Some(message), codec, true).0;
      var n := st1.notifications[|st.notifications|];
      && Feed.DisplayData(n.data, codec) == Some("Job Title: " + jobTitle + "\nMessage: " + message)
      && Feed.PollData(n.data, codec) == Some(Feed.Parsed(JObject(HirePayload(jobTitle, message))))
  {
    Feed.HirePayloadDisplay(codec, jobTitle, message);
    assert codec.loads(codec.dumps(HirePayload(jobTitle, message))) == Some(JObject(HirePayload(jobTitle, message)));
  }

  /** Starting a hiring process keeps the database's guarantees. */
  lemma InitiateHiringKeepsValid(
    st: Store, actor: UserId, student: RowId,
    jobTitle: Option<string>, message: Option<string>, codec: Codec)
    requires Valid(st)
    ensures Valid(InitiateHiringProcess(st, actor, student, jobTitle, message, codec, true).0)
  {
    var (st1, r) := InitiateHiringProcess(st, actor, student, jobTitle, message, codec, true);
    if r.HiringStarted? {
      RaiseOtherKeys(st, st1);
      KeyedRowsRaise(st.follows, FollowKey, st.nextId, st1.nextId);
      KeyedRowsAppend(st.hirings, st1.hirings[|st.hirings|], HiringKey, st.nextId, st1.nextId);
      KeyedRowsAppend(st.notifications, st1.notifications[|st.notifications|], NotificationKey, st.nextId, st1.nextId);
      assert st1.notifications == st.notifications + [st1.notifications[|st.notifications|]];
    }
  }

  // ------------------------------------------------------------ view_student_profile

  /** Projects of profile `sid` that are Public. */
  function PublicOf(sid: RowId): Project -> bool {
    (p: Project) => p.student == sid && IsPublic(p)
  }

  datatype StudentPageReply =
    | StudentNotFound
    | StudentPageDenied
    | StudentPage(student: Student, projects: seq<Project>, isSaved: bool)

  /** `view_student_profile`: the profile's view counter goes up by one as soon as the
      profile exists, before the visitor's recruiter profile is looked up; the page
      lists the profile's Public projects newest first. */
  function ViewStudentProfile(st: Store, actor: UserId, student: RowId): (res: (Store, StudentPageReply))
    ensures res.1 == StudentNotFound <==> StudentAt(st, student).None?
    ensures res.1 == StudentNotFound ==> res.0 == st
    ensures res.1 != StudentNotFound ==>
      var i := StudentAt(st, student).value;
      && res.0 == st.(students := res.0.students)
      && |res.0.students| == |st.students|
      && res.0.students[i].profileViews == st.students[i].profileViews + 1
      && res.0.students[i].(profileViews := st.students[i].profileViews) == st.students[i]
      && forall j :: 0 <= j < |st.students| && j != i ==> res.0.students[j] == st.students[j]
    ensures res.1 == StudentPageDenied <==> StudentAt(st, student).Some? && actor !in st.recruiters
    ensures res.1.StudentPage? ==>
      && actor in st.recruiters
      && res.1.student == res.0.students[StudentAt(st, student).value]
      && (res.1.isSaved <==> student in st.recruiters[actor].saved)
      && |res.1.projects| == CountIf(st.projects, PublicOf(student))
      && (forall p :: p in res.1.projects <==> p in st.projects && IsPublic(p) && p.student == student)
      && (IncreasingBy(st.projects, ProjectKey) ==>
            forall i, j :: 0 <= i < j < |res.1.projects| ==> res.1.projects[i].id > res.1.projects[j].id)
  {
    match StudentAt(st, student)
    case None => (st, StudentNotFound)
    case Some(i) =>
      var s := IncrementProfileViews(st.students[i]);
      var st' := st.(students := st.students[i := s]);
      if actor !in st.recruiters then (st', StudentPageDenied)
      else
        var ps := NewestFirst(st.projects, PublicOf(student));
        NewestFirstDecreasingIf(st.projects, PublicOf(student), ProjectKey);
        (st', StudentPage(s, ps, student in st.recruiters[actor].saved))
  }

  /** Unlike a project view, every profile visit counts, a refused one included: two
      visits, by anyone, raise the counter by two and change nothing else, and the
      database's guarantees are kept. */
  lemma ProfileVisitsAccumulate(st: Store, a1: UserId, a2: UserId, student: RowId)
    requires Valid(st)
    requires StudentAt(st, student).Some?
    ensures var st1 := ViewStudentProfile(st, a1, student).0;
      var st2 := ViewStudentProfile(st1, a2, student).0;
      var i := StudentAt(st, student).value;
      && Valid(st1) && Valid(st2)
      && st2.students[i].profileViews == st.students[i].profileViews + 2
      && st2 == st.(students := st.students[i := st.students[i].(profileViews := st.students[i].profileViews + 2)])
  {
    var i := StudentAt(st, student).value;
    var st1 := ViewStudentProfile(st, a1, student).0;
    assert StudentAt(st1, student) == Some(i) by {
      assert forall j :: 0 <= j < |st.students| ==> st1.students[j].id == st.students[j].id;
    }
    KeyedRowsSameKeys(st.students, st1.students, StudentKey, st.nextId);
    var st2 := ViewStudentProfile(st1, a2, student).0;
    KeyedRowsSameKeys(st1.students, st2.students, StudentKey, st1.nextId);
    assert st2.students == st.students[i := st.students[i].(profileViews := st.students[i].profileViews + 2)];
  }

  // ------------------------------------------------------------ view_project_details

  datatype DetailsReply =
    | DetailsNotFound
    | DetailsPrivate
    | DetailsDenied
    | Details(project: Project, tags: seq<string>)

  /** `view_project_details`: a non-Public project is refused with no view recorded;
      otherwise the visitor's view row is created if absent, with no owner or
      administrator exception, and only then is the recruiter profile looked up. */
  function ViewProjectDetails(st: Store, actor: UserId, project: RowId): (res: (Store, DetailsReply))
    ensures res.1 == DetailsNotFound <==> ProjectAt(st, project).None?
    ensures res.1 == DetailsPrivate <==>
      ProjectAt(st, project).Some? && !IsPublic(st.projects[ProjectAt(st, project).value])
    ensures res.1 == DetailsNotFound || res.1 == DetailsPrivate ==> res.0 == st
    ensures res.1 == DetailsDenied || res.1.Details? ==>
      res.0 == st.(views := st.views + {Fact(project, actor)})
    ensures res.1 == DetailsDenied <==>
      ProjectAt(st, project).Some? && IsPublic(st.projects[ProjectAt(st, project).value])
      && actor !in st.recruiters
    ensures res.1.Details? ==>
      && res.1.project == st.projects[ProjectAt(st, project).value]
      && res.1.tags == RawTags(res.1.project.tags)
  {
    match ProjectAt(st, project)
    case None => (st, DetailsNotFound)
    case Some(i) =>
      var p := st.projects[i];
      if !IsPublic(p) then (st, DetailsPrivate)
      else
        var st' := st.(views := st.views + {Fact(project, actor)});
        if actor !in st.recruiters then (st', DetailsDenied) else (st', Details(p, RawTags(p.tags)))
  }

  /** The recruiter detail page counts an owner's view of a Public project, which the
      student-side recorder never counts. */
  lemma DetailsCountOwnerViews(st: Store, project: RowId)
    requires ProjectAt(st, project).Some?
    requires IsPublic(st.projects[ProjectAt(st, project).value])
    requires OwnerOf(st, st.projects[ProjectAt(st, project).value].student).Some?
    ensures var owner := OwnerOf(st, st.projects[ProjectAt(st, project).value].student).value;
      && Fact(project, owner) in ViewProjectDetails(st, owner, project).0.views
      && Engagement.RecordProjectView(st, owner, Engagement.Number(project), true).0.views == st.views
  {
  }

  // ------------------------------------------------------------ saved_profiles

  /** The union of the raw comma pieces of every project's tags. */
  function Skills(ps: seq<Project>): (r: set<string>)
    ensures forall t :: t in r <==> exists j :: 0 <= j < |ps| && t in RawTags(ps[j].tags)
  {
    if |ps| == 0 then {}
    else
      var r := Skills(ps[..|ps| - 1]) + Elems(RawTags(ps[|ps| - 1].tags));
      assert forall j :: 0 <= j < |ps| - 1 ==> ps[..|ps| - 1][j] == ps[j];
      r
  }

  /** How many recent projects the saved-profiles page shows per student. */
  const SavedProjectsShown := 3

  datatype SavedEntry = SavedEntry(student: Student, projects: seq<Project>, skills: set<string>)

  datatype SavedReply = SavedDenied | SavedList(entries: seq<SavedEntry>)

  /** Whether a profile is in the recruiter's saved set. */
  function SavedBy(r: Recruiter): Student -> bool {
    (s: Student) => s.id in r.saved
  }

  /** `shown` are newest first and newer than every Public project of profile `sid`
      left out of them. */
  ghost predicate NewestShown(st: Store, sid: RowId, shown: seq<Project>) {
    && (forall i, j :: 0 <= i < j < |shown| ==> shown[i].id > shown[j].id)
    && (forall j, q :: 0 <= j < |shown| && q in st.projects && PublicOf(sid)(q) && q !in shown ==>
          shown[j].id > q.id)
  }

  /** A saved-profile card: the student's newest Public projects, at most three, and
      the union of their raw comma-split tags as skills. */
  ghost predicate Card(st: Store, e: SavedEntry) {
    && |e.projects| == Min(SavedProjectsShown, CountIf(st.projects, PublicOf(e.student.id)))
    && (forall j :: 0 <= j < |e.projects| ==>
          e.projects[j] in st.projects && IsPublic(e.projects[j])
          && e.projects[j].student == e.student.id)
    && (IncreasingBy(st.projects, ProjectKey) ==> NewestShown(st, e.student.id, e.projects))
    && (forall t :: t in e.skills <==>
          exists j :: 0 <= j < |e.projects| && t in RawTags(e.projects[j].tags))
  }

  /** `saved_profiles`: for each saved student, the three newest Public projects and the
      union of their raw comma-split tags. Only a recruiter profile is required. The
      saved set is queried without an ordering, so the order of the cards is left open;
      the model lists them in key order. */
  function SavedProfiles(st: Store, actor: UserId): (r: SavedReply)
    ensures r == SavedDenied <==> actor !in st.recruiters
    ensures r.SavedList? ==>
      && |r.entries| == CountIf(st.students, SavedBy(st.recruiters[actor]))
      && forall k :: 0 <= k < |r.entries| ==>
           && r.entries[k].student in st.students
           && r.entries[k].student.id in st.recruiters[actor].saved
           && Card(st, r.entries[k])
    ensures r.SavedList? ==>
      forall s :: s in st.students && s.id in st.recruiters[actor].saved ==> HasCard(r.entries, s)
    ensures r.SavedList? && IncreasingBy(st.students, StudentKey) ==>
      forall k, k' :: 0 <= k < k' < |r.entries| ==> r.entries[k].student.id < r.entries[k'].student.id
  {
    if actor !in st.recruiters then SavedDenied
    else
      var saved := Filter(st.students, SavedBy(st.recruiters[actor]));
      var entries := Entries(st, saved);
      assert forall k :: 0 <= k < |saved| ==> saved[k] in saved;
      EveryStudentCarded(saved, entries);
      FilterIncreasingIf(st.students, SavedBy(st.recruiters[actor]), StudentKey);
      SavedList(entries)
  }

  /** Some card of `es` is student `s`'s. */
  ghost predicate HasCard(es: seq<SavedEntry>, s: Student) {
    exists k :: 0 <= k < |es| && es[k].student == s
  }

  /** Cards made one per student, in order, leave no student without one. */
  lemma EveryStudentCarded(ss: seq<Student>, es: seq<SavedEntry>)
    requires |es| == |ss| && forall k :: 0 <= k < |ss| ==> es[k].student == ss[k]
    ensures forall s :: s in ss ==> HasCard(es, s)
  {
    forall s | s in ss ensures HasCard(es, s) {
      var k :| 0 <= k < |ss| && ss[k] == s;
      assert es[k].student == s;
    }
  }

  /** The cards of the given students, in order. */
  function Entries(st: Store, ss: seq<Student>): (es: seq<SavedEntry>)
    ensures |es| == |ss|
    ensures forall k :: 0 <= k < |ss| ==> es[k].student == ss[k] && Card(st, es[k])
  {
    Map(ss, (s: Student) => Entry(st, s))
  }

  function Min(a: nat, b: nat): nat {
    if a <= b then a else b
  }

  /** The first `n` of a newest-first listing of a keyed table are its newest rows. */
  lemma NewestPrefix(st: Store, sid: RowId, n: nat)
    ensures var all := NewestFirst(st.projects, PublicOf(sid));
      IncreasingBy(st.projects, ProjectKey) ==>
        NewestShown(st, sid, if |all| <= n then all else all[..n])
  {
    if IncreasingBy(st.projects, ProjectKey) {
      var all := NewestFirst(st.projects, PublicOf(sid));
      NewestFirstDecreasing(st.projects, PublicOf(sid), ProjectKey);
      var shown := if |all| <= n then all else all[..n];
      assert forall r :: 0 <= r < |shown| ==> shown[r] == all[r];
      forall j, q | 0 <= j < |shown| && q in st.projects && PublicOf(sid)(q) && q !in shown
        ensures shown[j].id > q.id
      {
        assert q in all;
        var m :| 0 <= m < |all| && all[m] == q;
        assert m >= |shown|;
      }
    }
  }

  /** One saved student's card. */
  function Entry(st: Store, s: Student): (e: SavedEntry)
    ensures e.student == s
    ensures Card(st, e)
  {
    var all := NewestFirst(st.projects, PublicOf(s.id));
    var shown := if |all| <= SavedProjectsShown then all else all[..SavedProjectsShown];
    assert forall j :: 0 <= j < |shown| ==> shown[j] in all;
    NewestPrefix(st, s.id, SavedProjectsShown);
    SavedEntry(s, shown, Skills(shown))
  }
}

=== FILE: scan.dfy ===
/** The `scan_suspicious` management command: every project's text is searched for a
    fixed list of literal patterns, case-insensitively, and the projects with a hit are
    reported with the distinct patterns found. */
module Scan {
  import opened Common
  import opened Strings
  import opened Models

  /** The alternatives of the combined expression, in order; escaped dots are literal
      dots, and every pattern is already lower-case. */
  const Patterns: seq<string> := [
    ".exe", ".apk", ".zip", ".rar", "free money", "bank", "credit card",
    "paypal", "verify", "confirm", "download", ".scr", ".bat"]

  /** Alternatives that each consume at least one character. */
  predicate NonEmptyAll(pats: seq<string>) {
    forall k :: 0 <= k < |pats| ==> |pats[k]| > 0
  }

  lemma PatternsNonEmpty()
    ensures NonEmptyAll(Patterns)
  {
  }

  /** Pattern `pat` matches `text` at `i`, ignoring ASCII case. */
  predicate MatchesAt(text: string, pat: string, i: nat) {
    i + |pat| <= |text| && Lower(text[i..i + |pat|]) == pat
  }

  /** Pattern `pat` occurs somewhere in `text`, ignoring ASCII case. */
  ghost predicate Occurs(text: string, pat: string) {
    exists i :: MatchesAt(text, pat, i)
  }

  /** Some pattern occurs somewhere at or after `from`. */
  ghost predicate HitFrom(pats: seq<string>, text: string, from: nat) {
    exists k, i :: 0 <= k < |pats| && from <= i && MatchesAt(text, pats[k], i)
  }

  /** The first alternative, in list order, that matches at `i`. */
  function FirstPatternAt(pats: seq<string>, text: string, i: nat, k: nat): (r: Option<nat>)
    requires k <= |pats|
    ensures r.Some? ==> k <= r.value < |pats| && MatchesAt(text, pats[r.value], i)
    ensures r.None? ==> forall j :: k <= j < |pats| ==> !MatchesAt(text, pats[j], i)
    decreases |pats| - k
  {
    if k == |pats| then None
    else if MatchesAt(text, pats[k], i) then Some(k)
    else FirstPatternAt(pats, text, i, k + 1)
  }

  /** `findall` of the alternation of `pats` from position `i`, lower-cased: scanning
      left to right, the first alternative matching at a position is taken and the
      scan resumes after it, so matches never overlap. */
  function FindAll(pats: seq<string>, text: string, i: nat): (r: seq<string>)
    requires NonEmptyAll(pats)
    ensures forall x :: x in r ==> x in pats
    decreases |text| - i
  {
    if i >= |text| then []
    else match FirstPatternAt(pats, text, i, 0)
      case Some(k) => [pats[k]] + FindAll(pats, text, i + |pats[k]|)
      case None => FindAll(pats, text, i + 1)
  }

  /** Every recorded match is a pattern that occurs in the text. */
  lemma {:induction false} FindAllSound(pats: seq<string>, text: string, i: nat, x: string)
    requires NonEmptyAll(pats)
    requires x in FindAll(pats, text, i)
    ensures exists j :: i <= j && MatchesAt(text, x, j)
    decreases |text| - i
  {
    if i < |text| {
      match FirstPatternAt(pats, text, i, 0)
      case Some(k) =>
        if x != pats[k] {
          FindAllSound(pats, text, i + |pats[k]|, x);
        }
      case None =>
        FindAllSound(pats, text, i + 1, x);
    }
  }

  /** The scan from `i` records the first alternative matching at the leftmost position
      `j` where any alternative matches, then resumes after that match. */
  lemma {:induction false} LeftmostRecorded(pats: seq<string>, text: string, i: nat, j: nat, k: nat)
    requires NonEmptyAll(pats) && i <= j
    requires forall m :: i <= m < j ==> FirstPatternAt(pats, text, m, 0).None?
    requires FirstPatternAt(pats, text, j, 0) == Some(k)
    ensures FindAll(pats, text, i) == [pats[k]] + FindAll(pats, text, j + |pats[k]|)
    decreases j - i
  {
    assert MatchesAt(text, pats[k], j) && |pats[k]| > 0;
    assert i < |text|;
    if i < j {
      assert FirstPatternAt(pats, text, i, 0).None?;
      assert FindAll(pats, text, i) == FindAll(pats, text, i + 1);
      LeftmostRecorded(pats, text, i + 1, j, k);
    }
  }

  /** If a pattern occurs at or after `i`, the scan from `i` records something. */
  lemma FindAllComplete(pats: seq<string>, text: string, i: nat)
    requires NonEmptyAll(pats)
    requires HitFrom(pats, text, i)
    ensures FindAll(pats, text, i) != []
  {
    var k, j :| 0 <= k < |pats| && i <= j && MatchesAt(text, pats[k], j);
    FindAllReaches(pats, text, i, j, k);
  }

  /** A match of alternative `k` at `j` makes the scan from any `i <= j` record
      something: either an earlier match is recorded or the scan reaches `j`. */
  lemma {:induction false} FindAllReaches(pats: seq<string>, text: string, i: nat, j: nat, k: nat)
    requires NonEmptyAll(pats) && i <= j && k < |pats|
    requires MatchesAt(text, pats[k], j)
    ensures FindAll(pats, text, i) != []
    decreases j - i
  {
    assert |pats[k]| > 0;
    match FirstPatternAt(pats, text, i, 0)
    case Some(m) =>
    case None =>
      FindAllReaches(pats, text, i + 1, j, k);
  }

  /** The scan records something exactly when some pattern occurs in the text. */
  lemma FindAllNonEmptyIff(pats: seq<string>, text: string)
    requires NonEmptyAll(pats)
    ensures FindAll(pats, text, 0) != [] <==> HitFrom(pats, text, 0)
  {
    if HitFrom(pats, text, 0) {
      FindAllComplete(pats, text, 0);
    }
    if FindAll(pats, text, 0) != [] {
      var x := FindAll(pats, text, 0)[0];
      FindAllSound(pats, text, 0, x);
      var j :| 0 <= j && MatchesAt(text, x, j);
      var k :| 0 <= k < |pats| && pats[k] == x;
    }
  }

  /** A pattern cannot match where the text's first character differs from its own. */
  lemma MismatchAtHead(text: string, pat: string, i: nat)
    requires |pat| > 0 && i < |text| && LowerChar(text[i]) != pat[0]
    ensures !MatchesAt(text, pat, i)
  {
    if i + |pat| <= |text| {
      assert Lower(text[i..i + |pat|])[0] == LowerChar(text[i]);
    }
  }

  /** Every pattern is at least four characters long and starts with one of a few
      characters. */
  lemma PatternHeads()
    ensures forall k :: 0 <= k < |Patterns| ==>
      |Patterns[k]| >= 4 && Patterns[k][0] in {'.', 'f', 'b', 'c', 'p', 'v', 'd'}
  {
  }

  /** At the start of "credit cardownload" the first alternative to match is
      "credit card". */
  lemma CreditCardFirst(t: string)
    requires t == "credit cardownload"
    ensures FirstPatternAt(Patterns, t, 0, 0) == Some(6)
  {
    assert t[0..11] == "credit card";
    assert Lower(t[0..11]) == "credit card";
    PatternHeads();
    forall j | 0 <= j < 6 ensures !MatchesAt(t, Patterns[j], 0) {
      MismatchAtHead(t, Patterns[j], 0);
    }
    FirstPatternSkips(Patterns, t, 0, 0, 6);
  }

  /** Alternatives that do not match at `i` are passed over. */
  lemma {:induction false} FirstPatternSkips(pats: seq<string>, text: string, i: nat, k: nat, m: nat)
    requires k <= m <= |pats|
    requires forall j :: k <= j < m ==> !MatchesAt(text, pats[j], i)
    ensures FirstPatternAt(pats, text, i, k) == FirstPatternAt(pats, text, i, m)
    decreases m - k
  {
    if k < m {
      FirstPatternSkips(pats, text, i, k + 1, m);
    }
  }

  /** After "credit card", no pattern starts in "credit cardownload". */
  lemma NothingAfterCard(t: string)
    requires t == "credit cardownload"
    ensures !HitFrom(Patterns, t, 11)
  {
    PatternHeads();
    forall k, i | 0 <= k < |Patterns| && 11 <= i ensures !MatchesAt(t, Patterns[k], i) {
      if i < 15 {
        MismatchAtHead(t, Patterns[k], i);
      }
    }
  }

  /** Matches are consumed, so a pattern overlapping an earlier match is not recorded
      even though it occurs: in "credit cardownload" only "credit card" is found. */
  lemma OverlapNotRecorded()
    ensures MatchesAt("credit cardownload", "download", 10)
    ensures NonEmptyAll(Patterns) && FindAll(Patterns, "credit cardownload", 0) == ["credit card"]
  {
    var t := "credit cardownload";
    assert t[10..18] == "download";
    assert Lower(t[10..18]) == "download";
    CreditCardFirst(t);
    NothingAfterCard(t);
    PatternsNonEmpty();
    assert FindAll(Patterns, t, 0) == [Patterns[6]] + FindAll(Patterns, t, 11);
    if FindAll(Patterns, t, 11) != [] {
      FindAllSound(Patterns, t, 11, FindAll(Patterns, t, 11)[0]);
      assert false;
    }
  }

  // ------------------------------------------------------------ the command

  /** The five searched fields, in order. */
  function Fields(p: Project): seq<string> {
    [p.title, p.description, p.tags, p.projectLink, p.outputLink]
  }

  /** The searched text: the non-empty fields among title, description, tags, project
      link and output link, joined by single spaces. It is empty only when every field
      is, and every field appears in it whole. */
  function ScanText(p: Project): (t: string)
    ensures t == "" <==> forall k :: 0 <= k < |Fields(p)| ==> Fields(p)[k] == ""
    ensures forall k :: 0 <= k < |Fields(p)| ==> Contains(t, Fields(p)[k])
  {
    JoinedFields(Fields(p));
    Join(Filter(Fields(p), NonEmpty), " ")
  }

  /** The space-joined non-empty strings of `fs` contain each of them, and are empty
      only when all of them are. */
  lemma JoinedFields(fs: seq<string>)
    ensures var t := Join(Filter(fs, NonEmpty), " ");
      && (t == "" <==> forall k :: 0 <= k < |fs| ==> fs[k] == "")
      && forall k :: 0 <= k < |fs| ==> Contains(t, fs[k])
  {
    JoinedFieldsContain(fs);
    if forall k :: 0 <= k < |fs| ==> fs[k] == "" {
      CountIfZero(fs, NonEmpty);
    }
  }

  lemma JoinedFieldsContain(fs: seq<string>)
    ensures forall k :: 0 <= k < |fs| ==> Contains(Join(Filter(fs, NonEmpty), " "), fs[k])
  {
    var parts := Filter(fs, NonEmpty);
    var t := Join(parts, " ");
    forall k | 0 <= k < |fs| ensures Contains(t, fs[k]) {
      if fs[k] != "" {
        assert fs[k] in parts;
        var m :| 0 <= m < |parts| && parts[m] == fs[k];
        JoinHasPart(parts, " ", m);
      } else {
        assert OccursAt(t, fs[k], 0);
      }
    }
  }

  /** Every piece of a join occurs in the joined string. */
  lemma {:induction false} JoinHasPart(parts: seq<string>, sep: string, m: nat)
    requires m < |parts|
    ensures Contains(Join(parts, sep), parts[m])
  {
    var j := Join(parts, sep);
    if |parts| == 1 {
      assert OccursAt(j, parts[0], 0);
    } else if m == 0 {
      assert j == parts[0] + (sep + Join(parts[1..], sep));
      assert j[0..|parts[0]|] == parts[0];
      assert OccursAt(j, parts[0], 0);
    } else {
      JoinHasPart(parts[1..], sep, m - 1);
      var rest := Join(parts[1..], sep);
      var i :| 0 <= i <= |rest| - |parts[m]| && OccursAt(rest, parts[m], i);
      var off := |parts[0]| + |sep|;
      assert j == (parts[0] + sep) + rest;
      assert j[off + i..off + i + |parts[m]|] == rest[i..i + |parts[m]|];
      assert OccursAt(j, parts[m], off + i);
    }
  }

  predicate NonEmpty(s: string) {
    s != ""
  }

  /** The command's `findall` on one project's text. */
  function Hits(p: Project): (r: seq<string>)
    ensures forall x :: x in r ==> x in Patterns
  {
    PatternsNonEmpty();
    FindAll(Patterns, ScanText(p), 0)
  }

  predicate Flagged(p: Project) {
    Hits(p) != []
  }

  /** `list(set(m.lower() for m in matches))`: the distinct patterns hit. */
  function Matched(p: Project): (r: set<string>)
    ensures r != {} <==> Flagged(p)
    ensures forall x :: x in r ==> x in Patterns
    ensures forall x :: x in r ==> Occurs(ScanText(p), x)
  {
    var hits := Hits(p);
    assert hits != [] ==> hits[0] in Elems(hits);
    HitsOccur(p);
    Elems(hits)
  }

  /** Every hit of the scan is a pattern occurring in the project's text. */
  lemma HitsOccur(p: Project)
    ensures forall x :: x in Hits(p) ==> Occurs(ScanText(p), x)
  {
    PatternsNonEmpty();
    forall x | x in Hits(p)
      ensures Occurs(ScanText(p), x)
    {
      FindAllSound(Patterns, ScanText(p), 0, x);
    }
  }

  /** The matches reported for a project are the first alternative matching at the
      leftmost hit, together with every match of the scan resumed after it: no match
      that an earlier one does not overlap is dropped. */
  lemma MatchedLeftmost(p: Project, j: nat, k: nat)
    requires forall m :: 0 <= m < j ==> FirstPatternAt(Patterns, ScanText(p), m, 0).None?
    requires FirstPatternAt(Patterns, ScanText(p), j, 0) == Some(k)
    ensures Patterns[k] in Matched(p)
    ensures NonEmptyAll(Patterns)
      && Matched(p) == {Patterns[k]} + Elems(FindAll(Patterns, ScanText(p), j + |Patterns[k]|))
  {
    PatternsNonEmpty();
    var t := ScanText(p);
    LeftmostRecorded(Patterns, t, 0, j, k);
    var rest := FindAll(Patterns, t, j + |Patterns[k]|);
    assert Hits(p) == [Patterns[k]] + rest;
    ElemsCons(Patterns[k], rest);
  }

  /** One reported project; `studentName` is `None` where the report says "N/A". */
  datatype Finding = Finding(project: RowId, studentName: Option<string>, title: string, matches: set<string>)

  datatype ScanResult = ScanFailed | Scanned(total: nat, findings: seq<Finding>)

  /** The projects the command looks at: all with limit 0, the first `limit` by key
      otherwise. */
  function Scope(ps: seq<Project>, limit: nat): (r: seq<Project>)
    ensures limit == 0 ==> r == ps
    ensures limit > 0 ==> r == ps[..if limit < |ps| then limit else |ps|]
  {
    if limit == 0 || |ps| <= limit then ps else ps[..limit]
  }

  /** The scanned prefix of a key-ordered table is key-ordered. */
  lemma ScopeKeepsOrder(ps: seq<Project>, limit: nat)
    ensures IncreasingBy(ps, ProjectKey) ==> IncreasingBy(Scope(ps, limit), ProjectKey)
  {
    var scope := Scope(ps, limit);
    assert forall i :: 0 <= i < |scope| ==> scope[i] == ps[i];
  }

  function Report(st: Store, p: Project): Finding {
    var name := match StudentAt(st, p.student)
      case None => None
      case Some(i) => Some(st.students[i].name);
    Finding(p.id, name, p.title, Matched(p))
  }

  /** Some finding of `r` is the report of `p`. */
  ghost predicate HasReport(st: Store, r: seq<Finding>, p: Project) {
    exists k :: 0 <= k < |r| && r[k] == Report(st, p)
  }

  /** `x` is the report of a flagged project of `ps`. */
  ghost predicate ReportOfFlagged(st: Store, ps: seq<Project>, x: Finding) {
    exists j :: 0 <= j < |ps| && Flagged(ps[j]) && x == Report(st, ps[j])
  }

  /** `r` reports exactly the flagged projects of `ps`, one finding each, each with a
      non-empty set of patterns, in the order of `ps` when that is key order. */
  ghost predicate ReportsFlagged(st: Store, ps: seq<Project>, r: seq<Finding>) {
    && |r| == CountIf(ps, Flagged)
    && (r == [] <==> forall j :: 0 <= j < |ps| ==> !Flagged(ps[j]))
    && (forall k :: 0 <= k < |r| ==>
          r[k].matches != {} && forall x :: x in r[k].matches ==> x in Patterns)
    && (forall j :: 0 <= j < |ps| && Flagged(ps[j]) ==> HasReport(st, r, ps[j]))
    && (forall k :: 0 <= k < |r| ==> ReportOfFlagged(st, ps, r[k]))
    && (IncreasingBy(ps, ProjectKey) ==>
          forall k, k' :: 0 <= k < k' < |r| ==> r[k].project < r[k'].project)
  }

  /** The findings for the given projects, in order: one per flagged project. */
  function Findings(st: Store, ps: seq<Project>): (r: seq<Finding>)
    ensures ReportsFlagged(st, ps, r)
  {
    var f := Filter(ps, Flagged);
    var r := Reports(st, f);
    ReportsOfFlagged(st, ps, f, r);
    r
  }

  /** The reports of the flagged projects, made in order, are what `ReportsFlagged`
      asks for. */
  lemma ReportsOfFlagged(st: Store, ps: seq<Project>, f: seq<Project>, r: seq<Finding>)
    requires f == Filter(ps, Flagged)
    requires |r| == |f| && forall k :: 0 <= k < |f| ==> r[k] == Report(st, f[k])
    ensures ReportsFlagged(st, ps, r)
  {
    ReportsCover(st, ps, f, r);
    ReportsInOrder(st, ps, f, r);
  }

  /** The reports of the given projects, in order. */
  function Reports(st: Store, f: seq<Project>): (r: seq<Finding>)
    ensures |r| == |f| && forall k :: 0 <= k < |f| ==> r[k] == Report(st, f[k])
  {
    seq(|f|, k requires 0 <= k < |f| => Report(st, f[k]))
  }

  /** Reports made in the order of a key-ordered table come in increasing project id. */
  lemma ReportsInOrder(st: Store, ps: seq<Project>, f: seq<Project>, r: seq<Finding>)
    requires f == Filter(ps, Flagged)
    requires |r| == |f| && forall k :: 0 <= k < |f| ==> r[k] == Report(st, f[k])
    ensures IncreasingBy(ps, ProjectKey) ==>
      forall k, k' :: 0 <= k < k' < |r| ==> r[k].project < r[k'].project
  {
    if IncreasingBy(ps, ProjectKey) {
      FilterIncreasing(ps, Flagged, ProjectKey);
      forall k, k' | 0 <= k < k' < |r| ensures r[k].project < r[k'].project {
        assert r[k].project == f[k].id && r[k'].project == f[k'].id;
        assert ProjectKey(f[k]) < ProjectKey(f[k']);
      }
    }
  }

  lemma ReportsCover(st: Store, ps: seq<Project>, f: seq<Project>, r: seq<Finding>)
    requires forall x :: x in f <==> x in ps && Flagged(x)
    requires |r| == |f| && forall k :: 0 <= k < |f| ==> r[k] == Report(st, f[k])
    ensures r == [] <==> forall j :: 0 <= j < |ps| ==> !Flagged(ps[j])
    ensures forall k :: 0 <= k < |r| ==>
      r[k].matches != {} && forall x :: x in r[k].matches ==> x in Patterns
    ensures forall j :: 0 <= j < |ps| && Flagged(ps[j]) ==> HasReport(st, r, ps[j])
    ensures forall k :: 0 <= k < |r| ==> ReportOfFlagged(st, ps, r[k])
  {
    forall k | 0 <= k < |r|
      ensures ReportOfFlagged(st, ps, r[k])
    {
      assert f[k] in f;
      var j :| 0 <= j < |ps| && ps[j] == f[k];
    }
    forall k | 0 <= k < |r|
      ensures r[k].matches != {} && forall x :: x in r[k].matches ==> x in Patterns
    {
      assert f[k] in f;
    }
    forall j | 0 <= j < |ps| && Flagged(ps[j])
      ensures HasReport(st, r, ps[j])
    {
      assert ps[j] in f;
      var k :| 0 <= k < |f| && f[k] == ps[j];
      assert r[k] == Report(st, ps[j]);
    }
    if f != [] {
      assert f[0] in f;
    }
  }

  /** `Command.handle`: scan the projects in key order, limited by `--limit` (0 means
      all; a negative limit makes the slice raise), and report each project whose text
      has a hit, with its distinct lower-cased matches. */
  function Handle(st: Store, limit: int): (r: ScanResult)
    ensures r == ScanFailed <==> limit < 0
    ensures r.Scanned? ==>
      && var scope := Scope(st.projects, limit as nat);
      && r.total == |scope|
      && (limit == 0 ==> r.total == |st.projects|)
      && (limit > 0 ==> r.total == (if limit < |st.projects| then limit else |st.projects|))
      && ReportsFlagged(st, scope, r.findings)
      && (IncreasingBy(st.projects, ProjectKey) ==> IncreasingBy(scope, ProjectKey))
  {
    if limit < 0 then ScanFailed
    else
      var scope := Scope(st.projects, limit);
      ScopeKeepsOrder(st.projects, limit);
      Scanned(|scope|, Findings(st, scope))
  }

  /** A pattern occurring, in any case, inside any one of the five fields gets the
      project reported: joining the fields loses none of their text. */
  lemma FieldHitFlags(p: Project, f: nat, k: nat, i: nat)
    requires f < |Fields(p)| && k < |Patterns|
    requires MatchesAt(Fields(p)[f], Patterns[k], i)
    ensures Flagged(p)
  {
    var t := ScanText(p);
    var field := Fields(p)[f];
    assert Contains(t, field);
    var j :| 0 <= j <= |t| - |field| && OccursAt(t, field, j);
    MatchInside(t, field, Patterns[k], j, i);
    FlaggedIff(p);
  }

  /** A match inside a piece of a text is a match in the text. */
  lemma MatchInside(t: string, field: string, pat: string, j: nat, i: nat)
    requires OccursAt(t, field, j) && MatchesAt(field, pat, i)
    ensures MatchesAt(t, pat, j + i)
  {
    assert t[j..j + |field|] == field;
    forall m | 0 <= m < |field| ensures t[j + m] == field[m] {
      assert t[j..j + |field|][m] == t[j + m];
    }
    assert t[j + i..j + i + |pat|] == field[i..i + |pat|];
  }

  /** A project is reported exactly when its text contains one of the patterns. */
  lemma FlaggedIff(p: Project)
    ensures Flagged(p) <==>
      exists k, i :: 0 <= k < |Patterns| && 0 <= i && MatchesAt(ScanText(p), Patterns[k], i)
  {
    PatternsNonEmpty();
    FindAllNonEmptyIff(Patterns, ScanText(p));
  }
}

=== FILE: social.dfy ===
/** The social graph: the request/accept/reject follow workflow of the profile pages,
    the unconditional follow toggle of the notification views, and the counts shown on
    a profile. Each view is a pure transition from the store to a new store and a
    reply. */
module Social {
  import opened Common
  import opened Models

  // ------------------------------------------------------------ request_follow

  datatype RequestReply =
    /** `@require_POST` answers any other method with 405 before the view runs. */
    | RequestNotPost
    | NoSuchStudent
    | CannotFollowSelf
    | AlreadyRequested(status: FollowStatus)
    | RequestSent

  /** Everything but the follow and notification tables (and the key counter) is as in `st`. */
  ghost predicate OnlyGraphChanged(st: Store, st': Store) {
    st' == st.(follows := st'.follows, notifications := st'.notifications, nextId := st'.nextId)
  }

  /** `fs'` is `fs` with one more edge at the end: from `u` to `p`, pending. */
  ghost predicate AddsPendingEdge(fs: seq<Follow>, fs': seq<Follow>, u: UserId, p: RowId) {
    && |fs'| == |fs| + 1
    && fs'[..|fs|] == fs
    && fs'[|fs|].follower == u
    && fs'[|fs|].following == p
    && fs'[|fs|].status == Pending
  }

  /** `ns'` is `ns` with one more notification at the end, unread, of kind `k`,
      addressed to `to` and sent by `from`, referring to no project or hiring record and
      carrying no payload. */
  ghost predicate AddsNotification(
    ns: seq<Notification>, ns': seq<Notification>, to: RowId, from: UserId, k: NotificationKind)
  {
    && |ns'| == |ns| + 1
    && ns'[..|ns|] == ns
    && ns'[|ns|].recipient == to
    && ns'[|ns|].sender == from
    && ns'[|ns|].kind == k
    && !ns'[|ns|].isRead
    && ns'[|ns|].project.None? && ns'[|ns|].hiring.None? && ns'[|ns|].data.None?
  }

  /** `request_follow`: refuse anything but a POST, a missing profile and one's own
      profile, report the existing edge's status without touching it, or else create
      one pending edge and one `follow` notification to the profile. */
  function RequestFollow(st: Store, actor: UserId, target: RowId, isPost: bool): (res: (Store, RequestReply))
    ensures res.1 == RequestNotPost <==> !isPost
    ensures res.1 == NoSuchStudent <==> isPost && OwnerOf(st, target).None?
    ensures res.1 == CannotFollowSelf <==> isPost && OwnerOf(st, target) == Some(actor)
    ensures res.1.AlreadyRequested? <==>
      isPost && OwnerOf(st, target).Some? && OwnerOf(st, target) != Some(actor)
      && HasEdge(st.follows, actor, target)
    ensures res.1.AlreadyRequested? ==>
      EdgeAt(st.follows, actor, target).Some?
      && res.1.status == st.follows[EdgeAt(st.follows, actor, target).value].status
    ensures !res.1.RequestSent? ==> res.0 == st
    ensures res.1.RequestSent? ==>
      && OnlyGraphChanged(st, res.0)
      && AddsPendingEdge(st.follows, res.0.follows, actor, target)
      && AddsNotification(st.notifications, res.0.notifications, target, actor, FollowKind)
  {
    if !isPost then (st, RequestNotPost)
    else match OwnerOf(st, target)
    case None => (st, NoSuchStudent)
    case Some(owner) =>
      if actor == owner then (st, CannotFollowSelf)
      else match EdgeAt(st.follows, actor, target)
        case Some(i) => (st, AlreadyRequested(st.follows[i].status))
        case None =>
          var edge := Follow(st.nextId, actor, target, Pending);
          var note := NewNotification(st.nextId + 1, target, actor, FollowKind, None, None, None);
          (st.(follows := st.follows + [edge],
               notifications := st.notifications + [note],
               nextId := st.nextId + 2),
           RequestSent)
  }

  /** Asking again never duplicates the edge: the second request reports the status
      the first one left, and changes nothing. */
  lemma RequestFollowTwice(st: Store, actor: UserId, target: RowId)
    requires RequestFollow(st, actor, target, true).1.RequestSent?
    ensures var st1 := RequestFollow(st, actor, target, true).0;
      RequestFollow(st1, actor, target, true) == (st1, AlreadyRequested(Pending))
  {
    var st1 := RequestFollow(st, actor, target, true).0;
    assert st1.follows[|st.follows|].follower == actor;
    assert HasEdge(st1.follows, actor, target);
  }

  /** A request on an existing edge is answered from it, however often it is repeated. */
  lemma RequestFollowExistingIsStable(st: Store, actor: UserId, target: RowId)
    requires RequestFollow(st, actor, target, true).1.AlreadyRequested?
    ensures var (st1, r1) := RequestFollow(st, actor, target, true);
      RequestFollow(st1, actor, target, true) == (st1, r1) && st1 == st
  {
  }

  /** `request_follow` keeps the unique-together constraint and the key order. */
  lemma {:induction false} RequestFollowKeepsValid(st: Store, actor: UserId, target: RowId, isPost: bool)
    requires Valid(st)
    ensures Valid(RequestFollow(st, actor, target, isPost).0)
  {
    var (st1, r) := RequestFollow(st, actor, target, isPost);
    if r.RequestSent? {
      var n := st.nextId;
      UniqueEdgesAppend(st.follows, st1.follows[|st.follows|]);
      assert st1.follows == st.follows + [st1.follows[|st.follows|]];
      KeyedRowsAppend(st.follows, Follow(n, actor, target, Pending), FollowKey, n, n + 2);
      KeyedRowsAppend(st.notifications, st1.notifications[|st.notifications|], NotificationKey, n, n + 2);
      KeyedRowsRaise(st.hirings, HiringKey, n, n + 2);
      RaiseOtherKeys(st, st1);
    }
  }

  // ------------------------------------------------------------ handle_follow_request

  datatype HandleReply =
    /** `@require_POST` answers any other method with 405 before the view runs. */
    | HandleNotPost
    | NoSuchRequest
    | Unauthorized
    | InvalidAction
    | Decided(accepted: bool, followersCount: nat)
    /** The status was saved, then reading the follower's student profile raised. */
    | ServerError

  /** `fs'` is `fs` with edge `i` given status `s` and nothing else changed. */
  ghost predicate SetsStatus(fs: seq<Follow>, fs': seq<Follow>, i: nat, s: FollowStatus) {
    && i < |fs| && |fs'| == |fs|
    && fs'[i] == fs[i].(status := s)
    && forall j :: 0 <= j < |fs| && j != i ==> fs'[j] == fs[j]
  }

  /** `handle_follow_request`: only a POST is served, and only the owner of the
      followed profile may decide.
      `accept` marks the edge accepted and notifies the follower's student profile;
      `reject` marks it rejected and notifies nobody; any other action is refused. The
      current status is not consulted. The reply carries the profile's accepted
      follower count after the change. */
  function HandleFollowRequest(
    st: Store, actor: UserId, followId: RowId, action: Option<string>, isPost: bool)
    : (res: (Store, HandleReply))
    ensures res.1 == HandleNotPost <==> !isPost
    ensures res.1 == NoSuchRequest <==> isPost && FollowAt(st, followId).None?
    ensures res.1 == Unauthorized <==>
      isPost && FollowAt(st, followId).Some?
      && OwnerOf(st, st.follows[FollowAt(st, followId).value].following) != Some(actor)
    ensures res.1 == InvalidAction <==>
      isPost && FollowAt(st, followId).Some?
      && OwnerOf(st, st.follows[FollowAt(st, followId).value].following) == Some(actor)
      && action != Some("accept") && action != Some("reject")
    ensures res.1 in {HandleNotPost, NoSuchRequest, Unauthorized, InvalidAction} ==> res.0 == st
    ensures res.1.Decided? || res.1.ServerError? ==>
      var i := FollowAt(st, followId).value;
      var target := st.follows[i].following;
      && OwnerOf(st, target) == Some(actor)
      && SetsStatus(st.follows, res.0.follows, i,
                    if action == Some("accept") then Accepted else Rejected)
      && (res.1.Decided? ==> res.1.followersCount == AcceptedFollowers(res.0.follows, target))
    ensures res.1 == ServerError ==>
      action == Some("accept") && ProfileOf(st, st.follows[FollowAt(st, followId).value].follower).None?
      && res.0 == st.(follows := res.0.follows)
    ensures res.1.Decided? && res.1.accepted ==>
      var f := st.follows[FollowAt(st, followId).value];
      && action == Some("accept")
      && OnlyGraphChanged(st, res.0)
      && ProfileOf(st, f.follower).Some?
      && AddsNotification(st.notifications, res.0.notifications,
                          st.students[ProfileOf(st, f.follower).value].id, actor, FollowAcceptedKind)
    ensures res.1.Decided? && !res.1.accepted ==>
      action == Some("reject") && res.0 == st.(follows := res.0.follows)
  {
    if !isPost then (st, HandleNotPost)
    else match FollowAt(st, followId)
    case None => (st, NoSuchRequest)
    case Some(i) =>
      var f := st.follows[i];
      if OwnerOf(st, f.following) != Some(actor) then (st, Unauthorized)
      else if action == Some("accept") then
        var fs := st.follows[i := Accept(f)];
        match ProfileOf(st, f.follower)
        case None => (st.(follows := fs), ServerError)
        case Some(k) =>
          var note := NewNotification(st.nextId, st.students[k].id, actor, FollowAcceptedKind, None, None, None);
          (st.(follows := fs, notifications := st.notifications + [note], nextId := st.nextId + 1),
           Decided(true, AcceptedFollowers(fs, f.following)))
      else if action == Some("reject") then
        var fs := st.follows[i := Reject(f)];
        (st.(follows := fs), Decided(false, AcceptedFollowers(fs, f.following)))
      else (st, InvalidAction)
  }

  /** Accepting an edge that was not yet accepted raises the profile's accepted
      follower count by exactly one; rejecting an accepted edge lowers it by one. */
  lemma {:induction false} DecisionMovesFollowerCount(
    st: Store, actor: UserId, followId: RowId, action: Option<string>)
    requires HandleFollowRequest(st, actor, followId, action, true).1.Decided?
    ensures var i := FollowAt(st, followId).value;
      var f := st.follows[i];
      var r := HandleFollowRequest(st, actor, followId, action, true).1;
      && (r.accepted && f.status != Accepted ==>
            r.followersCount == AcceptedFollowers(st.follows, f.following) + 1)
      && (!r.accepted && f.status == Accepted ==>
            r.followersCount + 1 == AcceptedFollowers(st.follows, f.following))
      && (r.accepted == (f.status == Accepted) ==>
            r.followersCount == AcceptedFollowers(st.follows, f.following))
  {
    var i := FollowAt(st, followId).value;
    var f := st.follows[i];
    var p := (g: Follow) => g.following == f.following && g.status == Accepted;
    if action == Some("accept") {
      CountIfUpdate(st.follows, i, Accept(f), p);
    } else {
      CountIfUpdate(st.follows, i, Reject(f), p);
    }
  }

  /** Deciding a request keeps the unique-together constraint and the key order. */
  lemma {:induction false} HandleFollowRequestKeepsValid(
    st: Store, actor: UserId, followId: RowId, action: Option<string>, isPost: bool)
    requires Valid(st)
    ensures Valid(HandleFollowRequest(st, actor, followId, action, isPost).0)
  {
    var (st1, r) := HandleFollowRequest(st, actor, followId, action, isPost);
    if r.Decided? || r.ServerError? {
      var n := st.nextId;
      KeyedRowsSameKeys(st.follows, st1.follows, FollowKey, n);
      KeyedRowsRaise(st1.follows, FollowKey, n, st1.nextId);
      if r.Decided? && r.accepted {
        KeyedRowsAppend(st.notifications, st1.notifications[|st.notifications|], NotificationKey, n, n + 1);
        assert st1.notifications == st.notifications + [st1.notifications[|st.notifications|]];
        KeyedRowsRaise(st.hirings, HiringKey, n, n + 1);
      }
      RaiseOtherKeys(st, st1);
    }
  }

  // ------------------------------------------------------------ toggle_follow

  datatype ToggleReply =
    | ToggleNotPost
    | NoSuchStudentToToggle
    | CannotToggleSelf
    | Toggled(following: bool)

  /** `toggle_follow`: delete the edge from the actor to the profile, whatever its
      status, or else create a pending one and send one `follow` notification. */
  function ToggleFollow(st: Store, actor: UserId, target: RowId, isPost: bool)
    : (res: (Store, ToggleReply))
    ensures res.1 == ToggleNotPost <==> !isPost
    ensures res.1 == NoSuchStudentToToggle <==> isPost && OwnerOf(st, target).None?
    ensures res.1 == CannotToggleSelf <==> isPost && OwnerOf(st, target) == Some(actor)
    ensures !res.1.Toggled? ==> res.0 == st
    ensures res.1.Toggled? ==>
      OwnerOf(st, target).Some? && OwnerOf(st, target) != Some(actor)
      && (res.1.following <==> !HasEdge(st.follows, actor, target))
    ensures res.1 == Toggled(false) ==>
      var i := EdgeAt(st.follows, actor, target).value;
      res.0 == st.(follows := st.follows[..i] + st.follows[i + 1..])
    ensures res.1 == Toggled(true) ==>
      && OnlyGraphChanged(st, res.0)
      && AddsPendingEdge(st.follows, res.0.follows, actor, target)
      && AddsNotification(st.notifications, res.0.notifications, target, actor, FollowKind)
  {
    if !isPost then (st, ToggleNotPost)
    else match OwnerOf(st, target)
      case None => (st, NoSuchStudentToToggle)
      case Some(owner) =>
        if owner == actor then (st, CannotToggleSelf)
        else match EdgeAt(st.follows, actor, target)
          case Some(i) => (st.(follows := st.follows[..i] + st.follows[i + 1..]), Toggled(false))
          case None =>
            var edge := Follow(st.nextId, actor, target, Pending);
            var note := NewNotification(st.nextId + 1, target, actor, FollowKind, None, None, None);
            (st.(follows := st.follows + [edge],
                 notifications := st.notifications + [note],
                 nextId := st.nextId + 2),
             Toggled(true))
  }

  /** Under the unique-together constraint, unfollowing leaves no edge at all. */
  lemma ToggleOffLeavesNoEdge(st: Store, actor: UserId, target: RowId, isPost: bool)
    requires Valid(st)
    requires ToggleFollow(st, actor, target, isPost).1 == Toggled(false)
    ensures !HasEdge(ToggleFollow(st, actor, target, isPost).0.follows, actor, target)
  {
    var i := EdgeAt(st.follows, actor, target).value;
    var fs := ToggleFollow(st, actor, target, isPost).0.follows;
    assert forall k :: 0 <= k < |fs| ==> fs[k] == (if k < i then st.follows[k] else st.follows[k + 1]);
  }

  /** Two toggles from no edge leave no edge, and the follow table exactly as it was;
      the notification table keeps the one `follow` notification of the first toggle. */
  lemma ToggleFollowTwiceFromNone(st: Store, actor: UserId, target: RowId)
    requires ToggleFollow(st, actor, target, true).1 == Toggled(true)
    ensures var st1 := ToggleFollow(st, actor, target, true).0;
      var (st2, r2) := ToggleFollow(st1, actor, target, true);
      && r2 == Toggled(false)
      && st2.follows == st.follows
      && !HasEdge(st2.follows, actor, target)
      && |st2.notifications| == |st.notifications| + 1
      && st2 == st.(notifications := st1.notifications, nextId := st.nextId + 2)
  {
    var st1 := ToggleFollow(st, actor, target, true).0;
    assert st1.follows[|st.follows|].follower == actor;
    assert HasEdge(st1.follows, actor, target);
    assert EdgeAt(st1.follows, actor, target) == Some(|st.follows|);
    assert st1.follows[..|st.follows|] == st.follows;
  }

  /** Two toggles from an accepted edge leave a pending one: toggling bypasses the
      approval workflow, and a re-follow starts over as a request. */
  lemma ToggleFollowTwiceResetsStatus(st: Store, actor: UserId, target: RowId)
    requires Valid(st)
    requires ToggleFollow(st, actor, target, true).1 == Toggled(false)
    ensures var st1 := ToggleFollow(st, actor, target, true).0;
      var (st2, r2) := ToggleFollow(st1, actor, target, true);
      && r2 == Toggled(true)
      && EdgeAt(st2.follows, actor, target).Some?
      && st2.follows[EdgeAt(st2.follows, actor, target).value].status == Pending
      && |st2.notifications| == |st.notifications| + 1
  {
    ToggleOffLeavesNoEdge(st, actor, target, true);
    var st1 := ToggleFollow(st, actor, target, true).0;
    assert OwnerOf(st1, target) == OwnerOf(st, target);
    var st2 := ToggleFollow(st1, actor, target, true).0;
    var k := |st1.follows|;
    assert st2.follows[k].follower == actor && st2.follows[k].following == target;
    assert forall j :: 0 <= j < k ==> st2.follows[j] == st1.follows[j];
  }

  /** `toggle_follow` keeps the unique-together constraint and the key order. */
  lemma {:induction false} ToggleFollowKeepsValid(st: Store, actor: UserId, target: RowId, isPost: bool)
    requires Valid(st)
    ensures Valid(ToggleFollow(st, actor, target, isPost).0)
  {
    var (st1, r) := ToggleFollow(st, actor, target, isPost);
    if r == Toggled(true) {
      var n := st.nextId;
      UniqueEdgesAppend(st.follows, st1.follows[|st.follows|]);
      assert st1.follows == st.follows + [st1.follows[|st.follows|]];
      KeyedRowsAppend(st.follows, Follow(n, actor, target, Pending), FollowKey, n, n + 2);
      KeyedRowsAppend(st.notifications, st1.notifications[|st.notifications|], NotificationKey, n, n + 2);
      KeyedRowsRaise(st.hirings, HiringKey, n, n + 2);
      RaiseOtherKeys(st, st1);
    } else if r == Toggled(false) {
      var i := EdgeAt(st.follows, actor, target).value;
      UniqueEdgesRemove(st.follows, i);
      KeyedRowsRemove(st.follows, i, FollowKey, st.nextId);
    }
  }

  // ------------------------------------------------------------ student_profile_view

  datatype ProfilePage =
    | ProfileNotFound
    | Page(
        projects: seq<Project>,
        followStatus: Option<FollowStatus>,
        projectsCount: nat,
        followersCount: nat,
        followingCount: nat,
        pendingRequests: seq<Follow>)

  /** `student_profile_view`: the profile's projects newest first (all of them,
      private ones included), the viewer's follow status (`None` for "none"), counts
      of accepted edges only, and, on one's own profile, the pending requests. */
  function StudentProfileView(st: Store, viewer: UserId, profile: RowId): (page: ProfilePage)
    ensures page == ProfileNotFound <==> OwnerOf(st, profile).None?
    ensures page.Page? ==>
      var own := OwnerOf(st, profile) == Some(viewer);
      && (page.followStatus.None? <==> own || !HasEdge(st.follows, viewer, profile))
      && (page.followStatus.Some? ==>
            page.followStatus.value == st.follows[EdgeAt(st.follows, viewer, profile).value].status)
      && page.followersCount == AcceptedFollowers(st.follows, profile)
      && page.followingCount == AcceptedFollowing(st.follows, OwnerOf(st, profile).value)
      && page.projectsCount == |page.projects|
      && (forall p :: p in page.projects <==> p in st.projects && p.student == profile)
      && (IncreasingBy(st.projects, ProjectKey) ==>
            forall i, j :: 0 <= i < j < |page.projects| ==> page.projects[i].id > page.projects[j].id)
      && (own ==> forall f :: f in page.pendingRequests <==>
                     f in st.follows && f.following == profile && f.status == Pending)
      && (!own ==> page.pendingRequests == [])
  {
    match OwnerOf(st, profile)
    case None => ProfileNotFound
    case Some(owner) =>
      var projects := NewestFirst(st.projects, (p: Project) => p.student == profile);
      NewestFirstDecreasingIf(st.projects, (p: Project) => p.student == profile, ProjectKey);
      var status :=
        if viewer == owner then None
        else match EdgeAt(st.follows, viewer, profile)
          case None => None
          case Some(i) => Some(st.follows[i].status);
      var pending :=
        if viewer == owner
        then Filter(st.follows, (f: Follow) => f.following == profile && f.status == Pending)
        else [];
      Page(projects, status, |projects|,
           AcceptedFollowers(st.follows, profile), AcceptedFollowing(st.follows, owner), pending)
  }
}

=== FILE: sorting.dfy ===
/** Ordering helpers: Python's `sorted(set(...))` of strings, and ordering rows by a
    string column. */
module Sorting {
  import opened Common
  import opened Strings

  /** Strictly ascending in code-point order, hence free of duplicates. */
  ghost predicate StrictlySorted(s: seq<string>) {
    forall i, j :: 0 <= i < j < |s| ==> LexLt(s[i], s[j])
  }

  /** Insert `x` into a strictly ascending list unless it is already there. */
  function InsertUnique(x: string, s: seq<string>): (r: seq<string>)
    requires StrictlySorted(s)
    ensures StrictlySorted(r)
    ensures forall y :: y in r <==> y in s || y == x
  {
    if |s| == 0 then [x]
    else if x == s[0] then s
    else if LexLe(x, s[0]) then
      assert forall j :: 0 < j < |s| ==> LexLt(x, s[j]) by {
        forall j | 0 < j < |s| ensures LexLt(x, s[j]) {
          LexLeTransitive(x, s[0], s[j]);
          if x == s[j] { LexLeAntisymmetric(s[0], s[j]); }
        }
      }
      [x] + s
    else
      LexLeTotal(x, s[0]);
      var rest := InsertUnique(x, s[1..]);
      assert forall y :: y in rest ==> LexLt(s[0], y) by {
        forall y | y in rest ensures LexLt(s[0], y) {
          if y != x {
            var j :| 0 <= j < |s[1..]| && s[1..][j] == y;
            assert s[j + 1] == y;
          }
        }
      }
      [s[0]] + rest
  }

  /** The duplicate-free, ascending list of every string in `xs`: Python
      `sorted(set(xs))`. */
  function SortedUnique(xs: seq<string>): (r: seq<string>)
    ensures StrictlySorted(r)
    ensures forall y :: y in r <==> y in xs
  {
    if |xs| == 0 then []
    else InsertUnique(xs[|xs| - 1], SortedUnique(xs[..|xs| - 1]))
  }

  /** Rows ordered by a string column, non-decreasing. */
  ghost predicate SortedBy<T>(s: seq<T>, key: T -> string) {
    forall i, j :: 0 <= i < j < |s| ==> LexLe(key(s[i]), key(s[j]))
  }

  /** Insert one row into rows already ordered by `key`. */
  function InsertBy<T>(x: T, s: seq<T>, key: T -> string): (r: seq<T>)
    requires SortedBy(s, key)
    ensures SortedBy(r, key)
    ensures multiset(r) == multiset(s) + multiset{x}
  {
    if |s| == 0 then [x]
    else if LexLe(key(x), key(s[0])) then
      assert forall j :: 0 < j < |s| ==> LexLe(key(x), key(s[j])) by {
        forall j | 0 < j < |s| ensures LexLe(key(x), key(s[j])) {
          LexLeTransitive(key(x), key(s[0]), key(s[j]));
        }
      }
      [x] + s
    else
      LexLeTotal(key(x), key(s[0]));
      var rest := InsertBy(x, s[1..], key);
      assert s == [s[0]] + s[1..];
      assert forall y :: y in multiset(rest) ==> LexLe(key(s[0]), key(y)) by {
        forall y | y in multiset(rest) ensures LexLe(key(s[0]), key(y)) {
          if y != x {
            assert y in multiset(s[1..]);
            var j :| 0 <= j < |s[1..]| && s[1..][j] == y;
            assert s[j + 1] == y;
          }
        }
      }
      assert forall j :: 0 <= j < |rest| ==> rest[j] in multiset(rest);
      [s[0]] + rest
  }

  /** Rows ordered by `key` (SQL `ORDER BY key`): a permutation of the input, ordered. */
  function SortBy<T>(s: seq<T>, key: T -> string): (r: seq<T>)
    ensures SortedBy(r, key)
    ensures multiset(r) == multiset(s)
  {
    if |s| == 0 then []
    else
      assert s == s[..|s| - 1] + [s[|s| - 1]];
      InsertBy(s[|s| - 1], SortBy(s[..|s| - 1], key), key)
  }
}

=== FILE: strings.dfy ===
/** String primitives with Python's and JavaScript's meaning: substring search, `split`
    and `join`, non-overlapping counting, `strip`/`trim`, digit tests and code-point order. */
module Strings {
  import opened Common

  /** `pat` occurs in `s` starting at index `i`. */
  predicate OccursAt(s: string, pat: string, i: nat) {
    i + |pat| <= |s| && s[i..i + |pat|] == pat
  }

  /** Python's `pat in s`. */
  predicate Contains(s: string, pat: string) {
    exists i :: 0 <= i <= |s| - |pat| && OccursAt(s, pat, i)
  }

  /** `s` starts with `p` (JavaScript `s.substring(0, |p|) === p`). */
  predicate StartsWith(s: string, p: string) {
    |p| <= |s| && s[..|p|] == p
  }

  /** Leftmost occurrence of a non-empty `pat` in `s` at or after `from`. */
  function FindFrom(s: string, pat: string, from: nat): (r: Option<nat>)
    requires |pat| > 0
    ensures r.Some? ==> from <= r.value && OccursAt(s, pat, r.value)
    ensures r.Some? ==> forall j :: from <= j < r.value ==> !OccursAt(s, pat, j)
    ensures r.None? ==> forall j :: from <= j ==> !OccursAt(s, pat, j)
    decreases |s| - from
  {
    if from + |pat| > |s| then None
    else if s[from..from + |pat|] == pat then Some(from)
    else FindFrom(s, pat, from + 1)
  }

  /** Python's `s.split(sep)` for a non-empty separator: cut at every leftmost
      non-overlapping occurrence. */
  function Split(s: string, sep: string): (r: seq<string>)
    requires |sep| > 0
    ensures |r| >= 1
    decreases |s|
  {
    match FindFrom(s, sep, 0)
    case None => [s]
    case Some(i) => [s[..i]] + Split(s[i + |sep|..], sep)
  }

  /** Python's `sep.join(parts)`. */
  function Join(parts: seq<string>, sep: string): string
  {
    if |parts| == 0 then ""
    else if |parts| == 1 then parts[0]
    else parts[0] + sep + Join(parts[1..], sep)
  }

  /** Joining the pieces of a split with the same separator gives back the string. */
  lemma {:induction false} SplitJoinRoundTrip(s: string, sep: string)
    requires |sep| > 0
    ensures Join(Split(s, sep), sep) == s
    decreases |s|
  {
    match FindFrom(s, sep, 0)
    case None =>
    case Some(i) =>
      var rest := s[i + |sep|..];
      SplitJoinRoundTrip(rest, sep);
      JoinCons(s[..i], Split(rest, sep), sep);
      CutAround(s, sep, i);
  }

  /** Joining a head before a non-empty list puts one separator between them. */
  lemma JoinCons(head: string, tail: seq<string>, sep: string)
    requires |tail| >= 1
    ensures Join([head] + tail, sep) == head + sep + Join(tail, sep)
  {
    assert ([head] + tail)[1..] == tail;
  }

  /** A string is the part before an occurrence, the occurrence, and the part after. */
  lemma CutAround(s: string, sep: string, i: nat)
    requires OccursAt(s, sep, i)
    ensures s == s[..i] + sep + s[i + |sep|..]
  {
    assert s == s[..i] + s[i..i + |sep|] + s[i + |sep|..];
  }

  /** No piece of a split contains the separator. */
  lemma {:induction false} SplitPiecesAvoidSeparator(s: string, sep: string)
    requires |sep| > 0
    ensures forall k :: 0 <= k < |Split(s, sep)| ==> !Contains(Split(s, sep)[k], sep)
    decreases |s|
  {
    match FindFrom(s, sep, 0)
    case None =>
      assert Split(s, sep) == [s];
    case Some(i) =>
      var rest := s[i + |sep|..];
      SplitPiecesAvoidSeparator(rest, sep);
      var head := s[..i];
      HeadAvoidsSeparator(s, sep, i);
      var r := Split(s, sep);
      assert r == [head] + Split(rest, sep);
      forall k | 0 <= k < |r|
        ensures !Contains(r[k], sep)
      {
        if k > 0 {
          assert r[k] == Split(rest, sep)[k - 1];
        }
      }
  }

  /** The text before the leftmost occurrence of `sep` does not contain it. */
  lemma HeadAvoidsSeparator(s: string, sep: string, i: nat)
    requires |sep| > 0 && FindFrom(s, sep, 0) == Some(i)
    ensures !Contains(s[..i], sep)
  {
    var head := s[..i];
    forall j | 0 <= j <= |head| - |sep|
      ensures !OccursAt(head, sep, j)
    {
      assert head[j..j + |sep|] == s[j..j + |sep|];
      assert !OccursAt(s, sep, j);
    }
  }

  /** Python's `s.count(sep)` from index `i` on, by a left-to-right scan that skips
      past every occurrence it counts. */
  function CountFrom(s: string, sep: string, i: nat): nat
    requires |sep| > 0
    decreases |s| - i
  {
    if i + |sep| > |s| then 0
    else if OccursAt(s, sep, i) then 1 + CountFrom(s, sep, i + |sep|)
    else CountFrom(s, sep, i + 1)
  }

  /** Counting from a position where no occurrence starts before `j` is counting from `j`. */
  lemma {:induction false} CountFromSkip(s: string, sep: string, i: nat, j: nat)
    requires |sep| > 0 && i <= j
    requires forall k :: i <= k < j ==> !OccursAt(s, sep, k)
    requires j + |sep| <= |s|
    ensures CountFrom(s, sep, i) == CountFrom(s, sep, j)
    decreases j - i
  {
    if i < j {
      CountFromSkip(s, sep, i + 1, j);
    }
  }

  /** Counting in `s` from `k + m` is counting in `s[k..]` from `m`. */
  lemma {:induction false} CountFromShift(s: string, sep: string, k: nat, m: nat)
    requires |sep| > 0 && k <= |s|
    ensures CountFrom(s, sep, k + m) == CountFrom(s[k..], sep, m)
    decreases |s| - (k + m)
  {
    var t := s[k..];
    if k + m + |sep| <= |s| {
      assert t[m..m + |sep|] == s[k + m..k + m + |sep|];
      if OccursAt(s, sep, k + m) {
        CountFromShift(s, sep, k, m + |sep|);
      } else {
        CountFromShift(s, sep, k, m + 1);
      }
    }
  }

  /** A split has one more piece than there are non-overlapping occurrences of the
      separator. */
  lemma {:induction false} SplitLength(s: string, sep: string)
    requires |sep| > 0
    ensures |Split(s, sep)| == CountFrom(s, sep, 0) + 1
    decreases |s|
  {
    match FindFrom(s, sep, 0)
    case None =>
      if |sep| <= |s| {
        CountFromNone(s, sep, 0);
      }
    case Some(i) =>
      SplitLength(s[i + |sep|..], sep);
      CountFromFirst(s, sep, i);
  }

  /** The count from the start is one for the leftmost occurrence plus the count in
      what follows it. */
  lemma CountFromFirst(s: string, sep: string, i: nat)
    requires |sep| > 0 && FindFrom(s, sep, 0) == Some(i)
    ensures CountFrom(s, sep, 0) == 1 + CountFrom(s[i + |sep|..], sep, 0)
  {
    assert OccursAt(s, sep, i);
    CountFromSkip(s, sep, 0, i);
    var n := CountFrom(s, sep, i + |sep|);
    assert CountFrom(s, sep, i) == 1 + n;
    CountFromShift(s, sep, i + |sep|, 0);
    assert n == CountFrom(s[i + |sep|..], sep, 0);
  }

  /** With no occurrence at or after `i`, the count from `i` is zero. */
  lemma {:induction false} CountFromNone(s: string, sep: string, i: nat)
    requires |sep| > 0
    requires forall k :: i <= k ==> !OccursAt(s, sep, k)
    ensures CountFrom(s, sep, i) == 0
    decreases |s| - i
  {
    if i + |sep| <= |s| {
      CountFromNone(s, sep, i + 1);
    }
  }

  /** The characters Python's `str.strip()` removes (those for which `str.isspace()` holds). */
  predicate IsPySpace(c: char) {
    var n := c as int;
    n == 0x20 || 0x09 <= n <= 0x0D || 0x1C <= n <= 0x1F || n == 0x85 || n == 0xA0
    || n == 0x1680 || 0x2000 <= n <= 0x200A || n == 0x2028 || n == 0x2029
    || n == 0x202F || n == 0x205F || n == 0x3000
  }

  /** The characters JavaScript's `String.prototype.trim` removes (WhiteSpace and
      LineTerminator). */
  predicate IsJsSpace(c: char) {
    var n := c as int;
    n == 0x20 || 0x09 <= n <= 0x0D || n == 0xA0 || n == 0xFEFF
    || n == 0x1680 || 0x2000 <= n <= 0x200A || n == 0x2028 || n == 0x2029
    || n == 0x202F || n == 0x205F || n == 0x3000
  }

  /** Index of the first character at or after `i` that is not `sp`. */
  function SkipForward(s: string, sp: char -> bool, i: nat): (n: nat)
    requires i <= |s|
    ensures i <= n <= |s|
    ensures forall k :: i <= k < n ==> sp(s[k])
    ensures n == |s| || !sp(s[n])
    decreases |s| - i
  {
    if i < |s| && sp(s[i]) then SkipForward(s, sp, i + 1) else i
  }

  /** One past the last character before `j`, and not before `lo`, that is not `sp`. */
  function SkipBackward(s: string, sp: char -> bool, lo: nat, j: nat): (n: nat)
    requires lo <= j <= |s|
    ensures lo <= n <= j
    ensures forall k :: n <= k < j ==> sp(s[k])
    ensures n == lo || !sp(s[n - 1])
    decreases j - lo
  {
    if lo < j && sp(s[j - 1]) then SkipBackward(s, sp, lo, j - 1) else j
  }

  /** `s` with leading and trailing `sp` characters removed: Python `strip()` with
      `IsPySpace`, JavaScript `trim()` with `IsJsSpace`. The kept part is the slice
      `s[lo..hi]`: everything outside it is space, and it neither starts nor ends with
      space. */
  function Trim(s: string, sp: char -> bool): (r: string)
    ensures |r| <= |s|
    ensures |r| == 0 || (!sp(r[0]) && !sp(r[|r| - 1]))
    ensures forall k :: 0 <= k < SkipForward(s, sp, 0) ==> sp(s[k])
    ensures r == s[SkipForward(s, sp, 0)..SkipBackward(s, sp, SkipForward(s, sp, 0), |s|)]
    ensures forall k :: SkipForward(s, sp, 0) + |r| <= k < |s| ==> sp(s[k])
  {
    var lo := SkipForward(s, sp, 0);
    var hi := SkipBackward(s, sp, lo, |s|);
    s[lo..hi]
  }

  /** Python `s.strip()`. */
  function Strip(s: string): string {
    Trim(s, IsPySpace)
  }

  predicate IsDigit(c: char) {
    '0' <= c <= '9'
  }

  /** Python `s.isdigit()` restricted to ASCII digits: non-empty and all digits. */
  predicate IsDigits(s: string) {
    |s| > 0 && forall k :: 0 <= k < |s| ==> IsDigit(s[k])
  }

  /** Python `int(s)` for a string of ASCII digits. */
  function DigitsValue(s: string): (n: nat)
    requires forall k :: 0 <= k < |s| ==> IsDigit(s[k])
  {
    if |s| == 0 then 0
    else
      assert IsDigit(s[|s| - 1]);
      10 * DigitsValue(s[..|s| - 1]) + (s[|s| - 1] as int - '0' as int)
  }

  /** ASCII lower-casing of one character. */
  function LowerChar(c: char): (d: char)
    ensures 'A' <= c <= 'Z' ==> 'a' <= d <= 'z'
    ensures !('A' <= c <= 'Z') ==> d == c
  {
    if 'A' <= c <= 'Z' then (c as int + 32) as char else c
  }

  /** ASCII lower-casing of a string. */
  function Lower(s: string): (r: string)
    ensures |r| == |s|
    ensures forall k :: 0 <= k < |s| ==> r[k] == LowerChar(s[k])
  {
    if |s| == 0 then "" else Lower(s[..|s| - 1]) + [LowerChar(s[|s| - 1])]
  }

  /** Code-point lexicographic order, the order of Python's `sorted` on strings. */
  predicate LexLe(a: string, b: string)
    decreases |a|
  {
    |a| == 0 || (|b| > 0 && (a[0] < b[0] || (a[0] == b[0] && LexLe(a[1..], b[1..]))))
  }

  predicate LexLt(a: string, b: string) {
    LexLe(a, b) && a != b
  }

  lemma {:induction false} LexLeTotal(a: string, b: string)
    ensures LexLe(a, b) || LexLe(b, a)
    decreases |a|
  {
    if |a| > 0 && |b| > 0 && a[0] == b[0] {
      LexLeTotal(a[1..], b[1..]);
    }
  }

  lemma {:induction false} LexLeAntisymmetric(a: string, b: string)
    requires LexLe(a, b) && LexLe(b, a)
    ensures a == b
    decreases |a|
  {
    if |a| > 0 {
      LexLeAntisymmetric(a[1..], b[1..]);
      assert a == [a[0]] + a[1..] && b == [b[0]] + b[1..];
    }
  }

  lemma {:induction false} LexLeTransitive(a: string, b: string, c: string)
    requires LexLe(a, b) && LexLe(b, c)
    ensures LexLe(a, c)
    decreases |a|
  {
    if |a| > 0 && a[0] == b[0] && b[0] == c[0] {
      LexLeTransitive(a[1..], b[1..], c[1..]);
    }
  }
}
